=== FILE: README.md ===
# A Dafny model of the flows workflow engine

flows runs *processes*: ordered lists of tasks and gates. A task maps an IO
value to the next one. A gate decides where the flow goes next:
- an exclusive (XOR) gate names one process;
- an inclusive (OR) gate names several, and ends its process's run one entry
  past itself so that a later resume continues there;
- an AND gate names several processes that all run before the process that
  stopped at it resumes; an offload-AND gate runs them in child workers;
- an event gate waits on a reactor for the first of several events.

The application kernel keeps a stack of process frames, and each flow keeps a
collection of results that lives as long as that flow. The kernel runs the
frame on top and follows an XOR, event, AND or offload-AND gate that a process
hands back. It does not fan out an OR gate: an OR gate handed back is treated
like a plain output, deposited for the source process or returned as the
flow's result, and its process is recorded complete. Only the older kernel
over task sets (src/Kernel.php) follows the branches an OR gate names. The
kernel fires deferred events and observer notifications when a process or the
whole flow ends.

Around this core sit four more parts:
- a service container;
- the offload protocol, which runs processes in child PHP workers connected
  by pipes;
- the older recursive kernel over task sets;
- a Go helper: an HTTP server that external processes register one-shot
  resources with over a command socket.

The model follows the program's own structure, one module per component:

| module | component |
|---|---|
| `Processes` | a process: construction, position, `handle`, `run`/`resume`, clean-up |
| `ProcessRegistry` | the registry of processes, shared (singleton) or fabricated by name |
| `NestedCollection` | the result collection with dotted keys |
| `FlowKernel` | the application kernel's flow loop and its gate handling |
| `Reactor` | the `stream_select` reactor with timers |
| `EventGates` | event gates: fail policy, registration with the reactor, health counters |
| `DeferQueues`, `EventKernel`, `ObserverKernel` | event dispatch and observers, realtime or deferred |
| `Container` | the service container |
| `Offload` | the parent–worker protocol, spawning, the pipe exchange, shutdown |
| `RandomStrings` | the random-string helpers that name terminators and sockets |
| `LegacyTaskSet`, `LegacyRegistry`, `LegacyKernel` | the older engine |
| `ClassNames`, `CliCommands` | the class-name checks of the scaffolding commands |
| `Sanitize`, `GoStrings`, `HttpServer` | the Go HTTP helper |
| `PhpArray`, `Wrappers` | PHP's ordered arrays; `Option` and `Result` |

Everything is pure. Anything the program obtains from outside is a parameter:
- tasks and the values they return;
- gate decisions and whether a class exists;
- the results of reflection;
- the clock, randomness and select readiness;
- byte counts written to a pipe;
- the answers of health probes.

A PHP exception is a `Failure` carrying a value of `Wrappers.Exception`.

## Model

| member | source | states |
|---|---|---|
| Processes.ResolveAll | src/Processes/Process.php:38-51 | the declared entries resolve exactly when every one of them resolves, and then entry i is the resolution of declaration i |
| Processes.Construct | src/Processes/Process.php:32-59 | corrected: an empty list fails with the "no tasks" error; otherwise construction succeeds iff every entry is a task or a gate, at position 0 with one entry per declaration, and fails with the invalid-entry error otherwise |
| Processes.ConstructAsWritten | src/Processes/Process.php:45-50 | as written: construction succeeds iff the list is non-empty and every entry resolves to a task, because the check names an interface no gate implements; every other failure is the invalid-entry error |
| Processes.GateListRefusedAsWritten | src/Processes/Process.php:45-50 | as written, a list with a gate in it is refused with the invalid-entry error, while the corrected constructor keeps the gate in its place |
| Processes.XorGatedProcessRefusedAsWritten | src/Processes/Process.php:45-50 | a task followed by an XOR gate is refused as written and built at position 0 once corrected |
| Processes.ConstructAgreesOnTasks | src/Processes/Process.php:38-51 | the two constructors agree on every list with no gate in it |
| Processes.GetPosition | src/Processes/Process.php:91-96 | no position exactly when the position is past the last task; otherwise the position itself |
| Processes.ProgressVersusPosition | src/Processes/Process.php:91-106 | the progress pair says "finished" exactly when there is no position, and its first component is the position when there is one |
| Processes.FirstStop | src/Processes/Process.php:114-136 | the first XOR or OR gate at or after a position, or the end: no gate lies before it |
| Processes.Feed | src/Processes/Process.php:128-133 | any gate in the range makes the chained walk fail; a failure is the null-observation `TypeError` or the non-object `TypeError` of a gate in the range |
| Processes.Handle | src/Processes/Process.php:114-136 | entries from the position up to the first XOR or OR gate are invoked in order, each fed the previous output; an XOR gate moves the position past the end, an OR gate moves it to the entry after the gate, and running off the end gives the output and finishes; it fails exactly when the reference walk does, with its error: every result is observed and `makeObservation` (line 173) takes an object, so a task returning null, or any gate of another kind (its `__invoke` returns an array, string, bool or int), is a `TypeError` |
| Processes.Run | src/Processes/Process.php:146-154 | refused with "already completed" on a finished process; otherwise it invokes its entries from 0 up to the first XOR or OR gate, and fails with an observation `TypeError` exactly when the reference walk does, which any other gate on the way guarantees |
| Processes.Resume | src/Processes/Process.php:164-171 | refused on a finished process; otherwise it invokes its entries from the current position up to the next XOR or OR gate, and fails with an observation `TypeError` exactly when the reference walk does, which any other gate on the way guarantees |
| Processes.RunIsResumeFromStart | src/Processes/Process.php:146-171 | `run` is `resume` from position 0 |
| Processes.RunWithoutGates | src/Processes/Process.php:128-133 | without XOR or OR gates, `run` succeeds exactly when the reference walk over every entry does, and fails whenever the list holds any other gate; on success it invokes every entry once, in order, returns their chained output and finishes |
| Processes.NoStopMeansEnd | src/Processes/Process.php:114-136 | with no gate after a position, the walk stops at the end |
| Processes.XorGateEndsProcess | src/Processes/Process.php:118-122 | reaching an XOR gate succeeds exactly when the reference walk up to it does (no null task output, no other gate); the process is then finished and a second run is refused |
| Processes.OrGateAdvancesByOne | src/Processes/Process.php:123-127 | reaching an OR gate succeeds exactly when the reference walk up to it does; the position is then the entry after the gate and a resume is accepted |
| Processes.NullFirstOutputFails | src/Processes/Process.php:128-133 | a task at the position that returns null fails the resume at once with the null-observation `TypeError`, whatever follows |
| Processes.OtherGateFirstFails | src/Processes/Process.php:128-133 | an AND, offload-AND, event, fuse or undo-state gate at the position fails the resume at once with the `TypeError` naming its non-object result type |
| Processes.Countdown | src/Processes/Process.php:72-75 | entries are cleaned from the last to the first |
| Processes.CleanUp | src/Processes/Process.php:67-76 | with the kernels bound: flush the process events, observe, flush the process observers, then clean every entry from last to first |
| ProcessRegistry.Add | src/Registries/ProcessRegistry.php:23-49 | fails exactly for a class name that is not a process class, with "Trying to register invalid process: "; otherwise it files the candidate under its class, as a shared instance exactly when the class is a singleton |
| ProcessRegistry.GetNamed | src/Registries/ProcessRegistry.php:69-78 | fails with "Unregistered process " exactly for an unknown name; otherwise it yields the shared instance or a fresh fabrication, which becomes the current process |
| ProcessRegistry.ExistsAfterAdd | src/Registries/ProcessRegistry.php:23-49 | after an add, a name exists iff it existed before or is the added class |
| ProcessRegistry.ReAddOverwrites | src/Registries/ProcessRegistry.php:23-49 | adding the same class twice keeps only the second entry |
| ProcessRegistry.SingletonIsShared | src/Registries/ProcessRegistry.php:39-46 | two lookups of a singleton give the same instance |
| ProcessRegistry.LookupAfterAdd | src/Registries/ProcessRegistry.php:23-78 | a registered non-singleton class is looked up by fabricating it |
| NestedCollection.Put | src/ApplicationKernel.php:117-120 | a dotted key adds its first segment and keeps every other top-level entry |
| NestedCollection.Delete | src/ApplicationKernel.php:69-71 | the key is gone and every other entry is kept unchanged |
| NestedCollection.GetPut | src/ApplicationKernel.php:117-120 | what is put under a dotted key is read back under that key |
| NestedCollection.GetPutOther | src/ApplicationKernel.php:117-120 | a put leaves every key on a diverging path unchanged |
| NestedCollection.DepositThenRead | src/ApplicationKernel.php:136-140 | a result deposited as "Source.Branch" appears under Branch in the bucket read for Source, beside the bucket's other entries |
| FlowKernel.FullStop | src/ApplicationKernel.php:239-242 | sets the full-stop flag and changes nothing else |
| FlowKernel.Named | src/ApplicationKernel.php:57-61 | a lookup fails with "Unregistered process " exactly for unknown names; otherwise a frame's process is on the heap and stack, collection and effects are unchanged |
| FlowKernel.Complete | src/ApplicationKernel.php:77-81 | a finished process is cleaned up and, unless offloaded, recorded complete |
| FlowKernel.PushBranches | src/ApplicationKernel.php:123-134 | each branch frame is pushed as its name is looked up, in order, with the gate's output as input; the first unregistered name throws, leaving the frames before it on the stack |
| FlowKernel.GateTo | src/ApplicationKernel.php:73-105 | an XOR gate or event replaces the frame with the named process, or throws; the heap only grows |
| FlowKernel.OffloadAnd | src/ApplicationKernel.php:106-122 | an empty return throws "Empty return from gate "; otherwise the results are stored and the gate's frame is pushed again |
| FlowKernel.And | src/ApplicationKernel.php:123-134 | the originator is pushed back beneath the branches; the turn goes on exactly when every branch is registered, and otherwise throws with the branch frames before the first unknown name still on the stack |
| FlowKernel.PlainOut | src/ApplicationKernel.php:135-151 | a plain return deposits into the collection and pops, or ends the flow |
| FlowKernel.Dispatch | src/ApplicationKernel.php:73-151 | the step's outcome is routed to its handler; well-formedness and the full-stop flag are kept |
| FlowKernel.Iterate | src/ApplicationKernel.php:46-152 | one turn: a full stop with no previous process throws the `TypeError` of `get_class` on null; a full stop with one goes to `StopAt`; an empty stack throws; a finished frame is refused; otherwise the process is stepped and its outcome dispatched |
| FlowKernel.Flow | src/ApplicationKernel.php:38-155 | the loop keeps the state well-formed; at a full stop with a previous process it returns null exactly when the event kernel has a handler for `ApplicationFullStop`, and throws "No handler defined for event" otherwise |
| FlowKernel.ProcessFlow | src/ApplicationKernel.php:165-183 | an unregistered start throws; a flow that returns ends by flushing the flow events and then the flow observers; the collection made at line 40 is not left behind, whether the flow returns or throws |
| FlowKernel.StopAt | src/ApplicationKernel.php:47-54 | the `ApplicationFullStop` event, naming the last process and its position, goes to the event kernel; it throws "No handler defined for event" exactly when no handler is registered, and otherwise the flow returns null with the kernel's queues as `handle` leaves them |
| FlowKernel.Start | src/ApplicationKernel.php:165-176 | an unregistered start throws; otherwise the flow starts with one new top frame carrying the input and no source, above the old stack, on the empty collection that `flow` makes at line 40 |
| FlowKernel.StartIgnoresCollection | src/ApplicationKernel.php:40 | the start of a flow does not depend on any earlier collection |
| FlowKernel.ProcessFlowIgnoresCollection | src/ApplicationKernel.php:38-40 | a `process` call's whole outcome is the same whatever an earlier flow collected: results kept with `keep_io` or left by a flow that threw never reach it |
| FlowKernel.XorOrEventReplacesFrame | src/ApplicationKernel.php:73-105 | on an XOR gate or event the current process is cleaned and completed and its frame is replaced by the named one |
| FlowKernel.AndPushesOriginatorThenBranches | src/ApplicationKernel.php:123-134 | on an AND gate the originator is pushed back, then each branch in order, each fed the gate's output |
| FlowKernel.OffloadAndStoresAndRepushes | src/ApplicationKernel.php:106-122 | on an offloading AND gate the results go into the collection and the frame is pushed again |
| FlowKernel.PlainDepositsOrEnds | src/ApplicationKernel.php:135-151 | a plain return from a branch deposits under "Source.Branch"; from the last frame it ends the flow with that output |
| FlowKernel.ResumeReadsAndDeletesBucket | src/ApplicationKernel.php:62-72 | a resumed process receives its bucket of results, and the bucket is deleted |
| FlowKernel.FullStopEndsAtNextTurn | src/ApplicationKernel.php:47-55 | a step that calls full stop ends the flow at the next turn: with a handler for `ApplicationFullStop` it returns null and logs the process and position; without one it throws "No handler defined for event" |
| FlowKernel.FullStopIsSticky | src/ApplicationKernel.php:47-55 | once the flag is set, every later flow throws |
| FlowKernel.ProcessSingleStep | src/ApplicationKernel.php:165-183 | a one-step process returns its output after the two flushes |
| Reactor.New | src/Reactor/Reactor.php:31-35 | a new reactor is valid and has no handlers and no timers |
| Reactor.OnReadable | src/Reactor/Reactor.php:37-40 | sets the read handler of one stream and changes nothing else |
| Reactor.OnWritable | src/Reactor/Reactor.php:42-45 | sets the write handler of one stream and changes nothing else |
| Reactor.Remove | src/Reactor/Reactor.php:47-50 | drops both handlers of one stream; the timers are kept |
| Reactor.AddTimer | src/Reactor/Reactor.php:52-55 | appends an armed timer due one interval from now |
| Reactor.Stop | src/Reactor/Reactor.php:110-113 | `stopRun` leaves an idle reactor |
| Reactor.ActAll | src/Reactor/Reactor.php:110-113 | a callback's stop empties the timers; other actions keep them |
| Reactor.SweepActAll | src/Reactor/Reactor.php:57-72 | a stop in mid-sweep clears the handlers and every live slot |
| Reactor.SweepFrom | src/Reactor/Reactor.php:57-72 | the snapshot sweep keeps the handler tables valid and the live table the snapshot's length; its only failure is "not callable" |
| Reactor.SweepFailsIffDueStub | src/Reactor/Reactor.php:57-72 | the sweep walks the snapshot taken when it starts, so it fails exactly when that snapshot holds, from the current position on, a stub that is due |
| Reactor.RunTimers | src/Reactor/Reactor.php:57-72 | a sweep keeps the reactor valid and never adds timers |
| Reactor.RunTimersFailsIffDueStub | src/Reactor/Reactor.php:57-72 | `runTimers` fails exactly when the timer table it starts from holds a due stub |
| Reactor.SweepTame | src/Reactor/Reactor.php:57-72 | with no stopping callback, a sweep reschedules each timer from the given index on |
| Reactor.SweepReschedules | src/Reactor/Reactor.php:57-72 | without a stop, the timers after a sweep are the snapshot with due one-shots dropped and due repeating timers moved one interval on |
| Reactor.MinDue | src/Reactor/Reactor.php:79-82 | the earliest due time among the timers |
| Reactor.Timeout | src/Reactor/Reactor.php:79-82 | no timeout iff there are no timers; zero iff some timer is due; otherwise no timer is due before it ends |
| Reactor.WaitFor | src/Reactor/Reactor.php:88-95 | `stream_select` exactly when some handler exists, over exactly those streams; otherwise a sleep until the next timer |
| Reactor.Filter | src/Reactor/Reactor.php:97-104 | the ready streams are exactly the listed streams the select reports |
| Reactor.DispatchReady | src/Reactor/Reactor.php:97-104 | dispatch keeps the reactor valid, and its only failure is "not callable" |
| Reactor.DispatchTrace | src/Reactor/Reactor.php:97-104 | dispatch succeeds exactly when every ready stream still has a handler once the handlers before it have run; the reactor is then the one the handlers' operations produce, taken in ready order |
| Reactor.DispatchUndisturbed | src/Reactor/Reactor.php:97-104 | when no called handler stops the run or removes a later ready stream, every ready handler runs in order and the result applies all their operations in turn |
| Reactor.Turn | src/Reactor/Reactor.php:76-106 | one loop turn keeps the reactor valid |
| Reactor.TurnUndisturbed | src/Reactor/Reactor.php:97-106 | when no called handler stops the run or removes a ready stream, a turn runs every ready read handler, then every ready write handler, each as registered when the turn began, then sweeps the timers |
| Reactor.Run | src/Reactor/Reactor.php:74-108 | the loop ends only on an idle reactor, and an idle one does not loop |
| Reactor.StopFromRepeatingTimerLeavesStub | src/Reactor/Reactor.php:62-64 | a repeating timer that stops the run is written back as a stub without a callback, so the reactor is not idle and the next sweep that finds the stub due fails |
| Reactor.HandlerGoneMidBatch | src/Reactor/Reactor.php:97-100 | a read handler that stops the run removes a second ready handler in the same batch, whose call then fails |
| Reactor.SweepFromChecked | src/Reactor/Reactor.php:57-72 | the sweep that skips write-backs after a stop never fails on a table of armed timers, and a stop leaves it empty |
| Reactor.RunTimersChecked | src/Reactor/Reactor.php:57-72 | the corrected sweep keeps the reactor valid and never adds timers |
| Reactor.CheckedStopIsFinal | src/Reactor/Reactor.php:57-72 | with the correction, any due callback that stops leaves an idle reactor |
| EventGates.PushEventAsWritten | src/Gates/EventGate.php:52-75 | a fail policy on a frequent event is refused; the Serialize action raises the enum-to-string error; otherwise the event is appended with its counter at the allowance |
| EventGates.PushEvent | src/Gates/EventGate.php:52-75 | the same acceptance, but every rejection is an invalid-argument exception |
| EventGates.SerializeRaisesEngineError | src/Gates/EventGate.php:70 | as written, the Serialize rejection is an engine error and not the documented invalid-argument exception |
| EventGates.PushEventAgreesElsewhere | src/Gates/EventGate.php:52-75 | the written and the corrected `pushEvent` agree except on Serialize |
| EventGates.PushedCounterStartsAtMax | src/Gates/EventGate.php:73 | every stored event's counter starts at its allowance |
| EventGates.RegisterFrom | src/Gates/EventGate.php:98-171 | every frequent event gets its poll timer; every stream event gets its read handler, and its heartbeat when it has an allowance; added timers repeat |
| EventGates.Registration | src/Gates/EventGate.php:82-175 | no events is a failure; otherwise timer 0 is the one-shot expiry, then the repeating timers; the read handlers are exactly those of the stream events; there are no write handlers |
| EventGates.TakeAction | src/Gates/EventGate.php:240-288 | an exhausted counter ignores reports; a healthy one restores the allowance; an unhealthy one counts down, and at zero it applies the fail action, stopping the run for Exit and Resolve and resolving only for Resolve |
| EventGates.CountDown | src/Gates/EventGate.php:240-288 | c unhealthy reports take a counter of c to zero without any action |
| EventGates.ExhaustedIsInert | src/Gates/EventGate.php:240-288 | an exhausted counter ignores every later report |
| EventGates.FailActionOnReportNPlusOne | src/Gates/EventGate.php:240-288 | with an allowance of n, the fail action happens exactly on the (n+1)-th consecutive unhealthy report and never again |
| EventGates.ReplaySplit | src/Gates/EventGate.php:240-288 | replaying two series of reports is replaying their concatenation |
| EventGates.HealthyResets | src/Gates/EventGate.php:240-288 | a healthy report restores the full allowance and never stops the run |
| EventGates.TakeActionAt | src/Gates/EventGate.php:245 | the counter is updated in place for event k only; the winner changes only to event k |
| EventGates.OnCallback | src/Gates/EventGate.php:90-171 | the expiry stops the run; a poll or read that resolves stops the run and makes its event the winner; a heartbeat only updates its event's counter |
| EventGates.OneFrequentRegistration | src/Gates/EventGate.php:90-113 | one frequent event registers the expiry and its poll timer and no handler |
| EventGates.StopInSecondTimerLeavesStub | src/Reactor/Reactor.php:57-72 | a stop from the second, repeating timer of a sweep leaves only that timer's stub |
| EventGates.DueStubCrashes | src/Reactor/Reactor.php:62 | a sweep that finds a stub due has no callback to call |
| EventGates.ResolvingFrequentEventCrashes | src/Gates/EventGate.php:100-113 | a frequent event that resolves leaves a stub behind, so the run does not end and the next sweep fails |
| EventGates.HasFrequentEvents | src/Gates/EventGate.php:212-215 | true iff some event is frequent |
| EventGates.HasHttpEvents | src/Gates/EventGate.php:223-226 | true iff some event's class extends the HTTP event class |
| EventGates.HasStreamEvents | src/Gates/EventGate.php:233-236 | true iff some event is a stream |
| EventGates.CleanUp | src/Gates/EventGate.php:177-185 | the closed resources are exactly those of the stream events |
| DeferQueues.Register | src/Event/Kernel.php:33-40 | files the handler and timing for one class and keeps the rest |
| DeferQueues.Defer | src/Event/Kernel.php:48-65 | appends the subject to its handler's queue; other handlers' queues are unchanged; a new handler goes last |
| DeferQueues.Dispatch | src/Event/Kernel.php:48-65 | a realtime route calls the handler at once; a deferred route queues the subject on the flow or process queue |
| DeferQueues.Unique | src/Event/Kernel.php:67-80 | `array_unique`: the same elements without duplicates |
| DeferQueues.UniqueOfDistinct | src/Event/Kernel.php:67-80 | a list without duplicates is its own `array_unique` |
| DeferQueues.UniqueIsIdempotent | src/Event/Kernel.php:67-80 | `array_unique` twice is `array_unique` once |
| DeferQueues.Drain | src/Event/Kernel.php:67-80 | the calls are exactly the pairs of a handler and a subject deferred for it, without duplicates |
| DeferQueues.FlushFlow | src/Observer/Kernel.php:69-83 | `handleDeferFromFlow` of the observer kernel, and of the event kernel as intended: each distinct deferred subject is dispatched once to its handler, the flow queue is emptied, and the process queue is untouched |
| DeferQueues.FlushProcess | src/Event/Kernel.php:82-95 | `handleDeferFromProcess` of both kernels: each distinct deferred subject is dispatched once to its handler, the process queue is emptied, and the flow queue is untouched |
| DeferQueues.FlushedFlowIsQuiet | src/Observer/Kernel.php:69-83 | after a flush of the flow queue, a second end of flow dispatches nothing |
| DeferQueues.DeferredTwiceDispatchedOnce | src/Event/Kernel.php:67-80 | a subject deferred twice for one handler is handled once |
| EventKernel.Handle | src/Event/Kernel.php:48-65 | an event of an unregistered class fails with "No handler defined for event"; otherwise it is dispatched by its route |
| EventKernel.HandleDeferFromFlowAsWritten | src/Event/Kernel.php:67-80 | as written: it handles the flow queue but empties the process queue and keeps the flow queue |
| EventKernel.FlowEventsHandledAgain | src/Event/Kernel.php:79 | as written, a second end of flow handles the same flow events again |
| EventKernel.ProcessEventDropped | src/Event/Kernel.php:79 | as written, an event deferred to its process's end is dropped unhandled when the flow ends first |
| ObserverKernel.Observe | src/Observer/Kernel.php:46-63 | an unobserved class is ignored; otherwise it is dispatched by its observer's route |
| ObserverKernel.DeferredObservedAtFlowEnd | src/Observer/Kernel.php:46-83 | a subject whose observer defers to the flow's end is not observed at once, and is observed exactly once when the flow ends |
| Container.New | src/Container/Container.php:19-23 | an empty, unbooted container |
| Container.Fabricate | src/Container/Container.php:48-69 | a fabricated service is an instance of the requested class, from its provider when one is set |
| Container.Get | src/Container/Container.php:30-46 | a missing key fails; a singleton is made once and served from then on; other services are made fresh; existing services are kept |
| Container.Register | src/Container/Container.php:131-140 | files the entry, and the implementation when one is given, marking the entry booted |
| Container.BootFrom | src/Container/Container.php:110-117 | every eager singleton entry gets its service; with none eager, nothing changes |
| Container.Prepare | src/Container/Container.php:101-108 | the container registers itself as a booted singleton |
| Container.Boot | src/Container/Container.php:95-119 | a second boot fails with "Service container already booted"; a boot serves the container itself and keeps the existing services |
| Container.SharedServiceIsStable | src/Container/Container.php:30-46 | two gets of a singleton give the same service |
| Container.RegisteredImplementationIsServed | src/Container/Container.php:131-140 | a registered singleton implementation is what `get` serves |
| Container.BootOnlyOnce | src/Container/Container.php:97-99 | after a boot, the next boot is refused |
| OffloadWorker.Encode | src/OffloadedProcess.php:58 | an encoded payload holds only code characters, one per bit |
| OffloadWorker.DecodeEncode | src/OffloadedProcess.php:56-58 | decoding an encoding, with any non-code tail such as the end of line, gives the payload back |
| OffloadWorker.Terminator | src/Processes/Internal/IO/ContentTerminatorIO.php:16-19 | the supplied terminator is used verbatim; the default is 68 characters framed by "---" |
| OffloadWorker.DefaultTerminatorAlphabet | src/Processes/Internal/IO/ContentTerminatorIO.php:18 | the default terminator holds only alphanumerics and '-' |
| OffloadWorker.FirstLineOf | src/OffloadedProcess.php:43 | `fgets` returns the first line with its end of line |
| OffloadWorker.TrimLine | src/OffloadedProcess.php:43 | `trim` removes only the end of line from a line with non-blank ends |
| OffloadWorker.ImplodeExplode | src/OffloadedProcess.php:45 | exploding on '|' loses nothing: imploding gives the string back |
| OffloadWorker.ExplodeThree | src/OffloadedProcess.php:45 | three '|'-free fields joined by '|' explode into those three fields |
| OffloadWorker.ParseMessage | src/OffloadedProcess.php:43-45 | the worker's parse inverts the parent's setup line |
| OffloadWorker.NameWithBarIsCut | src/OffloadedProcess.php:45 | a process name containing '|' is cut, and the fields after it shift |
| OffloadWorker.Worker | src/OffloadedProcess.php:27-64 | under strict types, empty input fails in `trim` and a line without a payload field fails in `base64_decode`, though a missing class fails first; a process that throws fails the worker; otherwise the worker writes the encoded result line and then the terminator line, and exits 0 |
| OffloadWorker.WorkerLines | src/OffloadedProcess.php:58-61 | the worker's output reads back as exactly those two lines |
| Offload.SpawnFrom | src/Processes/Internal/OffloadProcess.php:70-81 | the table holds one child per requested name, the last one opened for a repeated name |
| Offload.Spawn | src/Processes/Internal/OffloadProcess.php:61-86 | the table's names are exactly the requested ones, and a name used once holds its own child |
| Offload.DuplicateNameOrphansChild | src/Processes/Internal/OffloadProcess.php:80 | a name requested twice loses its first child from the table |
| Offload.RegisterAll | src/Processes/Internal/OffloadProcess.php:87-141 | each child adds its stdin writer, its stdout reader and, with a time limit, one watchdog |
| Offload.RegisterOne | src/Processes/Internal/OffloadProcess.php:94-141 | one child's writer, reader and optional watchdog, due one tick before the limit |
| Offload.Exchange | src/Processes/Internal/OffloadProcess.php:87-148 | the writers are exactly the children's stdins, the readers exactly their stdouts, with one watchdog per child when limited |
| Offload.StderrNeverRead | src/Processes/Internal/OffloadProcess.php:87-148 | no child's stderr is registered |
| Offload.OnStdinAsWritten | src/Processes/Internal/OffloadProcess.php:94-107 | as written: a zero-byte write fails; any other write removes the writer, so a short write keeps only a prefix of the line |
| Offload.ShortWriteLosesLine | src/Processes/Internal/OffloadProcess.php:102-106 | a short write succeeds while the child gets a line without its end of line |
| Offload.OnStdin | src/Processes/Internal/OffloadProcess.php:94-107 | as intended: what was written plus what is pending is the line, and the writer is removed exactly when nothing is pending |
| Offload.DeliverSendsPrefix | src/Processes/Internal/OffloadProcess.php:94-107 | successive non-empty writes always send a prefix of the line |
| Offload.DeliverCompletes | src/Processes/Internal/OffloadProcess.php:94-107 | enough writes deliver the whole line |
| Offload.OnStdout | src/Processes/Internal/OffloadProcess.php:108-118 | the terminator line removes the reader; any other line is decoded and stored under the process name |
| Offload.DefaultTerminatorDistinguishable | src/Processes/Internal/IO/ContentTerminatorIO.php:16-19 | the default terminator cannot be mistaken for a payload line and holds neither '|' nor an end of line |
| Offload.ExchangeRoundTrip | src/Processes/Internal/OffloadProcess.php:94-118 | for one child, the worker succeeds exactly when the process returns; the stored result is then the process's result on the parent's payload, and otherwise the worker fails with the process's error |
| Offload.OnWatchdog | src/Processes/Internal/OffloadProcess.php:121-141 | a running child loses its handlers; the watchdog never stops the run |
| Offload.Shutdown | src/Processes/Internal/OffloadProcess.php:149-168 | every running child is terminated and every child still running after that is closed |
| Offload.LocateScript | src/Processes/Internal/OffloadProcess.php:45-60 | fails when the directory cannot be entered, then when the script is not readable; otherwise passes the IO through |
| RandomStrings.AlphanumericsAreAlphanumeric | src/Traits/PseudoRandomString.php:13 | the alphabet is the 62 letters and digits |
| RandomStrings.Shuffle | src/Traits/PseudoRandomString.php:13 | a shuffle is a permutation |
| RandomStrings.ShuffleKeepsElements | src/Traits/PseudoRandomString.php:13 | a shuffle keeps every element |
| RandomStrings.GetAlphaNumeric | src/Traits/PseudoRandomString.php:9-22 | the prefix, a permutation of the 62 alphanumerics, then the suffix |
| RandomStrings.FalsyAffixesIgnored | src/Traits/PseudoRandomString.php:14-19 | empty or "0" affixes are left out |
| RandomStrings.RandomHex | src/Traits/RandomString.php:14 | `bin2hex` of n bytes: 2n lower-case hex digits |
| RandomStrings.GetHexadecimalAsWritten | src/Traits/RandomString.php:9-23 | as written: a length below 1 fails; a prefix replaces the hex digits instead of preceding them |
| RandomStrings.GetHexadecimal | src/Traits/RandomString.php:9-23 | as intended: the prefix, 2·length hex digits, then the suffix |
| RandomStrings.PrefixDropsHex | src/Traits/RandomString.php:15-17 | as written, with a prefix the result does not depend on the randomness |
| RandomStrings.SocketNameCollides | src/Gates/Events/HttpEvent.php:72 | as written, every HTTP event's socket name is "flows-.sock.sock" |
| RandomStrings.IntendedKeepsHex | src/Traits/RandomString.php:9-23 | as intended, the hex digits are always there, and without a prefix both versions agree |
| LegacyTaskSet.New | src/Task/Set.php:52-64 | fails with "Invalid task set" exactly for an empty list or a non-task entry; otherwise it keeps the entries in order |
| LegacyTaskSet.Walk | src/Task/Set.php:98-116 | tasks run chained until a gate: an XOR gate leaves the cursor on the last entry, an OR gate leaves it on the gate, and the end leaves it past the end |
| LegacyTaskSet.Process | src/Task/Set.php:98-116 | a done set is refused with "This task set is done"; otherwise it walks from the first entry |
| LegacyTaskSet.Resume | src/Task/Set.php:124-145 | refused on a done set, and unless the cursor is on an OR gate; a gate at the end finishes with the input as output |
| LegacyTaskSet.CleanUpOrder | src/Task/Set.php:70-74 | entries are cleaned from the last to the first |
| LegacyTaskSet.TasksOnlyRunThrough | src/Task/Set.php:98-116 | a set of only tasks runs each once in order, ends done, and refuses a second `process` |
| LegacyTaskSet.XorGateLeavesSetOpen | src/Task/Set.php:98-116 | after an XOR gate the set is not done and can be processed again |
| LegacyTaskSet.OrGateThenResume | src/Task/Set.php:124-145 | after an OR gate, `resume` continues with the entry after the gate |
| LegacyRegistry.Add | src/Task/Registry.php:44-47 | files the set under its class, overwriting, and keeps the rest |
| LegacyRegistry.GetNamed | src/Task/Registry.php:63-69 | fails with "Unregistered task set " exactly for unknown names; otherwise it returns the stored set and makes it current |
| LegacyRegistry.AddThenGet | src/Task/Registry.php:44-81 | a set that was added is found again, and other names' existence does not change |
| LegacyKernel.ProcessTaskSet | src/Kernel.php:121-150 | unknown sets and done sets throw; a return ends with the set's clean-up, and returning from the first set stops the kernel and fires the deferred notifications |
| LegacyKernel.GateOrReturn | src/Kernel.php:74-113 | observers are notified first; a plain return and an XOR gate record the set complete; an OR gate does not |
| LegacyKernel.Fanout | src/Kernel.php:89-108 | no branches throws; otherwise one result per branch, collected in order, after the gate's own set is resumed |
| LegacyKernel.Branches | src/Kernel.php:89-108 | the branches run in listed order with the same input and their results are collected |
| LegacyKernel.PlainSetRun | src/Kernel.php:121-150 | a first run of plain tasks returns their chained output: notified, recorded complete, cleaned up, then deferred notifications |
| LegacyKernel.SecondRouteToFinishedSetFails | src/Kernel.php:121-150 | a second route to a finished set throws "This task set is done" |
| ClassNames.ClassNameIsValid | src/Traits/ClassChecker.php:9-20 | the pattern accepts a name, or a name followed by one final newline |
| ClassNames.IsValid | src/Traits/ClassNameChecker.php:9-20 | the name checker uses the same pattern |
| ClassNames.EmptyOrDigitFirstInvalid | src/Traits/ClassChecker.php:9 | the empty name and names starting with a digit fail |
| ClassNames.TrailingNewlineAccepted | src/Traits/ClassChecker.php:9 | one trailing newline passes; two do not |
| ClassNames.ClassNameIsValidStrict | src/Traits/ClassChecker.php:9-20 | with the `D` modifier: exactly a name |
| ClassNames.StrictRefusesNewline | src/Traits/ClassChecker.php:9 | with the `D` modifier a trailing newline fails |
| ClassNames.ClassFilePath | src/Traits/ClassChecker.php:36-48 | an unknown kind raises the unhandled-match error; otherwise base, directory, name and suffix in that order |
| ClassNames.ClassFileExists | src/Traits/ClassChecker.php:30-56 | whether the file for the kind exists |
| ClassNames.PathDeterminesName | src/Traits/ClassChecker.php:36-48 | for one kind and base directory, the path determines the name |
| ClassNames.HandlerCheckMissesScaffoldedFile | src/Traits/ClassChecker.php:39 | the handler check looks for "…Event.php" while the scaffolder writes "…EventHandler.php" |
| ClassNames.ClassFilePathIntended | src/Processes/Internal/CLI/Create/EventProcess.php:136 | the corrected check finds the handler where the scaffolder writes it and agrees on every other kind |
| CliCommands.DiffKeys | src/Processes/CLICommand.php:14-17 | `array_diff_key`: the given keys that are not declared |
| CliCommands.CheckArguments | src/Processes/CLICommand.php:14-17 | accepted exactly when every given argument is declared |
| Sanitize.BlockedIsTable | src/Helpers/HttpServer/sanitize/sanitize.go:5-37 | the blocked runes are exactly the table's entries |
| Sanitize.C0ControlsAreRange | src/Helpers/HttpServer/sanitize/sanitize.go:7-13 | the C0 entries are 0 to 0x1F |
| Sanitize.SpacesAreListed | src/Helpers/HttpServer/sanitize/sanitize.go:16-22 | the listed invisible spaces |
| Sanitize.MarksAreListed | src/Helpers/HttpServer/sanitize/sanitize.go:25-36 | the zero-width, BiDi, operator and byte-order-mark entries |
| Sanitize.DecodeEncode | src/Helpers/HttpServer/sanitize/sanitize.go:39-51 | decoding an encoded rune gives it back, whatever follows |
| Sanitize.EncodeDecode | src/Helpers/HttpServer/sanitize/sanitize.go:39-51 | encoding a rune decoded from well-formed bytes gives those bytes back |
| Sanitize.DecodeAllEncodeAll | src/Helpers/HttpServer/sanitize/sanitize.go:39-51 | ranging over an encoded rune list gives the list back |
| Sanitize.Filter | src/Helpers/HttpServer/sanitize/sanitize.go:39-51 | exactly the runes that are not blocked survive |
| Sanitize.FilterIsIdempotent | src/Helpers/HttpServer/sanitize/sanitize.go:39-51 | filtering twice is filtering once |
| Sanitize.StripInvisibleRunes | src/Helpers/HttpServer/sanitize/sanitize.go:39-51 | the result decodes to the input's runes without the blocked ones, and is clean |
| Sanitize.StripInvisibleRunesIsIdempotent | src/Helpers/HttpServer/sanitize/sanitize.go:39-51 | stripping twice is stripping once |
| Sanitize.StripInvisibleBytes | src/Helpers/HttpServer/sanitize/sanitize.go:53-74 | the result is a subsequence of the input, and equal length means unchanged |
| Sanitize.BytesAgreeWithRunes | src/Helpers/HttpServer/sanitize/sanitize.go:53-74 | on well-formed input the byte walk agrees with the rune walk |
| Sanitize.StripBytesKeepsExactlyClean | src/Helpers/HttpServer/sanitize/sanitize.go:53-74 | the byte walk leaves its input unchanged iff the input is clean |
| Sanitize.WellFormedIsCleanAfterOnePass | src/Helpers/HttpServer/sanitize/sanitize.go:53-74 | one pass cleans well-formed input |
| Sanitize.SmuggledZeroWidthSpace | src/Helpers/HttpServer/sanitize/sanitize.go:53-74 | E2 01 80 8B loses only the 01 and becomes a zero-width space |
| Sanitize.StripInvisibleBytesFully | src/Helpers/HttpServer/sanitize/sanitize.go:53-74 | repeating the pass until nothing changes gives a clean subsequence, and clean input is kept |
| Sanitize.FullyAgreesOnWellFormed | src/Helpers/HttpServer/sanitize/sanitize.go:53-74 | on well-formed input the repeated pass is the single pass |
| GoStrings.TrimSpace | src/Helpers/HttpServer/http-server.go:467 | `strings.TrimSpace`: a contiguous part of the input with no white-space rune at either end |
| GoStrings.TrimmedIsFixed | src/Helpers/HttpServer/http-server.go:467 | text without white space at its ends is its own trim |
| GoStrings.TrimSpaceIsIdempotent | src/Helpers/HttpServer/http-server.go:467 | trimming twice is trimming once |
| HttpServer.Start | src/Helpers/HttpServer/http-server.go:518-545 | the server starts with only the enabled /ping resource |
| HttpServer.NormalizeFiles | src/Helpers/HttpServer/http-server.go:467-468 | a filed path is clean and decodes to the trimmed path's runes without the invisible ones |
| HttpServer.NewEntry | src/Helpers/HttpServer/http-server.go:476-495 | a new entry is enabled and idle with the command's socket, owner and lifetime; no methods means GET, POST, PUT, PATCH and DELETE |
| HttpServer.Register | src/Helpers/HttpServer/http-server.go:462-499 | refused methods give "invalid method" and a filed path "path already registered", with the mux unchanged; otherwise the normalized path is added and nothing else changes |
| HttpServer.Deregister | src/Helpers/HttpServer/http-server.go:501-514 | an unknown raw path gives "resource not found", a foreign owner "wrong resource owner"; otherwise exactly that path is removed |
| HttpServer.Dispatch | src/Helpers/HttpServer/http-server.go:590-598 | only "REGISTER" and "DEREGISTER" are understood; anything else is "unknown command" |
| HttpServer.TickLowersCounting | src/Helpers/HttpServer/http-server.go:607-629 | a tick lowers the lifetime of an idle, unhandled, positive-lifetime entry other than /ping by one and changes nothing else |
| HttpServer.Housekeep | src/Helpers/HttpServer/http-server.go:633-679 | keeps exactly the entries that are /ping, being handled, or neither handled nor expired; with /ping present, shuts down exactly when only /ping is left |
| HttpServer.AcceptScan | src/Helpers/HttpServer/http-server.go:334-358 | the listed media types give 200 exactly when a served type comes before any unparsable one; otherwise 400 at an unparsable type or 415 when none is served |
| HttpServer.Admission | src/Helpers/HttpServer/http-server.go:309-358 | the refusal code in the server's order: unknown or disabled path 404, busy 423, method 405, then the `Accept` verdict; a GET of /ping answers 200 itself |
| HttpServer.Serve | src/Helpers/HttpServer/http-server.go:308-453 | an admitted request is handed over once and the entry is marked handled and disabled |
| HttpServer.RegisterTwiceRefused | src/Helpers/HttpServer/http-server.go:471-474 | registering a path twice is refused the second time |
| HttpServer.LowerCaseCommandsUnknown | src/Gates/Events/HttpEvent.php:77 | the commands the PHP side sends, "register" and "deregister", are unknown to the dispatcher |
| HttpServer.DispatchAnyCase | src/Helpers/HttpServer/http-server.go:590-598 | the corrected dispatcher ignores letter case |
| HttpServer.PhpRegisterDispatched | src/Gates/Events/HttpEvent.php:77 | with the correction, the PHP side's "register" registers |
| HttpServer.PhpDeregisterDispatched | src/Gates/Events/HttpEvent.php:99 | with the correction, the PHP side's "deregister" deregisters |
| HttpServer.PaddedPathOutlivesDeregister | src/Helpers/HttpServer/http-server.go:505 | registration files a path under its normalized form; when that form differs from the path as sent, deregistering the path as sent finds nothing and the entry stays |
| HttpServer.NormalizePadded | src/Helpers/HttpServer/http-server.go:467-468 | "/x " is filed as "/x", which is neither "/x " nor /ping |
| HttpServer.PingCanBeDeregistered | src/Helpers/HttpServer/http-server.go:670-676 | the empty owner deregisters /ping, after which an empty registry never shuts the server down |
| HttpServer.DeregisterIntended | src/Helpers/HttpServer/http-server.go:501-514 | the normalized path is looked up and /ping is never removed; success removes exactly that path |
| HttpServer.RegisterThenDeregister | src/Helpers/HttpServer/http-server.go:462-514 | a registration undone by the corrected deregistration restores the mux |
| HttpServer.PingAlwaysThere | src/Helpers/HttpServer/http-server.go:518-545 | with the corrected deregistration, no operation removes /ping |
| HttpServer.IdleEntryCountsDown | src/Helpers/HttpServer/http-server.go:607-629 | an idle entry loses one unit of lifetime per tick |
| HttpServer.IdleEntryExpires | src/Helpers/HttpServer/http-server.go:607-667 | an idle entry is swept once its lifetime has run out |
| HttpServer.ServedOnce | src/Helpers/HttpServer/http-server.go:308-453 | after an accepted request the entry refuses every later one, and the next sweep removes it |

## Left out

- Concurrency, locks and goroutines. Each Go loop is one sequential step. The unlocked map read in the lifetime ticker is not modelled.
- I/O:
  - `net/http`, JSON, MIME parsing;
  - the request-body file handling of `ServeHTTP` and the socket exchange with the external process (their result is a parameter);
  - logging and `main`.
  The `Accept` header is given already parsed.
- `proc_open`, pipes and stream I/O. Children are handles, and write counts, lines read and process status are parameters.
- PHP serialization and base64 are a bit-string encoding with the same relevant property: no '|', '-' or white space.
- Floating point. `microtime` is a tick count in nat, 1000 ticks per second. A frequent event's polling interval, a float number of seconds, is given already converted to ticks.
- The directory separator is "/".
- Reflection and the factory are oracles: class existence, singleton attributes, `instanceof`, and construction.
- Some behaviour is assumed:
  - a missing container entry is an engine error;
  - the message of an unhandled `match` is shown without PHP's escaping.
- NestedCollection.Put: `Collectibles\Collection::add` belongs to an outside library and is not part of this model. For the flow kernel's result collection it is taken to store the value at the dotted key, replacing what was there. So an AND gate that names one branch twice, or a bucket kept across rounds with `gate.on_branch.keep_io`, keeps only the latest deposit under that key. An appending `add` would accumulate them.
- DeferQueues.Defer: for the two deferral queues, the same `add` is taken to append the subject to its handler's list. That is how both kernels' drains read a key: as a list passed through `array_unique`. Their branch for a single non-list value is then never taken. The two uses assume different behaviours of one library method, and at most one of them can match it.
- Processes.Handle: a task's `__invoke` is an oracle that returns an output or null, so a task that throws is not modelled. In the source, such an exception propagates out of `Process::handle`, the kernel loop and `flow()` uncaught. The only catch is for `HttpHandlerServerRunningException` (src/ApplicationKernel.php:90).
- FlowKernel.Iterate: the step of a process is an oracle that may hand back an AND, offload-AND or event gate, as the kernel's branches (src/ApplicationKernel.php:73-134) expect. `Process::handle` as written never returns such a gate: it invokes it as a task and the observation fails (Processes.OtherGateFirstFails). The model keeps the kernel's branches as the kernel states them and does not tie the oracle to Processes.Handle.
- LegacyTaskSet.Walk: a task is a total oracle, so a task that throws is not modelled. In the source, the exception propagates out of the task set and the legacy kernel.
- FlowKernel.Iterate: the process step and the offload exchange are total oracles, so an exception from a task, a gate or the offload is not modelled. In the source, it ends the flow uncaught.
- LegacyKernel.ProcessTaskSet: task calls and gate decisions are total oracles, so an exception from them is not modelled.
- OffloadWorker.Worker: a failure writes neither output line. The error text PHP may print for an uncaught exception is not modelled. Without a terminator line, the parent reads until the watchdog removes the child's handlers.
- `makeObservation` inside `Process::handle` is modelled only as its refusal of a non-object: a task's null output, or the array, string, bool or int a gate of another kind returns. The observation itself is not modelled; the observer kernel is modelled on its own.
- Processes.Handle: a gate of another kind invoked as a task fails at its observation, so what its `__invoke` computes is not modelled.
- Processes.Construct: the rest of the model builds processes with the corrected constructor, which accepts gates (see Findings). With the check as written, no process with a gate could be built, and `handle`'s declared return type `GateContract|IO|null` (src/Processes/Process.php:114) would also refuse a returned XOR or OR gate; the model returns the gate as evidently intended.
- FlowKernel.StopAt: the event kernel in the kernel state sees only the `ApplicationFullStop` event. What a realtime handler does is not modelled: its call is recorded. The kernel's flow-end flush is recorded as an effect; the queues' flush is modelled on its own by `DeferQueues`.
- LegacyKernel.ProcessTaskSet, FlowKernel.Flow and Reactor.Run: termination is bounded by a `fuel` argument. Running out of fuel is an outcome of its own and says nothing about the program.
- Reactor.Run: the stop at an idle reactor is stated. What each turn does is stated by Reactor.TurnUndisturbed, Reactor.DispatchTrace and the sweep lemmas.
- EventGates.Registration: the heartbeat probes (`pingHandlerServer`, `stream_get_meta_data`, `connectWithHost`) are a `healthy` argument.

## Findings

| source | as written | input that shows it | evidently intended | confidence | as-written member | corrected member |
|---|---|---|---|---|---|---|
| src/Reactor/Reactor.php:62-64 | a repeating timer is written back after its callback runs, even when that callback called `stopRun` and cleared the table | a frequent gate event whose poll resolves | a stop ends the run; no stub without a callback remains to crash the next sweep | not executed | Reactor.StopFromRepeatingTimerLeavesStub | Reactor.CheckedStopIsFinal |
| src/Traits/RandomString.php:15-17 | with a prefix, the result is prefix + suffix, and the random hex digits are dropped | prefix "flows-", suffix ".sock" | prefix + hex + suffix | not executed | RandomStrings.SocketNameCollides | RandomStrings.IntendedKeepsHex |
| src/Gates/EventGate.php:70 | the message interpolates the enum case, which raises an engine error | `pushEvent($e, 1, Behaviour::Serialize)` | an `InvalidArgumentException` naming the behaviour | not executed | EventGates.SerializeRaisesEngineError | EventGates.PushEvent |
| src/Processes/Internal/OffloadProcess.php:102-106 | a short `fwrite` counts as success and the writer is removed | a write that returns fewer bytes than the line | keep writing the rest | not executed | Offload.ShortWriteLosesLine | Offload.DeliverCompletes |
| src/Event/Kernel.php:79 | the end of a flow resets the process queue, and the flow queue is never cleared | a second flow, or a process event pending when the flow ends | clear the flow queue | not executed | EventKernel.FlowEventsHandledAgain | DeferQueues.FlushFlow |
| src/Helpers/HttpServer/sanitize/sanitize.go:53-74 | dropping one invisible byte can join its neighbours into an invisible rune | bytes E2 01 80 8B | output with no invisible rune | not executed | Sanitize.SmuggledZeroWidthSpace | Sanitize.StripInvisibleBytesFully |
| src/Helpers/HttpServer/http-server.go:590-598 | the command match is case-sensitive, while the PHP side sends "register" and "deregister" | any registration from an HTTP event | the PHP side's commands are understood | not executed | HttpServer.LowerCaseCommandsUnknown | HttpServer.DispatchAnyCase |
| src/Helpers/HttpServer/http-server.go:505 | deregister looks up the path as sent, while register files it trimmed and stripped | path "/x ", filed as "/x" | deregistering what was registered | not executed | HttpServer.PaddedPathOutlivesDeregister | HttpServer.RegisterThenDeregister |
| src/Helpers/HttpServer/http-server.go:670-676 | /ping, with owner "", can be deregistered; afterwards an empty registry counts -1 remaining and never shuts down | DEREGISTER "/ping" with an empty owner | /ping always exists | not executed | HttpServer.PingCanBeDeregistered | HttpServer.PingAlwaysThere |
| src/Traits/ClassChecker.php:39 | the event handler check looks for "…Event.php" | a handler scaffolded as "…EventHandler.php" | the scaffolder's file name | not executed | ClassNames.HandlerCheckMissesScaffoldedFile | ClassNames.ClassFilePathIntended |
| src/Processes/Process.php:45-50 | the entry check names `Flows\Contracts\Gate` (imported at line 9), which no gate implements: every gate extends `Flows\Gates\Gate`, which implements `Flows\Contracts\Gates\Gate` | a task followed by an `XorGate` subclass, as the exclusive-gate process test declares | tasks and gates are both accepted | not executed | Processes.XorGatedProcessRefusedAsWritten | Processes.Construct |
| src/Traits/ClassChecker.php:9 | `$` without the `D` modifier accepts one trailing newline | "Foo\n" | exactly a class name | not executed | ClassNames.TrailingNewlineAccepted | ClassNames.ClassNameIsValidStrict |

=== FILE: class_names.dfy ===
/** The scaffolding commands' checks on a class name: the name pattern, and
    the file a class of a given kind would live in. PHP strings are byte
    strings; each `char` here is one byte. The directory separator is "/".
    Whether a file exists is a parameter. */
module ClassNames {
  import opened Wrappers

  /** A byte that may start a class name: a letter, '_' or a byte from 0x80 on. */
  predicate NameStart(c: char) {
    ('A' <= c <= 'Z') || ('a' <= c <= 'z') || c == '_' || (0x80 <= c as int <= 0xFF)
  }

  /** A byte that may follow: additionally a digit. */
  predicate NamePart(c: char) {
    NameStart(c) || ('0' <= c <= '9')
  }

  /** The whole of `s` is a class name. */
  predicate NameBody(s: string) {
    |s| > 0 && NameStart(s[0]) && forall i :: 1 <= i < |s| ==> NamePart(s[i])
  }

  /** What `^…$` accepts without the `D` modifier: `$` also matches before a
      final newline, so one trailing newline is let through. */
  predicate PatternMatches(s: string) {
    NameBody(s) || (|s| > 0 && s[|s| - 1] == '\n' && NameBody(s[..|s| - 1]))
  }

  /** `classNameIsValid`: a scan of the name, byte by byte. */
  method ClassNameIsValid(name: string) returns (valid: bool)
    ensures valid <==> PatternMatches(name)
  {
    var n := |name|;
    if n > 0 && name[n - 1] == '\n' {
      n := n - 1;
    }
    assert PatternMatches(name) <==> NameBody(name[..n]);
    if n == 0 || !NameStart(name[0]) {
      return false;
    }
    var i := 1;
    while i < n
      invariant 1 <= i <= n
      invariant forall j :: 1 <= j < i ==> NamePart(name[j])
    {
      if !NamePart(name[i]) {
        assert !NameBody(name[..n]) by {
          assert name[..n][i] == name[i];
        }
        return false;
      }
      i := i + 1;
    }
    return true;
  }

  /** `isValid` of the name checker: the same pattern. */
  method IsValid(name: string) returns (valid: bool)
    ensures valid <==> PatternMatches(name)
  {
    valid := ClassNameIsValid(name);
  }

  /** The empty name and names that start with a digit fail. */
  lemma EmptyOrDigitFirstInvalid(s: string)
    requires |s| == 0 || '0' <= s[0] <= '9'
    ensures !PatternMatches(s)
  {
    if |s| > 0 && s[|s| - 1] == '\n' && |s| > 1 {
      assert s[..|s| - 1][0] == s[0];
    }
  }

  /** A name followed by one newline passes; a second newline does not. */
  lemma TrailingNewlineAccepted(s: string)
    ensures PatternMatches(s + "\n") <==> NameBody(s)
    ensures !PatternMatches(s + "\n\n")
  {
    assert (s + "\n")[..|s|] == s;
    var t := s + "\n\n";
    assert t[..|t| - 1] == s + "\n";
    assert t[|t| - 1] == '\n';
    if |t| - 1 > 1 {
      assert t[..|t| - 1][|t| - 2] == '\n';
    }
  }

  /** The pattern with the `D` modifier: exactly a name, nothing after it. */
  method ClassNameIsValidStrict(name: string) returns (valid: bool)
    ensures valid <==> NameBody(name)
  {
    if |name| > 0 && name[|name| - 1] == '\n' {
      assert !NameBody(name) by {
        if |name| > 1 {
          assert !NamePart(name[|name| - 1]);
        }
      }
      return false;
    }
    valid := ClassNameIsValid(name);
  }

  /** With the `D` modifier a trailing newline is refused. */
  lemma StrictRefusesNewline(s: string)
    ensures !NameBody(s + "\n")
  {
    var t := s + "\n";
    if |t| > 1 {
      assert !NamePart(t[|t| - 1]);
    }
  }

  /** The directory and the file-name suffix of each kind of class. */
  function Layout(component: string): Option<(string, string)> {
    match component
    case "contract" => Some(("Services/Contracts/", "Contract.php"))
    case "event" => Some(("Events/", "Event.php"))
    case "eventhandler" => Some(("Events/Handlers/", "Event.php"))
    case "gate" => Some(("Processes/Gates/", "Gate.php"))
    case "gateevent" => Some(("Events/", "GateEvent.php"))
    case "io" => Some(("Processes/IO/", "IO.php"))
    case "observer" => Some(("Observers/", "Observer.php"))
    case "process" => Some(("Processes/", "Process.php"))
    case "service" => Some(("Services/", "Service.php"))
    case "serviceprovider" => Some(("Services/Providers/", "ServiceProvider.php"))
    case "task" => Some(("Processes/Tasks/", "Task.php"))
    case _ => None
  }

  function Unmatched(component: string): Exception {
    UnhandledMatchError("Unhandled match case '" + component + "'")
  }

  /** The file a class of the given kind lives in; an unknown kind has no
      arm in the match. */
  function ClassFilePath(name: string, component: string, base: string): (r: Result<string>)
    ensures Layout(component).None? <==> r.Failure?
    ensures r.Failure? ==> r.error == Unmatched(component)
    ensures r.Success? ==>
              var (dir, suffix) := Layout(component).value;
              && |r.value| == |base| + |dir| + |name| + |suffix|
              && r.value[..|base|] == base
              && r.value[|base|..|base| + |dir|] == dir
              && r.value[|base| + |dir|..|base| + |dir| + |name|] == name
              && r.value[|base| + |dir| + |name|..] == suffix
  {
    match Layout(component)
    case None => Failure(Unmatched(component))
    case Some((dir, suffix)) =>
      var p := base + dir + name + suffix;
      assert p[..|base|] == base;
      assert p[|base|..|base| + |dir|] == dir;
      assert p[|base| + |dir|..|base| + |dir| + |name|] == name;
      assert p[|base| + |dir| + |name|..] == suffix;
      Success(p)
  }

  /** `classFileExists`. */
  function ClassFileExists(name: string, component: string, base: string, fileExists: string -> bool): (r: Result<bool>)
    ensures r.Failure? <==> Layout(component).None?
    ensures r.Success? ==> r.value == fileExists(ClassFilePath(name, component, base).value)
  {
    var path :- ClassFilePath(name, component, base);
    Success(fileExists(path))
  }

  /** For one kind and base directory, the file names the class. */
  lemma PathDeterminesName(n1: string, n2: string, component: string, base: string)
    requires ClassFilePath(n1, component, base).Success?
    requires ClassFilePath(n1, component, base) == ClassFilePath(n2, component, base)
    ensures n1 == n2
  {
  }

  /** Where the event scaffolder writes a handler. */
  function ScaffoldedHandlerPath(base: string, name: string): string {
    base + "Events/Handlers/" + name + "EventHandler.php"
  }

  /** The handler check looks for a file the scaffolder never writes. */
  lemma HandlerCheckMissesScaffoldedFile(name: string, base: string)
    ensures ClassFilePath(name, "eventhandler", base).Success?
    ensures ClassFilePath(name, "eventhandler", base).value != ScaffoldedHandlerPath(base, name)
  {
    var p := ClassFilePath(name, "eventhandler", base).value;
    var q := ScaffoldedHandlerPath(base, name);
    assert |p| != |q|;
  }

  /** The layout with the handler suffix the scaffolder uses. */
  function LayoutIntended(component: string): (r: Option<(string, string)>)
    ensures component != "eventhandler" ==> r == Layout(component)
    ensures component == "eventhandler" ==> r == Some(("Events/Handlers/", "EventHandler.php"))
  {
    if component == "eventhandler" then Some(("Events/Handlers/", "EventHandler.php")) else Layout(component)
  }

  function ClassFilePathIntended(name: string, component: string, base: string): (r: Result<string>)
    ensures component != "eventhandler" ==> r == ClassFilePath(name, component, base)
    ensures component == "eventhandler" ==> r == Success(ScaffoldedHandlerPath(base, name))
  {
    match LayoutIntended(component)
    case None => Failure(Unmatched(component))
    case Some((dir, suffix)) =>
      assert base + dir + name + suffix == base + (dir + name + suffix);
      Success(base + dir + name + suffix)
  }
}

=== FILE: cli_commands.dfy ===
/** A command-line process: the arguments it declares, and the check that a
    command line names none besides them. */
module CliCommands {
  import PhpArray

  /** `array_diff_key` on the keys of an array: those, in order, that `b` lacks. */
  function DiffKeys<W>(keys: seq<string>, b: map<string, W>): (r: seq<string>)
    ensures forall k :: k in r <==> k in keys && k !in b
  {
    if |keys| == 0 then []
    else
      assert forall k :: k in keys <==> k == keys[0] || k in keys[1..];
      (if keys[0] in b then [] else [keys[0]]) + DiffKeys(keys[1..], b)
  }

  /** `checkArguments`: the difference of the given keys and the declared
      ones is empty. */
  function CheckArguments<V, W>(against: PhpArray.Arr<string, V>, declared: map<string, W>): (ok: bool)
    requires PhpArray.Valid(against)
    ensures ok <==> forall k :: k in against.vals ==> k in declared
  {
    var diff := DiffKeys(against.keys, declared);
    assert forall k :: k in against.keys <==> k in against.vals;
    assert |diff| > 0 ==> diff[0] in diff && diff[0] in against.vals && diff[0] !in declared;
    |diff| == 0
  }
}

=== FILE: container.dfy ===
/** The service container: a table of entries (what class a service provides,
    how it is built, whether it is lazy, shared or already booted) keyed by
    the provided class, and a cache of built services. Building a service is
    an oracle: `instantiate(cls, n)` and `invoke(provider, n)` are what the
    n-th fabrication returns, and `isA(s, cls)` is PHP's `instanceof`. */
module Container {
  import opened Wrappers
  import PhpArray

  /** A `Concrete` entry has no provider; an `Abstraction` names its provider class. */
  datatype Entry = Entry(cls: string, provider: Option<string>, lazy: bool, singleton: bool, booted: bool)

  datatype Factory<!S> = Factory(instantiate: (string, nat) -> S, invoke: (string, nat) -> S, isA: (S, string) -> bool)

  /** `made` counts fabrications: each one yields a new instance. */
  datatype Container<S> = Container(services: map<string, S>, providers: PhpArray.Arr<string, Entry>, booted: bool, made: nat)

  const ContainerClass := "Flows\\Container\\Container"

  /** What calling a method of a missing entry raises. */
  const NoEntry := EngineError("Call to a member function isSingleton() on null")

  /** Every entry is filed under the class it provides. */
  ghost predicate Valid<S>(c: Container<S>) {
    && PhpArray.Valid(c.providers)
    && forall k :: k in c.providers.vals ==> c.providers.vals[k].cls == k
  }

  function New<S>(): (c: Container<S>)
    ensures Valid(c) && !c.booted && c.services == map[] && |c.providers.keys| == 0
  {
    Container(map[], PhpArray.Empty(), false, 0)
  }

  /** `fabricate`: build the service (through the provider for an
      abstraction) and insist that it is an instance of the provided class. */
  function Fabricate<S>(e: Entry, f: Factory<S>, n: nat): (r: Result<S>)
    ensures r.Success? ==> f.isA(r.value, e.cls)
    ensures e.provider.Some? ==>
              var s := f.invoke(e.provider.value, n);
              r == if f.isA(s, e.cls) then Success(s)
                   else Failure(LogicException("Container expecting instance of " + e.cls + " from service provider " + e.provider.value))
    ensures e.provider.None? ==>
              var s := f.instantiate(e.cls, n);
              r == if f.isA(s, e.cls) then Success(s)
                   else Failure(LogicException("Factory could not fabricate instance of " + e.cls))
  {
    match e.provider
    case Some(p) =>
      var s := f.invoke(p, n);
      if !f.isA(s, e.cls) then Failure(LogicException("Container expecting instance of " + e.cls + " from service provider " + p))
      else Success(s)
    case None =>
      var s := f.instantiate(e.cls, n);
      if !f.isA(s, e.cls) then Failure(LogicException("Factory could not fabricate instance of " + e.cls))
      else Success(s)
  }

  /** `get`: a shared service comes from the cache when it is there and is
      otherwise built once and cached; any other service is built anew on
      every call and never cached. */
  function Get<S>(c: Container<S>, key: string, f: Factory<S>): (r: Result<(S, Container<S>)>)
    requires Valid(c)
    ensures key !in c.providers.vals ==> r == Failure(NoEntry)
    ensures r.Success? ==> Valid(r.value.1) && r.value.1.providers == c.providers && r.value.1.booted == c.booted
    ensures r.Success? ==> forall k :: k in c.services ==> k in r.value.1.services && r.value.1.services[k] == c.services[k]
    ensures key in c.providers.vals && c.providers.vals[key].singleton && key in c.services ==>
              r == Success((c.services[key], c))
    ensures key in c.providers.vals && c.providers.vals[key].singleton && key !in c.services ==>
              (r.Success? <==> Fabricate(c.providers.vals[key], f, c.made).Success?)
              && (r.Success? ==>
                    && f.isA(r.value.0, key)
                    && r.value.1.services == c.services[key := r.value.0]
                    && r.value.1.made == c.made + 1)
    ensures key in c.providers.vals && !c.providers.vals[key].singleton ==>
              (r.Success? <==> Fabricate(c.providers.vals[key], f, c.made).Success?)
              && (r.Success? ==>
                    && f.isA(r.value.0, key)
                    && r.value.1.services == c.services
                    && r.value.1.made == c.made + 1)
  {
    if key !in c.providers.vals then Failure(NoEntry)
    else
      var e := c.providers.vals[key];
      if e.singleton && key in c.services then Success((c.services[key], c))
      else
        match Fabricate(e, f, c.made)
        case Failure(err) => Failure(err)
        case Success(s) =>
          var c' := c.(made := c.made + 1);
          if e.singleton then Success((s, c'.(services := c.services[e.cls := s])))
          else Success((s, c'))
  }

  /** `register`: file the entry under the class it provides, replacing an
      earlier one; with an implementation, cache it and mark the entry booted. */
  function Register<S>(c: Container<S>, e: Entry, implementation: Option<S>): (c': Container<S>)
    requires Valid(c)
    ensures Valid(c')
    ensures c'.providers.vals == c.providers.vals[e.cls := e.(booted := e.booted || implementation.Some?)]
    ensures implementation.Some? ==> c'.services == c.services[e.cls := implementation.value]
    ensures implementation.None? ==> c'.services == c.services
    ensures c'.booted == c.booted && c'.made == c.made
  {
    match implementation
    case Some(s) =>
      var e' := e.(booted := true);
      c.(services := c.services[e.cls := s], providers := PhpArray.Set(c.providers, e.cls, e'))
    case None =>
      c.(providers := PhpArray.Set(c.providers, e.cls, e))
  }

  /** An entry the boot loop builds: neither booted nor lazy. */
  predicate Eager(e: Entry) {
    !e.booted && !e.lazy
  }

  /** The boot loop over the entries from the `i`-th on, as listed when the
      loop started. */
  function BootFrom<S>(c: Container<S>, entries: seq<Entry>, i: nat, f: Factory<S>): (r: Result<Container<S>>)
    requires Valid(c) && i <= |entries|
    requires forall j :: 0 <= j < |entries| ==> entries[j].cls in c.providers.vals
    ensures r.Success? ==> Valid(r.value) && r.value.providers == c.providers && r.value.booted == c.booted
    ensures r.Success? ==> forall k :: k in c.services ==> k in r.value.services && r.value.services[k] == c.services[k]
    ensures r.Success? ==>
              forall j :: i <= j < |entries| && Eager(entries[j]) && c.providers.vals[entries[j].cls].singleton ==>
                entries[j].cls in r.value.services
    ensures (forall j :: i <= j < |entries| ==> !Eager(entries[j])) ==> r == Success(c)
    decreases |entries| - i
  {
    if i == |entries| then Success(c)
    else if !Eager(entries[i]) then BootFrom(c, entries, i + 1, f)
    else
      match Get(c, entries[i].cls, f)
      case Failure(err) => Failure(err)
      case Success((_, c1)) =>
        BootFrom(c1, entries, i + 1, f)
  }

  /** The first half of `boot`: the container registered (as an eager,
      shared entry) and cached as itself. */
  function Prepare<S>(c: Container<S>, self: S): (c': Container<S>)
    requires Valid(c)
    ensures Valid(c') && c'.booted == c.booted
    ensures c'.providers.vals == c.providers.vals[ContainerClass := Entry(ContainerClass, None, false, true, false)]
    ensures c'.services == c.services[ContainerClass := self]
  {
    var c1 := Register(c, Entry(ContainerClass, None, false, true, false), None);
    c1.(services := c1.services[ContainerClass := self])
  }

  /** Every entry of a table is among its listed values. */
  lemma Listed(a: PhpArray.Arr<string, Entry>, k: string)
    requires PhpArray.Valid(a) && k in a.vals
    ensures exists j :: 0 <= j < |PhpArray.Values(a)| && PhpArray.Values(a)[j] == a.vals[k]
  {
    var j :| 0 <= j < |a.keys| && a.keys[j] == k;
    assert PhpArray.Values(a)[j] == a.vals[k];
  }

  /** `boot`: only once; the container registers itself, caches itself, then
      builds every eager entry and is marked booted. */
  function Boot<S>(c: Container<S>, self: S, f: Factory<S>): (r: Result<Container<S>>)
    requires Valid(c)
    ensures c.booted ==> r == Failure(LogicException("Service container already booted"))
    ensures r.Success? ==> Valid(r.value) && r.value.booted
    ensures r.Success? ==> ContainerClass in r.value.providers.vals && ContainerClass in r.value.services && r.value.services[ContainerClass] == self
    ensures r.Success? ==>
              forall k :: k in c.providers.vals && k != ContainerClass && Eager(c.providers.vals[k]) && c.providers.vals[k].singleton ==>
                k in r.value.services
    ensures r.Success? ==> forall k :: k in c.services && k != ContainerClass ==> k in r.value.services && r.value.services[k] == c.services[k]
  {
    if c.booted then Failure(LogicException("Service container already booted"))
    else
      var c2 := Prepare(c, self);
      var entries := PhpArray.Values(c2.providers);
      assert forall j :: 0 <= j < |entries| ==> entries[j].cls in c2.providers.vals by {
        forall j | 0 <= j < |entries| ensures entries[j].cls in c2.providers.vals {
          assert c2.providers.keys[j] in c2.providers.vals;
        }
      }
      var r := BootFrom(c2, entries, 0, f);
      if r.Failure? then Failure(r.error)
      else
        forall k | k in c.providers.vals && k != ContainerClass && Eager(c.providers.vals[k]) && c.providers.vals[k].singleton
          ensures k in r.value.services
        {
          Listed(c2.providers, k);
          var j :| 0 <= j < |entries| && entries[j] == c2.providers.vals[k];
          assert entries[j].cls == k;
        }
        Success(r.value.(booted := true))
  }

  /** A shared service, once built, is handed out again on every later `get`
      without another fabrication. */
  lemma {:induction false} SharedServiceIsStable<S>(c: Container<S>, key: string, f: Factory<S>)
    requires Valid(c)
    requires key in c.providers.vals && c.providers.vals[key].singleton
    requires Get(c, key, f).Success?
    ensures var first := Get(c, key, f).value;
            Get(first.1, key, f) == Success((first.0, first.1))
  {
    var first := Get(c, key, f).value;
    assert key in first.1.services && first.1.services[key] == first.0;
  }

  /** Registering an implementation makes it what `get` returns for a shared
      entry, and marks the entry booted, so `boot` will not build it. */
  lemma RegisteredImplementationIsServed<S>(c: Container<S>, e: Entry, s: S, f: Factory<S>)
    requires Valid(c) && e.singleton
    ensures var c' := Register(c, e, Some(s));
            && Get(c', e.cls, f) == Success((s, c'))
            && !Eager(c'.providers.vals[e.cls])
  {
  }

  /** A second boot fails, whatever the first one did. */
  lemma BootOnlyOnce<S>(c: Container<S>, self: S, f: Factory<S>)
    requires Valid(c) && Boot(c, self, f).Success?
    ensures Boot(Boot(c, self, f).value, self, f) == Failure(LogicException("Service container already booted"))
  {
  }
}

=== FILE: defer_queues.dfy ===
/** What the event kernel and the observer kernel share: a registry from a
    subject class to the handler class and the timing of the handling, and
    two queues of deferred subjects, one emptied when the flow ends and one
    when a process ends. Each queue maps a handler class, in first-use order,
    to the subjects deferred for it in arrival order. A dispatch is recorded
    as a `Call` of a handler on a subject; instantiating the handler class is
    not modelled. */
module DeferQueues {
  import PhpArray

  datatype Timing = Realtime | DeferFromFlow | DeferFromProcess

  datatype Route = Route(handler: string, timing: Timing)

  datatype Call<E> = Call(handler: string, subject: E)

  type Queue<E> = PhpArray.Arr<string, seq<E>>

  datatype Deferrals<E> = Deferrals(registry: map<string, Route>, flow: Queue<E>, process: Queue<E>)

  ghost predicate Valid<E>(k: Deferrals<E>) {
    PhpArray.Valid(k.flow) && PhpArray.Valid(k.process)
  }

  function New<E>(): (k: Deferrals<E>)
    ensures Valid(k) && k.registry == map[] && |k.flow.keys| == 0 && |k.process.keys| == 0
  {
    Deferrals(map[], PhpArray.Empty(), PhpArray.Empty())
  }

  predicate NoDuplicates<T(==)>(s: seq<T>) {
    forall i, j :: 0 <= i < j < |s| ==> s[i] != s[j]
  }

  /** `register`: the route for a subject class; a later registration of the
      same class replaces the earlier one, queues are untouched. */
  function Register<E>(k: Deferrals<E>, cls: string, handler: string, timing: Timing): (k': Deferrals<E>)
    ensures k'.registry.Keys == k.registry.Keys + {cls}
    ensures k'.registry[cls] == Route(handler, timing)
    ensures forall c :: c in k.registry && c != cls ==> k'.registry[c] == k.registry[c]
    ensures k'.flow == k.flow && k'.process == k.process
  {
    k.(registry := k.registry[cls := Route(handler, timing)])
  }

  /** What the queue holds for a handler; nothing when it has no entry. */
  function Pending<E>(q: Queue<E>, handler: string): seq<E> {
    if handler in q.vals then q.vals[handler] else []
  }

  /** Adding a subject under a handler: appended behind what is already there;
      a handler not yet in the queue goes behind the others. */
  function Defer<E>(q: Queue<E>, handler: string, e: E): (q': Queue<E>)
    requires PhpArray.Valid(q)
    ensures PhpArray.Valid(q')
    ensures Pending(q', handler) == Pending(q, handler) + [e]
    ensures forall h :: h != handler ==> Pending(q', h) == Pending(q, h)
    ensures q'.keys == if handler in q.vals then q.keys else q.keys + [handler]
  {
    PhpArray.Set(q, handler, Pending(q, handler) + [e])
  }

  /** The route taken by a subject whose class is registered: a realtime
      handler is called at once and no queue changes; otherwise the subject is
      deferred to the flow queue or to the process queue by its timing. */
  function Dispatch<E>(k: Deferrals<E>, route: Route, e: E): (r: (Deferrals<E>, seq<Call<E>>))
    requires Valid(k)
    ensures Valid(r.0) && r.0.registry == k.registry
    ensures route.timing == Realtime ==> r == (k, [Call(route.handler, e)])
    ensures route.timing == DeferFromFlow ==>
              r.1 == [] && r.0.process == k.process && Pending(r.0.flow, route.handler) == Pending(k.flow, route.handler) + [e]
    ensures route.timing == DeferFromProcess ==>
              r.1 == [] && r.0.flow == k.flow && Pending(r.0.process, route.handler) == Pending(k.process, route.handler) + [e]
  {
    match route.timing
    case Realtime => (k, [Call(route.handler, e)])
    case DeferFromFlow => (k.(flow := Defer(k.flow, route.handler, e)), [])
    case DeferFromProcess => (k.(process := Defer(k.process, route.handler, e)), [])
  }

  /** `array_unique`: the first occurrence of each value, in order. */
  function Unique<E(==,!new)>(s: seq<E>): (r: seq<E>)
    ensures forall x :: x in r <==> x in s
    ensures NoDuplicates(r)
    ensures |r| <= |s|
  {
    if |s| == 0 then []
    else
      var u := Unique(s[..|s| - 1]);
      var x := s[|s| - 1];
      assert s == s[..|s| - 1] + [x];
      if x in u then u else u + [x]
  }

  /** A list without repetitions is its own `array_unique`. */
  lemma {:induction false} UniqueOfDistinct<E(!new)>(s: seq<E>)
    requires NoDuplicates(s)
    ensures Unique(s) == s
  {
    if |s| > 0 {
      var p := s[..|s| - 1];
      assert NoDuplicates(p);
      UniqueOfDistinct(p);
      assert s[|s| - 1] !in p;
      assert s == p + [s[|s| - 1]];
    }
  }

  lemma UniqueIsIdempotent<E(!new)>(s: seq<E>)
    ensures Unique(Unique(s)) == Unique(s)
  {
    UniqueOfDistinct(Unique(s));
  }

  /** The calls of one handler on each of the given subjects, in order. */
  function CallsOf<E>(handler: string, es: seq<E>): (r: seq<Call<E>>)
    ensures |r| == |es|
    ensures forall i :: 0 <= i < |r| ==> r[i] == Call(handler, es[i])
  {
    seq(|es|, i requires 0 <= i < |es| => Call(handler, es[i]))
  }

  /** Draining a queue from the `k`-th handler on: each handler in queue order
      is called once on each distinct subject deferred for it. */
  function DrainFrom<E(==,!new)>(q: Queue<E>, k: nat): (r: seq<Call<E>>)
    requires PhpArray.Valid(q) && k <= |q.keys|
    ensures forall c :: c in r <==> exists j :: k <= j < |q.keys| && c.handler == q.keys[j] && c.subject in q.vals[q.keys[j]]
    ensures NoDuplicates(r)
    decreases |q.keys| - k
  {
    if k == |q.keys| then []
    else
      var h := q.keys[k];
      var first := CallsOf(h, Unique(q.vals[h]));
      var rest := DrainFrom(q, k + 1);
      assert forall c :: c in first <==> c.handler == h && c.subject in q.vals[h] by {
        forall c: Call<E> ensures c in first <==> c.handler == h && c.subject in q.vals[h] {
          if c.handler == h && c.subject in q.vals[h] {
            var i :| 0 <= i < |Unique(q.vals[h])| && Unique(q.vals[h])[i] == c.subject;
            assert first[i] == c;
          }
        }
      }
      assert forall c :: c in rest ==> c.handler != h;
      var r := first + rest;
      forall i, j | 0 <= i < j < |r| ensures r[i] != r[j] {
        if j < |first| {
          assert r[i] == Call(h, Unique(q.vals[h])[i]) && r[j] == Call(h, Unique(q.vals[h])[j]);
        } else if i >= |first| {
          assert r[i] == rest[i - |first|] && r[j] == rest[j - |first|];
        } else {
          assert r[i] in first && r[j] in rest;
        }
      }
      r
  }

  function Drain<E(==,!new)>(q: Queue<E>): (r: seq<Call<E>>)
    requires PhpArray.Valid(q)
    ensures forall c :: c in r <==> c.handler in q.vals && c.subject in q.vals[c.handler]
    ensures NoDuplicates(r)
  {
    var r := DrainFrom(q, 0);
    assert forall c :: c in r ==> c.handler in q.vals;
    forall c: Call<E> | c.handler in q.vals && c.subject in q.vals[c.handler] ensures c in r {
      var j :| 0 <= j < |q.keys| && q.keys[j] == c.handler;
    }
    r
  }

  /** Handling the flow queue: every distinct deferred subject is dispatched
      to its handler once, then the flow queue is emptied; the process queue
      is kept. */
  function FlushFlow<E(==,!new)>(k: Deferrals<E>): (r: (Deferrals<E>, seq<Call<E>>))
    requires Valid(k)
    ensures Valid(r.0) && r.0.registry == k.registry && r.0.process == k.process
    ensures |r.0.flow.keys| == 0
    ensures forall c :: c in r.1 <==> c.subject in Pending(k.flow, c.handler)
    ensures NoDuplicates(r.1)
  {
    (k.(flow := PhpArray.Empty()), Drain(k.flow))
  }

  /** Handling the process queue, the same way. */
  function FlushProcess<E(==,!new)>(k: Deferrals<E>): (r: (Deferrals<E>, seq<Call<E>>))
    requires Valid(k)
    ensures Valid(r.0) && r.0.registry == k.registry && r.0.flow == k.flow
    ensures |r.0.process.keys| == 0
    ensures forall c :: c in r.1 <==> c.subject in Pending(k.process, c.handler)
    ensures NoDuplicates(r.1)
  {
    (k.(process := PhpArray.Empty()), Drain(k.process))
  }

  /** Once flushed, a queue dispatches nothing more. */
  lemma FlushedFlowIsQuiet<E(!new)>(k: Deferrals<E>)
    requires Valid(k)
    ensures FlushFlow(FlushFlow(k).0).1 == []
  {
  }

  /** A subject deferred twice to the same handler is still dispatched once. */
  lemma DeferredTwiceDispatchedOnce<E(!new)>(k: Deferrals<E>, handler: string, e: E)
    requires Valid(k)
    ensures var k1 := k.(flow := Defer(Defer(k.flow, handler, e), handler, e));
            && Call(handler, e) in FlushFlow(k1).1
            && forall i, j :: 0 <= i < j < |FlushFlow(k1).1| ==> FlushFlow(k1).1[i] != FlushFlow(k1).1[j]
  {
  }
}

=== FILE: event_gate.dfy ===
/** The event gate: the list of gate events with their fail policy, the way
    `waitForEvent` registers them with a reactor, the per-event fail counter
    driven by health reports, and the event queries. What an event resolves
    to, and every health probe, is left to the callers (the reactor's `fire`
    oracle and the `healthy` argument). */
module EventGates {
  import opened Wrappers
  import Reactor

  datatype Behaviour = Continue | Exit | Resolve | Serialize

  /** The backing value of each behaviour. */
  function Value(b: Behaviour): string {
    match b
    case Continue => "continue"
    case Exit => "exit"
    case Resolve => "resolve"
    case Serialize => "serialize"
  }

  /** A gate event, described by the contracts it implements (`frequent`,
      `http`, `stream`) and by whether its class extends the HTTP event class.
      `frequency` is the polling interval, a float number of seconds in PHP,
      given here already converted to ticks. */
  datatype GateEvent = GateEvent(
    id: nat,
    frequent: bool,
    http: bool,
    stream: bool,
    extendsHttpEvent: bool,
    frequency: nat,
    resource: int)

  /** A stored event: the event, its fail counter, the fails allowed, and the
      action taken when the counter is exhausted. */
  datatype Registered = Registered(event: GateEvent, counter: Option<int>, maxFails: Option<int>, failAction: Option<Behaviour>)

  /** The reactor callbacks the gate registers; `k` is the event's position. */
  datatype Callback = Expiry | Poll(k: nat) | AcceptClient(k: nat) | ReadStream(k: nat) | Heartbeat(k: nat)

  /** Ticks per second. */
  const TicksPerSecond: nat := 1000

  const FrequentFailPolicy := InvalidArgumentException("Frequent event fail behaviour is not implemented")
  const NoEvents := LogicException("No events set to wait on")
  /** What interpolating an enum case into a string raises. */
  const EnumToString := EngineError("Object of class Flows\\Helpers\\Behaviour could not be converted to string")

  /** `pushEvent` as written: the rejection of Serialize interpolates the enum
      case itself into the message, which raises an engine error instead of
      the documented invalid-argument exception. */
  function PushEventAsWritten(events: seq<Registered>, e: GateEvent, failCount: Option<int>, failAction: Option<Behaviour>): (r: Result<seq<Registered>>)
    ensures e.frequent && (failCount.Some? || failAction.Some?) ==> r == Failure(FrequentFailPolicy)
    ensures !(e.frequent && (failCount.Some? || failAction.Some?)) && failAction == Some(Serialize) ==> r == Failure(EnumToString)
    ensures r.Success? <==> PushAccepts(e, failCount, failAction)
    ensures r.Success? ==> r.value == events + [Registered(e, failCount, failCount, failAction)]
  {
    if e.frequent && (failCount.Some? || failAction.Some?) then Failure(FrequentFailPolicy)
    else if failAction == Some(Serialize) then Failure(EnumToString)
    else Success(events + [Registered(e, failCount, failCount, failAction)])
  }

  /** What `pushEvent` accepts: no fail policy on a frequent event, and no
      Serialize action. */
  predicate PushAccepts(e: GateEvent, failCount: Option<int>, failAction: Option<Behaviour>) {
    && !(e.frequent && (failCount.Some? || failAction.Some?))
    && failAction != Some(Serialize)
  }

  /** `pushEvent` as evidently intended: every rejection is an invalid-argument
      exception, the Serialize one naming the behaviour's value. */
  function PushEvent(events: seq<Registered>, e: GateEvent, failCount: Option<int>, failAction: Option<Behaviour>): (r: Result<seq<Registered>>)
    ensures r.Success? <==> PushAccepts(e, failCount, failAction)
    ensures r.Failure? ==> r.error.InvalidArgumentException?
    ensures r.Success? ==> r.value == events + [Registered(e, failCount, failCount, failAction)]
  {
    if e.frequent && (failCount.Some? || failAction.Some?) then Failure(FrequentFailPolicy)
    else if failAction == Some(Serialize) then Failure(InvalidArgumentException("Behaviour not implemented: " + Value(Serialize)))
    else Success(events + [Registered(e, failCount, failCount, failAction)])
  }

  /** The two agree except on the Serialize rejection. */
  lemma SerializeRaisesEngineError(events: seq<Registered>, e: GateEvent, failCount: Option<int>)
    requires !e.frequent
    ensures PushEventAsWritten(events, e, failCount, Some(Serialize)) == Failure(EnumToString)
    ensures !PushEventAsWritten(events, e, failCount, Some(Serialize)).error.InvalidArgumentException?
    ensures PushEvent(events, e, failCount, Some(Serialize)).error.InvalidArgumentException?
  {
  }

  lemma PushEventAgreesElsewhere(events: seq<Registered>, e: GateEvent, failCount: Option<int>, failAction: Option<Behaviour>)
    requires failAction != Some(Serialize) || e.frequent
    ensures PushEventAsWritten(events, e, failCount, failAction) == PushEvent(events, e, failCount, failAction)
  {
  }

  /** Every stored event starts with its fail counter equal to its allowance. */
  lemma PushedCounterStartsAtMax(events: seq<Registered>, e: GateEvent, failCount: Option<int>, failAction: Option<Behaviour>)
    requires PushAccepts(e, failCount, failAction)
    requires forall k :: 0 <= k < |events| ==> events[k].counter == events[k].maxFails
    ensures var r := PushEvent(events, e, failCount, failAction).value;
            forall k :: 0 <= k < |r| ==> r[k].counter == r[k].maxFails
  {
  }

  // ---------------------------------------------------------------------
  // Registration with the reactor

  /** A stream event (not frequent) gets a read handler. */
  predicate Streamed(e: GateEvent) {
    !e.frequent && e.stream
  }

  function HandlerFor(e: GateEvent, k: nat): Callback {
    if e.http then AcceptClient(k) else ReadStream(k)
  }

  function PollTimer(e: GateEvent, k: nat, now: nat): Reactor.TimerEntry<Callback> {
    Reactor.Armed(Reactor.Timer(now + e.frequency, Poll(k), true, e.frequency))
  }

  function HeartbeatTimer(k: nat, now: nat): Reactor.TimerEntry<Callback> {
    Reactor.Armed(Reactor.Timer(now + TicksPerSecond, Heartbeat(k), true, TicksPerSecond))
  }

  /** Register the events from position `k` on. */
  function RegisterFrom(events: seq<Registered>, k: nat, r: Reactor.Reactor<Callback>, now: nat): (r': Reactor.Reactor<Callback>)
    requires Reactor.Valid(r) && k <= |events|
    ensures Reactor.Valid(r')
    ensures |r.timers| <= |r'.timers| && r'.timers[..|r.timers|] == r.timers
    ensures forall i :: |r.timers| <= i < |r'.timers| ==> r'.timers[i].Armed? && r'.timers[i].t.repeat
    ensures forall j :: k <= j < |events| && events[j].event.frequent ==> PollTimer(events[j].event, j, now) in r'.timers
    ensures forall j :: k <= j < |events| && Streamed(events[j].event) && events[j].maxFails.Some? ==> HeartbeatTimer(j, now) in r'.timers
    ensures forall j :: k <= j < |events| && Streamed(events[j].event) ==> events[j].event.resource in r'.io.readers.vals
    ensures forall s :: s in r.io.readers.vals ==> s in r'.io.readers.vals
    ensures forall s :: s in r'.io.readers.vals ==>
              s in r.io.readers.vals || exists j :: k <= j < |events| && Streamed(events[j].event) && events[j].event.resource == s
    ensures r'.io.writers == r.io.writers
    decreases |events| - k
  {
    if k == |events| then r
    else
      var e := events[k].event;
      var r1 :=
        if e.frequent then Reactor.AddTimer(r, now, e.frequency, Poll(k), true)
        else if e.stream then
          var withHandler := Reactor.OnReadable(r, e.resource, HandlerFor(e, k));
          if events[k].maxFails.Some? then Reactor.AddTimer(withHandler, now, TicksPerSecond, Heartbeat(k), true)
          else withHandler
        else r;
      var r' := RegisterFrom(events, k + 1, r1, now);
      assert r'.timers[..|r.timers|] == r'.timers[..|r1.timers|][..|r.timers|];
      assert e.frequent ==> PollTimer(e, k, now) == r'.timers[|r.timers|];
      assert Streamed(e) && events[k].maxFails.Some? ==> HeartbeatTimer(k, now) == r'.timers[|r.timers|];
      r'
  }

  /** `waitForEvent` up to the run: refused without events; otherwise a
      one-shot expiry timer comes first, then per event a repeating poll
      timer (frequent events) or a read handler on its resource plus, when a
      fail allowance is set, a repeating one-second heartbeat (stream
      events). Nothing is registered for writing. */
  function Registration(events: seq<Registered>, expires: nat, now: nat): (r: Result<Reactor.Reactor<Callback>>)
    ensures r.Failure? <==> |events| == 0
    ensures r.Failure? ==> r.error == NoEvents
    ensures r.Success? ==> Reactor.Valid(r.value)
    ensures r.Success? ==>
              && |r.value.timers| > 0
              && r.value.timers[0] == Reactor.Armed(Reactor.Timer(now + expires * TicksPerSecond, Expiry, false, expires * TicksPerSecond))
              && (forall i :: 1 <= i < |r.value.timers| ==> r.value.timers[i].Armed? && r.value.timers[i].t.repeat)
              && (forall j :: 0 <= j < |events| && events[j].event.frequent ==> PollTimer(events[j].event, j, now) in r.value.timers)
              && (forall j :: 0 <= j < |events| && Streamed(events[j].event) && events[j].maxFails.Some? ==> HeartbeatTimer(j, now) in r.value.timers)
              && (forall s :: s in r.value.io.readers.vals <==>
                    exists j :: 0 <= j < |events| && Streamed(events[j].event) && events[j].event.resource == s)
              && |r.value.io.writers.keys| == 0
  {
    if |events| == 0 then Failure(NoEvents)
    else
      var r0 := Reactor.AddTimer(Reactor.New(), now, expires * TicksPerSecond, Expiry, false);
      var r := RegisterFrom(events, 0, r0, now);
      assert r.timers[0] == r.timers[..1][0];
      Success(r)
  }

  // ---------------------------------------------------------------------
  // The fail counter

  /** What one health report does to an event's counter, which reactor
      operations it performs, and whether it makes the event the winner. */
  datatype Report = Report(counter: Option<int>, actions: seq<Reactor.Action>, resolves: bool)

  /** `takeAction` for the event with counter `counter`: an exhausted (negative)
      counter ignores reports; a healthy report resets it to the allowance; an
      unhealthy one counts down, and at zero takes the fail action once. */
  function TakeAction(counter: Option<int>, maxFails: Option<int>, failAction: Option<Behaviour>, resource: int, healthy: bool): (r: Report)
    ensures counter.None? && !healthy ==> r == Report(counter, [], false)
    ensures counter.Some? && counter.value < 0 ==> r == Report(counter, [], false)
    ensures counter.Some? && counter.value >= 0 && healthy ==> r == Report(maxFails, [], false)
    ensures counter.Some? && counter.value > 0 && !healthy ==> r == Report(Some(counter.value - 1), [], false)
    ensures r.actions != [] || r.resolves ==> counter == Some(0) && !healthy
    ensures Reactor.StopRun in r.actions <==> counter == Some(0) && !healthy && failAction in {Some(Exit), Some(Resolve)}
    ensures r.resolves <==> counter == Some(0) && !healthy && failAction == Some(Resolve)
    ensures counter == Some(0) && !healthy ==> r.counter == Some(-1)
    ensures counter == Some(0) && !healthy && failAction == Some(Continue) ==> r.actions == [Reactor.Remove(resource)]
  {
    match counter
    case None => if healthy then Report(maxFails, [], false) else Report(counter, [], false)
    case Some(c) =>
      if c < 0 then Report(counter, [], false)
      else if healthy then Report(maxFails, [], false)
      else if c > 0 then Report(Some(c - 1), [], false)
      else
        match failAction
        case Some(Continue) => Report(Some(-1), [Reactor.Remove(resource)], false)
        case Some(Exit) => Report(Some(-1), [Reactor.StopRun], false)
        case Some(Resolve) => Report(Some(-1), [Reactor.StopRun], true)
        case _ => Report(Some(-1), [], false)
  }

  /** The effect of a series of health reports on one event: final counter,
      all reactor operations in order, and whether any made it the winner. */
  function Replay(counter: Option<int>, maxFails: Option<int>, failAction: Option<Behaviour>, resource: int, reports: seq<bool>): Report
    decreases |reports|
  {
    if |reports| == 0 then Report(counter, [], false)
    else
      var first := TakeAction(counter, maxFails, failAction, resource, reports[0]);
      var rest := Replay(first.counter, maxFails, failAction, resource, reports[1..]);
      Report(rest.counter, first.actions + rest.actions, first.resolves || rest.resolves)
  }

  /** The operations the fail action performs. */
  function FailActions(failAction: Option<Behaviour>, resource: int): seq<Reactor.Action> {
    match failAction
    case Some(Continue) => [Reactor.Remove(resource)]
    case Some(Exit) => [Reactor.StopRun]
    case Some(Resolve) => [Reactor.StopRun]
    case _ => []
  }

  function Unhealthy(n: nat): (s: seq<bool>)
    ensures |s| == n && forall i :: 0 <= i < n ==> !s[i]
  {
    seq(n, _ => false)
  }

  /** Counting down from `c`: `c` unhealthy reports take the counter to zero
      without any action. */
  lemma {:induction false} CountDown(c: nat, maxFails: Option<int>, failAction: Option<Behaviour>, resource: int)
    ensures Replay(Some(c), maxFails, failAction, resource, Unhealthy(c)) == Report(Some(0), [], false)
    decreases c
  {
    if c > 0 {
      assert Unhealthy(c)[1..] == Unhealthy(c - 1);
      CountDown(c - 1, maxFails, failAction, resource);
    }
  }

  /** Once exhausted, an event ignores every further report. */
  lemma {:induction false} ExhaustedIsInert(c: int, maxFails: Option<int>, failAction: Option<Behaviour>, resource: int, reports: seq<bool>)
    requires c < 0
    ensures Replay(Some(c), maxFails, failAction, resource, reports) == Report(Some(c), [], false)
    decreases |reports|
  {
    if |reports| > 0 {
      ExhaustedIsInert(c, maxFails, failAction, resource, reports[1..]);
    }
  }

  /** With an allowance of `n` fails, the fail action is taken exactly on the
      (n+1)-th consecutive unhealthy report, and never again after it. */
  lemma {:induction false} FailActionOnReportNPlusOne(n: nat, failAction: Option<Behaviour>, resource: int, more: seq<bool>)
    ensures Replay(Some(n), Some(n), failAction, resource, Unhealthy(n)).actions == []
    ensures var r := Replay(Some(n), Some(n), failAction, resource, Unhealthy(n + 1) + more);
            && r.actions == FailActions(failAction, resource)
            && r.counter == Some(-1)
            && (r.resolves <==> failAction == Some(Resolve))
  {
    CountDown(n, Some(n), failAction, resource);
    ExhaustedIsInert(-1, Some(n), failAction, resource, more);
    ReplaySplit(Some(n), Some(n), failAction, resource, Unhealthy(n), [false] + more);
    assert Unhealthy(n + 1) + more == Unhealthy(n) + ([false] + more);
    assert ([false] + more)[1..] == more;
  }

  /** Replaying two series is replaying their concatenation. */
  lemma {:induction false} ReplaySplit(counter: Option<int>, maxFails: Option<int>, failAction: Option<Behaviour>, resource: int, a: seq<bool>, b: seq<bool>)
    ensures var ra := Replay(counter, maxFails, failAction, resource, a);
            var rb := Replay(ra.counter, maxFails, failAction, resource, b);
            Replay(counter, maxFails, failAction, resource, a + b) == Report(rb.counter, ra.actions + rb.actions, ra.resolves || rb.resolves)
    decreases |a|
  {
    if |a| == 0 {
      assert a + b == b;
    } else {
      var first := TakeAction(counter, maxFails, failAction, resource, a[0]);
      ReplaySplit(first.counter, maxFails, failAction, resource, a[1..], b);
      assert (a + b)[1..] == a[1..] + b;
      assert (a + b)[0] == a[0];
      var ra' := Replay(first.counter, maxFails, failAction, resource, a[1..]);
      var rb := Replay(ra'.counter, maxFails, failAction, resource, b);
      assert first.actions + (ra'.actions + rb.actions) == (first.actions + ra'.actions) + rb.actions;
    }
  }

  /** A healthy report, whenever the counter is not exhausted, restores the
      full allowance and never stops the reactor. */
  lemma HealthyResets(c: int, n: nat, failAction: Option<Behaviour>, resource: int)
    requires c >= 0
    ensures TakeAction(Some(c), Some(n), failAction, resource, true) == Report(Some(n), [], false)
  {
  }

  /** `takeAction` on the gate: the report of event `k` updates its counter and
      may make it the winner. */
  function TakeActionAt(events: seq<Registered>, winner: Option<GateEvent>, k: nat, healthy: bool): (r: (seq<Registered>, Option<GateEvent>, seq<Reactor.Action>))
    requires k < |events|
    ensures |r.0| == |events|
    ensures forall j :: 0 <= j < |events| && j != k ==> r.0[j] == events[j]
    ensures r.0[k] == events[k].(counter := r.0[k].counter)
    ensures r.1 != winner ==> r.1 == Some(events[k].event)
  {
    var e := events[k];
    var rep := TakeAction(e.counter, e.maxFails, e.failAction, e.event.resource, healthy);
    (events[k := e.(counter := rep.counter)], if rep.resolves then Some(e.event) else winner, rep.actions)
  }

  // ---------------------------------------------------------------------
  // The callbacks

  /** The gate while its reactor runs: the events with their counters, and the
      winner so far. */
  datatype Race = Race(events: seq<Registered>, winner: Option<GateEvent>)

  /** A callback belongs to the race when the event it names exists. */
  predicate Belongs(race: Race, cb: Callback) {
    cb.Expiry? || cb.k < |race.events|
  }

  /** What a callback does. The expiry timer stops the run. A poll timer or a
      read handler stops the run and makes its event the winner when the
      event resolves (`resolves`, the answer of the event's `resolve`). A
      heartbeat reports the probe's answer `healthy` to the fail counter. */
  function OnCallback(race: Race, cb: Callback, resolves: bool, healthy: bool): (r: (Race, seq<Reactor.Action>))
    requires Belongs(race, cb)
    ensures cb.Expiry? ==> r == (race, [Reactor.StopRun])
    ensures |r.0.events| == |race.events|
    ensures !cb.Heartbeat? ==> r.0.events == race.events
    ensures (cb.Poll? || cb.AcceptClient? || cb.ReadStream?) ==>
              (r.1 == [Reactor.StopRun] <==> resolves) && (r.1 == [] <==> !resolves)
    ensures r.0.winner != race.winner ==> !cb.Expiry? && r.0.winner == Some(race.events[cb.k].event) && Reactor.StopRun in r.1
    ensures cb.Heartbeat? && healthy ==> Reactor.StopRun !in r.1
  {
    match cb
    case Expiry => (race, [Reactor.StopRun])
    case Heartbeat(k) =>
      var t := TakeActionAt(race.events, race.winner, k, healthy);
      var rep := TakeAction(race.events[k].counter, race.events[k].maxFails, race.events[k].failAction, race.events[k].event.resource, healthy);
      assert t.2 == rep.actions;
      (Race(t.0, t.1), t.2)
    case _ =>
      if resolves then (race.(winner := Some(race.events[cb.k].event)), [Reactor.StopRun]) else (race, [])
  }

  /** One frequent event registers the expiry timer and its poll timer, and
      no handler. */
  lemma OneFrequentRegistration(e: GateEvent, expires: nat, now: nat)
    requires e.frequent
    ensures var r := Registration([Registered(e, None, None, None)], expires, now);
            && r.Success?
            && r.value.timers == [Reactor.Armed(Reactor.Timer(now + expires * TicksPerSecond, Expiry, false, expires * TicksPerSecond)), PollTimer(e, 0, now)]
            && Reactor.Idle(r.value.(timers := []))
  {
    var events := [Registered(e, None, None, None)];
    var r0 := Reactor.AddTimer(Reactor.New(), now, expires * TicksPerSecond, Expiry, false);
    var r1 := Reactor.AddTimer(r0, now, e.frequency, Poll(0), true);
    assert RegisterFrom(events, 1, r1, now) == r1;
    assert RegisterFrom(events, 0, r0, now) == r1;
  }

  /** A sweep over a pending one-shot timer and a due repeating timer whose
      callback stops the run leaves only the stub of the repeating timer. */
  lemma StopInSecondTimerLeavesStub(r: Reactor.Reactor<Callback>, t: nat, fire: (Callback, nat) -> seq<Reactor.Action>)
    requires Reactor.Valid(r) && |r.timers| == 2 && r.timers[0].Armed? && r.timers[1].Armed?
    requires t < r.timers[0].t.due
    requires r.timers[1].t.repeat && r.timers[1].t.due <= t
    requires fire(r.timers[1].t.cb, t) == [Reactor.StopRun]
    ensures Reactor.RunTimers(r, t, fire).Success?
    ensures Reactor.RunTimers(r, t, fire).value.timers == [Reactor.Stub(t + r.timers[1].t.interval)]
  {
    var y := r.timers[1].t;
    var s0 := Reactor.Sweep(r.io, Reactor.Live(r.timers));
    assert Reactor.SweepFrom(r.timers, 0, s0, t, fire) == Reactor.SweepFrom(r.timers, 1, s0, t, fire);
    var s1 := Reactor.SweepActAll(s0, [Reactor.StopRun]);
    assert s1.live == [None, None];
    var s2 := s1.(live := s1.live[1 := Some(Reactor.WriteBack(s1.live[1], t + y.interval))]);
    assert s2.live == [None, Some(Reactor.Stub(t + y.interval))];
    assert Reactor.SweepFrom(r.timers, 2, s2, t, fire) == Success(s2);
    assert Reactor.SweepFrom(r.timers, 1, s0, t, fire) == Success(s2);
    assert Reactor.Compact(s2.live) == [Reactor.Stub(t + y.interval)] by {
      assert Reactor.Compact(s2.live) == Reactor.Compact(s2.live[1..]);
      assert Reactor.Compact(s2.live[1..]) == [Reactor.Stub(t + y.interval)] + Reactor.Compact(s2.live[1..][1..]);
    }
  }

  /** A sweep that finds a stub due has no callback to call. */
  lemma DueStubCrashes(r: Reactor.Reactor<Callback>, at: nat, later: nat, fire: (Callback, nat) -> seq<Reactor.Action>)
    requires Reactor.Valid(r) && r.timers == [Reactor.Stub(at)] && at <= later
    ensures Reactor.RunTimers(r, later, fire) == Failure(Reactor.NotCallable)
  {
    assert Reactor.SweepFrom(r.timers, 0, Reactor.Sweep(r.io, Reactor.Live(r.timers)), later, fire) == Failure(Reactor.NotCallable);
  }

  /** A frequent event that resolves stops the run from inside its repeating
      poll timer; the sweep writes the timer back as a stub into the table the
      stop just cleared, so the run does not end, and the next sweep that
      finds the stub due crashes. Shown for a gate with one frequent event
      resolving before expiry. */
  lemma ResolvingFrequentEventCrashes(e: GateEvent, expires: nat, now: nat, t: nat, later: nat, fire: (Callback, nat) -> seq<Reactor.Action>)
    requires e.frequent
    requires now + e.frequency <= t < now + expires * TicksPerSecond
    requires fire(Poll(0), t) == OnCallback(Race([Registered(e, None, None, None)], None), Poll(0), true, true).1
    requires later >= t + e.frequency
    ensures var r := Registration([Registered(e, None, None, None)], expires, now).value;
            && Reactor.RunTimers(r, t, fire).Success?
            && Reactor.RunTimers(r, t, fire).value.timers == [Reactor.Stub(t + e.frequency)]
            && !Reactor.Idle(Reactor.RunTimers(r, t, fire).value)
            && Reactor.RunTimers(Reactor.RunTimers(r, t, fire).value, later, fire) == Failure(Reactor.NotCallable)
  {
    OneFrequentRegistration(e, expires, now);
    var r := Registration([Registered(e, None, None, None)], expires, now).value;
    StopInSecondTimerLeavesStub(r, t, fire);
    DueStubCrashes(Reactor.RunTimers(r, t, fire).value, t + e.frequency, later, fire);
  }

  // ---------------------------------------------------------------------
  // Queries and cleanup

  function FilterEvents(events: seq<Registered>, p: GateEvent -> bool): (r: seq<Registered>)
    ensures |r| <= |events|
    ensures forall x :: x in r <==> x in events && p(x.event)
  {
    if |events| == 0 then [] else (if p(events[0].event) then [events[0]] else []) + FilterEvents(events[1..], p)
  }

  /** `hasFrequentEvents`, `hasHttpEvents` (by the HTTP event class, not the
      contract) and `hasStreamEvents`: whether the filtered list is non-empty. */
  function HasFrequentEvents(events: seq<Registered>): (b: bool)
    ensures b <==> exists k :: 0 <= k < |events| && events[k].event.frequent
  {
    var f := FilterEvents(events, (e: GateEvent) => e.frequent);
    assert |f| > 0 ==> f[0] in f;
    |f| > 0
  }

  function HasHttpEvents(events: seq<Registered>): (b: bool)
    ensures b <==> exists k :: 0 <= k < |events| && events[k].event.extendsHttpEvent
  {
    var f := FilterEvents(events, (e: GateEvent) => e.extendsHttpEvent);
    assert |f| > 0 ==> f[0] in f;
    |f| > 0
  }

  function HasStreamEvents(events: seq<Registered>): (b: bool)
    ensures b <==> exists k :: 0 <= k < |events| && events[k].event.stream
  {
    var f := FilterEvents(events, (e: GateEvent) => e.stream);
    assert |f| > 0 ==> f[0] in f;
    |f| > 0
  }

  /** `cleanUp`: close the resource of every stream event, in order. */
  function CleanUp(events: seq<Registered>): (closed: seq<int>)
    ensures |closed| <= |events|
    ensures forall k :: 0 <= k < |events| && events[k].event.stream ==> events[k].event.resource in closed
    ensures forall s :: s in closed ==> exists k :: 0 <= k < |events| && events[k].event.stream && events[k].event.resource == s
  {
    if |events| == 0 then []
    else
      var rest := CleanUp(events[1..]);
      assert forall k :: 1 <= k < |events| ==> events[k] == events[1..][k - 1];
      (if events[0].event.stream then [events[0].event.resource] else []) + rest
  }
}

=== FILE: event_kernel.dfy ===
/** The event kernel: events are routed by their class to a registered
    handler class, handled at once or deferred to the end of the process or
    of the flow. An event class with no registration is an error. Its
    `handleDeferFromProcess` is the queue flush `DeferQueues.FlushProcess`;
    its `handleDeferFromFlow` empties the wrong queue, and the evidently
    intended version, the one the observer kernel has, is
    `DeferQueues.FlushFlow`. */
module EventKernel {
  import opened Wrappers
  import PhpArray
  import opened DeferQueues

  function NoHandler(cls: string): Exception {
    LogicException("No handler defined for event " + cls)
  }

  /** `handle`: `classOf` is the event's class. */
  function Handle<E(==,!new)>(k: Deferrals<E>, classOf: E -> string, e: E): (r: Result<(Deferrals<E>, seq<Call<E>>)>)
    requires Valid(k)
    ensures r.Failure? <==> classOf(e) !in k.registry
    ensures r.Failure? ==> r.error == NoHandler(classOf(e))
    ensures r.Success? ==> Valid(r.value.0) && r.value.0.registry == k.registry
    ensures r.Success? ==>
              var route := k.registry[classOf(e)];
              && (route.timing == Realtime <==> r.value.1 != [])
              && (route.timing == Realtime ==> r.value == (k, [Call(route.handler, e)]))
              && (route.timing == DeferFromFlow ==> r.value.0.process == k.process && Pending(r.value.0.flow, route.handler) == Pending(k.flow, route.handler) + [e])
              && (route.timing == DeferFromProcess ==> r.value.0.flow == k.flow && Pending(r.value.0.process, route.handler) == Pending(k.process, route.handler) + [e])
  {
    var cls := classOf(e);
    if cls !in k.registry then Failure(NoHandler(cls))
    else Success(Dispatch(k, k.registry[cls], e))
  }

  /** `handleDeferFromFlow` as written: it dispatches the flow queue, but then
      empties the process queue and keeps the flow queue. */
  function HandleDeferFromFlowAsWritten<E(==,!new)>(k: Deferrals<E>): (r: (Deferrals<E>, seq<Call<E>>))
    requires Valid(k)
    ensures Valid(r.0) && r.0.registry == k.registry
    ensures r.0.flow == k.flow
    ensures |r.0.process.keys| == 0
    ensures forall c :: c in r.1 <==> c.subject in Pending(k.flow, c.handler)
  {
    (k.(process := PhpArray.Empty()), FlushFlow(k).1)
  }

  /** As written, a second end of flow dispatches every flow-deferred event
      of the first one again. */
  lemma FlowEventsHandledAgain<E(!new)>(k: Deferrals<E>)
    requires Valid(k)
    ensures var first := HandleDeferFromFlowAsWritten(k);
            HandleDeferFromFlowAsWritten(first.0).1 == first.1
  {
  }

  /** As written, an event deferred to the end of a process that is still
      queued when the flow ends is dropped without being dispatched. */
  lemma ProcessEventDropped<E(!new)>(k: Deferrals<E>, handler: string, e: E)
    requires Valid(k)
    requires e in Pending(k.process, handler) && e !in Pending(k.flow, handler)
    ensures var r := HandleDeferFromFlowAsWritten(k);
            && Call(handler, e) !in r.1
            && e !in Pending(r.0.process, handler)
  {
  }
}

=== FILE: flow_kernel.dfy ===
/** The application kernel's flow loop: a LIFO stack of frames
    (process, input, source), a result collection keyed by process class
    that lives for one flow, and dispatch on what each run or resume of a
    process hands back.
    Process objects live in a heap (a sequence indexed by identity), so a
    singleton process shared through the registry keeps its cursor between
    frames. What a process does when run is an oracle (`Env.step`); so is the
    offload of a branch list (`Env.offload`). */
module FlowKernel {
  import opened Wrappers
  import Processes
  import ProcessRegistry
  import opened NestedCollection
  import DeferQueues
  import EventKernel

  /** A live process object and the class it was made from. */
  datatype Instance = Instance(cls: string, proc: Processes.Process)

  /** A stack frame: the heap index of the process, its input, and the heap
      index of the process it was branched from (to deposit into), if any. */
  datatype Frame = Frame(inst: nat, input: Value, source: Option<nat>)

  /** What a run or resume hands to the kernel: an exclusive or event gate
      naming the next process, an offload-and or and gate naming branches
      (with the gate's input), or a plain result. */
  datatype Outcome =
    | XorTo(next: string, io: Value)
    | EventTo(next: string, io: Value)
    | OffloadAndTo(gate: string, branches: seq<string>, io: Value)
    | AndTo(branches: seq<string>, io: Value)
    | Plain(out: Value)

  /** One run or resume: the outcome, the process afterwards, and whether
      some task called the kernel's full stop. */
  datatype StepResult = StepResult(outcome: Outcome, after: Processes.Process, callsFullStop: bool)

  /** The `ApplicationFullStop` event: the class of the process last popped
      and its position. */
  datatype StopEvent = StopEvent(cls: string, position: Option<nat>)

  const FullStopClass := "Flows\\Processes\\Internal\\Events\\ApplicationFullStop"

  function ClassOfStop(e: StopEvent): string {
    FullStopClass
  }

  /** Observable side effects, in order. */
  datatype Effect =
    | CleanedUp(inst: nat)
    | WaitedForEvent
    | Offloaded(branches: seq<string>)
    | StopHandled(calls: seq<DeferQueues.Call<StopEvent>>)
    | FullStopRaised(cls: string, position: Option<nat>)
    | FlushedFlowEvents
    | FlushedFlowObservers

  /** The kernel's surroundings. `keepIo` is the `gate.on_branch.keep_io`
      setting of a booted kernel (false before boot); `offloaded` says the
      kernel runs inside an offloaded worker. */
  datatype Env = Env(
    fabricate: string -> Processes.Process,
    step: (Processes.Process, Value) -> StepResult,
    offload: (seq<string>, Value) -> Value,
    keepIo: bool,
    offloaded: bool)

  /** The kernel's state. Shared registry entries are heap indices. The
      collection is the one of the flow under way: each flow starts it empty
      and drops it when it ends. The full-stop flag is static in the kernel
      class: once set it is never reset. `events` is the event kernel, as far
      as the full stop's event goes through it. */
  datatype State = State(
    stack: seq<Frame>,
    heap: seq<Instance>,
    registry: ProcessRegistry.Registry<nat>,
    collection: map<string, Value>,
    fullStop: bool,
    completed: seq<nat>,
    effects: seq<Effect>,
    events: DeferQueues.Deferrals<StopEvent>)

  datatype Iter = Next(st: State, last: nat) | End(st: State, out: Option<Value>) | Threw(st: State, error: Exception)

  /** Branch frames pushed: all of them, or those before the first unknown
      name, with the lookup's error. */
  datatype Pushes = AllPushed(st: State) | Stopped(st: State, error: Exception)

  datatype FlowResult = Returned(st: State, out: Option<Value>) | Raised(st: State, error: Exception) | OutOfFuel(st: State)

  /** Calling `get_class` on the undefined previous process. */
  const NoPreviousProcess := TypeError("get_class(): Argument #1 ($object) must be of type object, null given")
  const PopFromEmpty := RuntimeException("Can't pop from an empty datastructure")

  /** Every index refers into the heap, and the bottom frame has no source
      (so popping a frame with a source never empties the stack). */
  ghost predicate Wf(st: State) {
    && (forall i :: 0 <= i < |st.stack| ==> st.stack[i].inst < |st.heap|)
    && (forall i :: 0 <= i < |st.stack| && st.stack[i].source.Some? ==> st.stack[i].source.value < |st.heap|)
    && (|st.stack| > 0 ==> st.stack[0].source.None?)
    && (forall n :: n in st.registry.entries && st.registry.entries[n].Shared? ==> st.registry.entries[n].instance < |st.heap|)
    && DeferQueues.Valid(st.events)
  }

  /** The heap only grows. */
  ghost predicate Extends(st: State, st2: State) {
    |st.heap| <= |st2.heap|
  }

  /** `fullStop()` */
  function FullStop(st: State): (r: State)
    ensures r.fullStop && r == st.(fullStop := true)
  {
    st.(fullStop := true)
  }

  /** `processes->getNamed(name)`: a shared instance, or a fresh one appended
      to the heap. */
  function Named(st: State, env: Env, name: string): (r: Result<(nat, State)>)
    requires Wf(st)
    ensures r.Failure? <==> !ProcessRegistry.Exists(st.registry, name)
    ensures r.Failure? ==> r.error == LogicException("Unregistered process " + name)
    ensures r.Success? ==> Wf(r.value.1) && r.value.0 < |r.value.1.heap| && Extends(st, r.value.1)
    ensures r.Success? ==> r.value.1.stack == st.stack && r.value.1.collection == st.collection
    ensures r.Success? ==> r.value.1.registry.entries == st.registry.entries
    ensures r.Success? ==> r.value.1.fullStop == st.fullStop && r.value.1.completed == st.completed && r.value.1.effects == st.effects
    ensures r.Success? ==> r.value.1.events == st.events
    ensures r.Success? && st.registry.entries[name].Shared? ==>
              r.value.0 == st.registry.entries[name].instance && r.value.1.heap == st.heap
    ensures r.Success? && st.registry.entries[name].ByName? ==>
              var cls := st.registry.entries[name].cls;
              r.value.0 == |st.heap| && r.value.1.heap == st.heap + [Instance(cls, env.fabricate(cls))]
  {
    var got :- ProcessRegistry.GetNamed(st.registry, name, _ => |st.heap|);
    match st.registry.entries[name]
    case Shared(i) => Success((i, st.(registry := got.1)))
    case ByName(cls) =>
      Success((|st.heap|, st.(registry := got.1, heap := st.heap + [Instance(cls, env.fabricate(cls))])))
  }

  /** Clean up the process at `i` and record it as completed (a worker keeps
      no record). */
  function Complete(st: State, env: Env, i: nat): (r: State)
    ensures r.effects == st.effects + [CleanedUp(i)]
    ensures r.completed == st.completed + (if env.offloaded then [] else [i])
    ensures r == st.(effects := r.effects, completed := r.completed)
  {
    st.(effects := st.effects + [CleanedUp(i)],
        completed := st.completed + (if env.offloaded then [] else [i]))
  }

  function Push(st: State, f: Frame): (r: State)
    ensures r == st.(stack := st.stack + [f])
  {
    st.(stack := st.stack + [f])
  }

  /** The index of the first name the registry does not know, or the length
      of the list when it knows them all. */
  function FirstUnknown(reg: ProcessRegistry.Registry<nat>, names: seq<string>): (j: nat)
    ensures j <= |names|
    ensures forall k :: 0 <= k < j ==> ProcessRegistry.Exists(reg, names[k])
    ensures j < |names| ==> !ProcessRegistry.Exists(reg, names[j])
  {
    if |names| == 0 || !ProcessRegistry.Exists(reg, names[0]) then 0
    else 1 + FirstUnknown(reg, names[1..])
  }

  /** Two registries with the same entries agree on the first unknown name. */
  lemma {:induction false} FirstUnknownOfEntries(r1: ProcessRegistry.Registry<nat>, r2: ProcessRegistry.Registry<nat>, names: seq<string>)
    requires r1.entries == r2.entries
    ensures FirstUnknown(r1, names) == FirstUnknown(r2, names)
  {
    if |names| > 0 {
      FirstUnknownOfEntries(r1, r2, names[1..]);
    }
  }

  /** One frame per branch, in listed order, each with the gate's input and
      the originator as source, pushed as each name is looked up: an unknown
      name stops the pushing with the frames before it already on the stack. */
  function PushBranches(st: State, env: Env, names: seq<string>, io: Value, src: nat): (r: Pushes)
    requires Wf(st) && |st.stack| > 0 && src < |st.heap|
    ensures var j := FirstUnknown(st.registry, names);
            && (r.Stopped? <==> j < |names|)
            && (r.Stopped? ==> r.error == LogicException("Unregistered process " + names[j]))
            && Pushed(st, r.st, j, io, src)
    decreases |names|
  {
    if |names| == 0 then AllPushed(st)
    else
      match Named(st, env, names[0])
      case Failure(e) => Stopped(st, e)
      case Success(got) =>
        var rest := PushBranches(Push(got.1, Frame(got.0, io, Some(src))), env, names[1..], io, src);
        PushedCons(st, got.1, got.0, names, io, src, rest);
        rest
  }

  /** The inductive step of `PushBranches`: the first name is known and its
      frame pushed, and the rest of the names were pushed on top of it. */
  lemma PushedCons(st: State, got: State, inst: nat, names: seq<string>, io: Value, src: nat, r: Pushes)
    requires |names| > 0 && ProcessRegistry.Exists(st.registry, names[0])
    requires Wf(got) && inst < |got.heap| && Extends(st, got) && src < |st.heap|
    requires got.stack == st.stack && got.collection == st.collection && got.fullStop == st.fullStop
    requires got.completed == st.completed && got.effects == st.effects && got.registry.entries == st.registry.entries
    requires got.events == st.events
    requires var j := FirstUnknown(got.registry, names[1..]);
             && (r.Stopped? <==> j < |names[1..]|)
             && (r.Stopped? ==> r.error == LogicException("Unregistered process " + names[1..][j]))
             && Pushed(Push(got, Frame(inst, io, Some(src))), r.st, j, io, src)
    ensures var j := FirstUnknown(st.registry, names);
            && (r.Stopped? <==> j < |names|)
            && (r.Stopped? ==> r.error == LogicException("Unregistered process " + names[j]))
            && Pushed(st, r.st, j, io, src)
  {
    FirstUnknownOfEntries(got.registry, st.registry, names[1..]);
    PushedStep(st, got, r.st, inst, FirstUnknown(got.registry, names[1..]), io, src);
  }

  /** What pushing `count` branch frames keeps and adds: the state stays
      well formed, the old stack stays below, every new frame has the gate's
      input and the originator as source, and nothing else changes but the
      heap, which only grows. */
  ghost predicate Pushed(st: State, st2: State, count: nat, io: Value, src: nat) {
    && Wf(st2) && Extends(st, st2)
    && |st2.stack| == |st.stack| + count && st2.stack[..|st.stack|] == st.stack
    && (forall j :: |st.stack| <= j < |st2.stack| ==> st2.stack[j].input == io && st2.stack[j].source == Some(src))
    && st2.collection == st.collection && st2.fullStop == st.fullStop
    && st2.completed == st.completed && st2.effects == st.effects
    && st2.registry.entries == st.registry.entries && st2.events == st.events
  }

  /** One branch frame pushed on a fetched process, then the rest. */
  lemma PushedStep(st: State, got: State, st2: State, inst: nat, count: nat, io: Value, src: nat)
    requires Wf(got) && inst < |got.heap| && Extends(st, got) && src < |st.heap|
    requires got.stack == st.stack && got.collection == st.collection && got.fullStop == st.fullStop
    requires got.completed == st.completed && got.effects == st.effects && got.registry.entries == st.registry.entries
    requires got.events == st.events
    requires Pushed(Push(got, Frame(inst, io, Some(src))), st2, count, io, src)
    ensures Pushed(st, st2, count + 1, io, src)
  {
    var s1 := st.stack + [Frame(inst, io, Some(src))];
    assert st2.stack[..|st.stack|] == st2.stack[..|s1|][..|st.stack|];
    assert st2.stack[|st.stack|] == s1[|st.stack|];
  }


  /** The frame on top of the stack. */
  function Top(st: State): Frame
    requires |st.stack| > 0
  {
    st.stack[|st.stack| - 1]
  }

  /** The popped process is started (at position 0) with the frame's input;
      otherwise it is resumed with the bucket stored under its class. */
  function InputFor(st: State): Value
    requires Wf(st) && |st.stack| > 0
  {
    var inst := st.heap[Top(st).inst];
    if Processes.GetPosition(inst.proc) == Some(0) then Top(st).input else Read(st.collection, inst.cls)
  }

  /** The collection once the popped process has read its input: a resumed
      process's bucket is deleted unless outputs are kept. */
  function CollectionAfterRead(st: State, env: Env): map<string, Value>
    requires Wf(st) && |st.stack| > 0
  {
    var inst := st.heap[Top(st).inst];
    if Processes.GetPosition(inst.proc) == Some(0) || env.keepIo then st.collection
    else Delete(st.collection, inst.cls)
  }

  /** What running or resuming the process on top of the stack yields. */
  function StepOf(st: State, env: Env): StepResult
    requires Wf(st) && |st.stack| > 0
  {
    env.step(st.heap[Top(st).inst].proc, InputFor(st))
  }

  /** The process on top of the stack can be run or resumed. */
  ghost predicate Runnable(st: State) {
    |st.stack| > 0 && Top(st).inst < |st.heap| && !Processes.Done(st.heap[Top(st).inst].proc)
  }

  /** The requirements shared by the dispatch helpers: `st` is the state after
      the pop, the step and the read of the input, and `f` the popped frame. */
  ghost predicate DispatchReady(st: State, f: Frame) {
    && Wf(st) && f.inst < |st.heap| && (f.source.Some? ==> f.source.value < |st.heap|)
    && (f.source.Some? ==> |st.stack| > 0)
  }

  /** An exclusive or event gate: complete the originator (after waiting for
      the event, for an event gate) and push the named process. */
  function GateTo(st: State, env: Env, f: Frame, next: string, io: Value, isEvent: bool): (r: Iter)
    requires DispatchReady(st, f)
    ensures r.Next? || r.Threw?
    ensures r.Next? ==> Wf(r.st) && |r.st.stack| > 0 && r.last < |r.st.heap| && Extends(st, r.st)
    ensures r.st.fullStop == st.fullStop && r.st.events == st.events
  {
    var st1 := Complete(st, env, f.inst);
    var st2 := if isEvent then st1.(effects := st1.effects + [WaitedForEvent]) else st1;
    match Named(st2, env, next)
    case Failure(e) => Threw(st2, e)
    case Success(got) => Next(Push(got.1, Frame(got.0, io, None)), f.inst)
  }

  function OffloadAnd(st: State, env: Env, f: Frame, gate: string, branches: seq<string>, io: Value): (r: Iter)
    requires DispatchReady(st, f)
    ensures r.Next? || r.Threw?
    ensures r.Next? ==> Wf(r.st) && |r.st.stack| > 0 && r.last < |r.st.heap| && Extends(st, r.st)
    ensures r.st.fullStop == st.fullStop && r.st.events == st.events
  {
    if |branches| == 0 then Threw(st, LogicException("Empty return from gate " + gate))
    else
      var st1 := st.(effects := st.effects + [Offloaded(branches)],
                     collection := Put(st.collection, [st.heap[f.inst].cls], env.offload(branches, io)));
      Next(Push(st1, Frame(f.inst, Null, f.source)), f.inst)
  }

  /** An and gate: the originator goes back on the stack with no input, then
      one frame per branch is pushed as its name is looked up; an unknown
      name throws with the frames pushed before it left on the stack. */
  function And(st: State, env: Env, f: Frame, branches: seq<string>, io: Value): (r: Iter)
    requires DispatchReady(st, f)
    ensures r.Next? || r.Threw?
    ensures var j := FirstUnknown(st.registry, branches);
            && (r.Next? <==> j == |branches|)
            && (r.Threw? ==> r.error == LogicException("Unregistered process " + branches[j]))
            && |r.st.stack| == |st.stack| + 1 + j
    ensures r.st.stack[..|st.stack|] == st.stack
    ensures r.st.stack[|st.stack|] == Frame(f.inst, Null, f.source)
    ensures forall j :: |st.stack| < j < |r.st.stack| ==>
              r.st.stack[j].input == io && r.st.stack[j].source == Some(f.inst)
    ensures r.st.completed == st.completed && r.st.collection == st.collection
    ensures Wf(r.st) && Extends(st, r.st)
    ensures r.Next? ==> |r.st.stack| > 0 && r.last < |r.st.heap|
    ensures r.st.fullStop == st.fullStop && r.st.events == st.events
  {
    var st1 := Push(st, Frame(f.inst, Null, f.source));
    var pushed := PushBranches(st1, env, branches, io, f.inst);
    assert pushed.st.stack[..|st.stack|] == pushed.st.stack[..|st1.stack|][..|st.stack|];
    assert pushed.st.stack[|st.stack|] == pushed.st.stack[..|st1.stack|][|st.stack|];
    match pushed
    case Stopped(st2, e) => Threw(st2, e)
    case AllPushed(st2) => Next(st2, f.inst)
  }

  function PlainOut(st: State, env: Env, f: Frame, out: Value): (r: Iter)
    requires DispatchReady(st, f)
    ensures r.Next? || r.End?
    ensures r.Next? ==> Wf(r.st) && |r.st.stack| > 0 && r.last < |r.st.heap| && Extends(st, r.st)
    ensures r.End? ==> Wf(r.st) && Extends(st, r.st)
    ensures r.st.fullStop == st.fullStop && r.st.events == st.events
  {
    match f.source
    case Some(s) =>
      var st1 := st.(collection := Put(st.collection, [st.heap[s].cls, st.heap[f.inst].cls], out));
      Next(Complete(st1, env, f.inst), f.inst)
    case None =>
      End(Complete(st, env, f.inst), Some(out))
  }

  /** Dispatch on the outcome of the popped frame `f`. */
  function Dispatch(st: State, env: Env, f: Frame, outcome: Outcome): (r: Iter)
    requires DispatchReady(st, f)
    ensures r.Next? ==> Wf(r.st) && |r.st.stack| > 0 && r.last < |r.st.heap| && Extends(st, r.st)
    ensures r.End? ==> Wf(r.st) && Extends(st, r.st)
    ensures r.st.fullStop == st.fullStop && r.st.events == st.events
  {
    match outcome
    case XorTo(next, io) => GateTo(st, env, f, next, io, false)
    case EventTo(next, io) => GateTo(st, env, f, next, io, true)
    case OffloadAndTo(gate, branches, io) => OffloadAnd(st, env, f, gate, branches, io)
    case AndTo(branches, io) => And(st, env, f, branches, io)
    case Plain(out) => PlainOut(st, env, f, out)
  }

  /** A full stop seen at the top of the loop, with `i` the process popped
      last: the `ApplicationFullStop` event naming its class and position is
      handed to the event kernel, which refuses it when no handler is
      registered for it; otherwise the stop is logged and the flow returns
      null. */
  function StopAt(st: State, i: nat): (r: Iter)
    requires Wf(st) && i < |st.heap|
    ensures r.End? || r.Threw?
    ensures r.Threw? <==> FullStopClass !in st.events.registry
    ensures r.Threw? ==> r == Threw(st, EventKernel.NoHandler(FullStopClass))
    ensures r.End? ==>
              var ev := StopEvent(st.heap[i].cls, Processes.GetPosition(st.heap[i].proc));
              var handled := EventKernel.Handle(st.events, ClassOfStop, ev).value;
              && r.out.None? && Wf(r.st)
              && r.st == st.(events := handled.0, effects := st.effects + [StopHandled(handled.1), FullStopRaised(ev.cls, ev.position)])
  {
    var ev := StopEvent(st.heap[i].cls, Processes.GetPosition(st.heap[i].proc));
    match EventKernel.Handle(st.events, ClassOfStop, ev)
    case Failure(e) => Threw(st, e)
    case Success(handled) =>
      End(st.(events := handled.0, effects := st.effects + [StopHandled(handled.1), FullStopRaised(ev.cls, ev.position)]), None)
  }

  /** The state once the process on top of the stack has been run or
      resumed: its frame popped, the process updated on the heap, its bucket
      read, and the full-stop flag as its tasks left it. */
  function Stepped(st: State, env: Env): (r: State)
    requires Wf(st) && |st.stack| > 0
    ensures DispatchReady(r, Top(st))
  {
    var f := Top(st);
    var r := st.(stack := st.stack[..|st.stack| - 1],
                 heap := st.heap[f.inst := Instance(st.heap[f.inst].cls, StepOf(st, env).after)],
                 collection := CollectionAfterRead(st, env),
                 fullStop := StepOf(st, env).callsFullStop);
    assert f.source.Some? ==> |r.stack| > 0;
    r
  }

  /** One turn of the `do … while` loop of `flow`; `last` is the process popped
      by the previous turn of this call (undefined on the first turn). */
  function Iterate(st: State, env: Env, last: Option<nat>): (r: Iter)
    requires Wf(st) && (last.Some? ==> last.value < |st.heap|)
    ensures r.Next? ==> Wf(r.st) && |r.st.stack| > 0 && r.last < |r.st.heap| && Extends(st, r.st)
    ensures r.End? ==> Wf(r.st) && Extends(st, r.st)
    ensures st.fullStop && last.None? ==> r == Threw(st, NoPreviousProcess)
    ensures st.fullStop && last.Some? ==> r == StopAt(st, last.value)
    ensures !st.fullStop && |st.stack| == 0 ==> r == Threw(st, PopFromEmpty)
    ensures !st.fullStop && |st.stack| > 0 && !Runnable(st) ==>
              r == Threw(st.(stack := st.stack[..|st.stack| - 1]), Processes.AlreadyCompleted)
    ensures !st.fullStop && Runnable(st) ==> r == Dispatch(Stepped(st, env), env, Top(st), StepOf(st, env).outcome)
    ensures !st.fullStop && Runnable(st) ==> r.st.fullStop == StepOf(st, env).callsFullStop
    ensures r.Next? ==> r.last == Top(st).inst
    ensures !st.fullStop ==> r.st.events == st.events
  {
    if st.fullStop then
      match last
      case None => Threw(st, NoPreviousProcess)
      case Some(i) => StopAt(st, i)
    else if |st.stack| == 0 then Threw(st, PopFromEmpty)
    else
      if Processes.GetPosition(st.heap[Top(st).inst].proc).None? then
        Threw(st.(stack := st.stack[..|st.stack| - 1]), Processes.AlreadyCompleted)
      else
        Dispatch(Stepped(st, env), env, Top(st), StepOf(st, env).outcome)
  }

  /** `flow`: iterate until the loop ends, an exception escapes, or the fuel
      runs out. */
  function Flow(st: State, env: Env, last: Option<nat>, fuel: nat): (r: FlowResult)
    requires Wf(st) && (last.Some? ==> last.value < |st.heap|)
    ensures r.Returned? ==> Wf(r.st)
    ensures fuel > 0 && st.fullStop && last.Some? ==>
              && (r.Returned? <==> FullStopClass in st.events.registry)
              && (r.Returned? ==> r.out.None?)
              && (!r.Returned? ==> r == Raised(st, EventKernel.NoHandler(FullStopClass)))
    decreases fuel
  {
    if fuel == 0 then OutOfFuel(st)
    else
      match Iterate(st, env, last)
      case Next(st1, l) => Flow(st1, env, Some(l), fuel - 1)
      case End(st1, out) => Returned(st1, out)
      case Threw(st1, e) => Raised(st1, e)
  }

  /** The state the flow of `process(name, io)` starts from: one frame for
      the named process with the given input and no source on top of the
      stack, and a fresh, empty collection. */
  function Start(st: State, env: Env, name: string, io: Value): (r: Result<State>)
    requires Wf(st)
    ensures r.Failure? <==> !ProcessRegistry.Exists(st.registry, name)
    ensures r.Failure? ==> r.error == LogicException("Unregistered process " + name)
    ensures r.Success? ==>
              && Wf(r.value) && r.value.collection == map[]
              && |r.value.stack| == |st.stack| + 1 && r.value.stack[..|st.stack|] == st.stack
              && Top(r.value).input == io && Top(r.value).source.None?
              && r.value.fullStop == st.fullStop && r.value.events == st.events
  {
    var got :- Named(st, env, name);
    assert (got.1.stack + [Frame(got.0, io, None)])[..|st.stack|] == st.stack;
    Success(Push(got.1, Frame(got.0, io, None)).(collection := map[]))
  }

  /** Whatever collection the kernel state holds, a flow starts the same. */
  lemma StartIgnoresCollection(st: State, env: Env, name: string, io: Value, stale: map<string, Value>)
    requires Wf(st)
    ensures Start(st.(collection := stale), env, name, io) == Start(st, env, name, io)
  {
  }

  /** `process(name, io)`: run the flow from `Start`, then flush the deferred
      flow-level events and observations once, when the flow returned. The
      collection is local to the flow: whether the flow returns or throws,
      none of it is left behind. */
  function ProcessFlow(st: State, env: Env, name: string, io: Value, fuel: nat): (r: FlowResult)
    requires Wf(st)
    ensures !ProcessRegistry.Exists(st.registry, name) ==> r == Raised(st.(collection := map[]), LogicException("Unregistered process " + name))
    ensures r.Returned? ==> Wf(r.st)
    ensures r.Returned? ==> |r.st.effects| >= 2 && r.st.effects[|r.st.effects| - 2..] == [FlushedFlowEvents, FlushedFlowObservers]
    ensures r.st.collection == map[]
  {
    match Start(st, env, name, io)
    case Failure(e) => Raised(st.(collection := map[]), e)
    case Success(s) =>
      match Flow(s, env, None, fuel)
      case Returned(st1, out) =>
        Returned(st1.(collection := map[], effects := st1.effects + [FlushedFlowEvents, FlushedFlowObservers]), out)
      case Raised(st1, e) => Raised(st1.(collection := map[]), e)
      case OutOfFuel(st1) => OutOfFuel(st1.(collection := map[]))
  }

  /** Each flow starts from an empty collection: what an earlier flow
      collected, kept outputs included, never reaches a later one. */
  lemma ProcessFlowIgnoresCollection(st: State, env: Env, name: string, io: Value, fuel: nat, stale: map<string, Value>)
    requires Wf(st)
    ensures ProcessFlow(st.(collection := stale), env, name, io, fuel) == ProcessFlow(st, env, name, io, fuel)
  {
    StartIgnoresCollection(st, env, name, io, stale);
    assert st.(collection := stale).(collection := map[]) == st.(collection := map[]);
  }

  // ---------------------------------------------------------------------
  // Properties of one turn

  /** An exclusive or event gate: the originator is cleaned up, recorded as
      completed and not re-pushed; exactly one frame for the named process,
      with the gate's input and no source, replaces it. */
  lemma XorOrEventReplacesFrame(st: State, env: Env, last: Option<nat>)
    requires Wf(st) && (last.Some? ==> last.value < |st.heap|)
    requires !st.fullStop && Runnable(st)
    requires StepOf(st, env).outcome.XorTo? || StepOf(st, env).outcome.EventTo?
    ensures var o := StepOf(st, env).outcome;
            var r := Iterate(st, env, last);
            && (r.Next? <==> ProcessRegistry.Exists(st.registry, o.next))
            && (r.Threw? ==> r.error == LogicException("Unregistered process " + o.next))
            && (r.Next? ==>
                  && |r.st.stack| == |st.stack|
                  && r.st.stack[..|st.stack| - 1] == st.stack[..|st.stack| - 1]
                  && Top(r.st).input == o.io && Top(r.st).source.None?
                  && r.st.completed == st.completed + (if env.offloaded then [] else [Top(st).inst])
                  && CleanedUp(Top(st).inst) in r.st.effects)
  {
    var f := Top(st);
    var sr := StepOf(st, env);
    var st1 := Stepped(st, env);
    assert Iterate(st, env, last) == Dispatch(st1, env, f, sr.outcome);
    var c := Complete(st1, env, f.inst);
    assert CleanedUp(f.inst) in c.effects by { assert c.effects[|c.effects| - 1] == CleanedUp(f.inst); }
    if sr.outcome.EventTo? {
      var c2 := c.(effects := c.effects + [WaitedForEvent]);
      assert CleanedUp(f.inst) in c2.effects by { assert c2.effects[|c.effects| - 1] == CleanedUp(f.inst); }
    }
  }

  /** An and gate: the originator is re-pushed with no input and its own
      source, then one frame per branch on top of it, all with the gate's
      input and the originator as source, so every branch is popped before
      the originator resumes. */
  lemma AndPushesOriginatorThenBranches(st: State, env: Env, last: Option<nat>)
    requires Wf(st) && (last.Some? ==> last.value < |st.heap|)
    requires !st.fullStop && Runnable(st)
    requires StepOf(st, env).outcome.AndTo?
    requires forall j :: 0 <= j < |StepOf(st, env).outcome.branches| ==>
               ProcessRegistry.Exists(st.registry, StepOf(st, env).outcome.branches[j])
    ensures var o := StepOf(st, env).outcome;
            var r := Iterate(st, env, last);
            var n := |st.stack|;
            && r.Next?
            && |r.st.stack| == n + |o.branches|
            && r.st.stack[..n - 1] == st.stack[..n - 1]
            && r.st.stack[n - 1] == Frame(Top(st).inst, Null, Top(st).source)
            && (forall j :: n <= j < |r.st.stack| ==>
                  r.st.stack[j].input == o.io && r.st.stack[j].source == Some(Top(st).inst))
            && r.st.completed == st.completed
  {
    var f := Top(st);
    var sr := StepOf(st, env);
    var st1 := Stepped(st, env);
    assert Iterate(st, env, last) == And(st1, env, f, sr.outcome.branches, sr.outcome.io);
  }

  /** An offload-and gate: an empty branch list is an error; otherwise the
      aggregate of the offloaded branches is stored under the originator's
      class and the originator is re-pushed with no input and its own source. */
  lemma OffloadAndStoresAndRepushes(st: State, env: Env, last: Option<nat>)
    requires Wf(st) && (last.Some? ==> last.value < |st.heap|)
    requires !st.fullStop && Runnable(st)
    requires StepOf(st, env).outcome.OffloadAndTo?
    ensures var o := StepOf(st, env).outcome;
            var r := Iterate(st, env, last);
            var cls := st.heap[Top(st).inst].cls;
            && (|o.branches| == 0 <==> r.Threw?)
            && (r.Threw? ==> r.error == LogicException("Empty return from gate " + o.gate))
            && (r.Next? ==>
                  && r.st.stack == st.stack[..|st.stack| - 1] + [Frame(Top(st).inst, Null, Top(st).source)]
                  && Read(r.st.collection, cls) == env.offload(o.branches, o.io)
                  && r.st.completed == st.completed)
  {
  }

  /** A plain result: with a source it is stored under "Source.Process" and
      the loop goes on with the frames below; without one the loop ends and
      returns it. Either way the process is cleaned up and completed. */
  lemma PlainDepositsOrEnds(st: State, env: Env, last: Option<nat>)
    requires Wf(st) && (last.Some? ==> last.value < |st.heap|)
    requires !st.fullStop && Runnable(st)
    requires StepOf(st, env).outcome.Plain?
    ensures var v := StepOf(st, env).outcome.out;
            var r := Iterate(st, env, last);
            var f := Top(st);
            && (f.source.None? ==> r.End? && r.out == Some(v))
            && (f.source.Some? ==>
                  && r.Next?
                  && r.st.stack == st.stack[..|st.stack| - 1]
                  && Get(r.st.collection, [st.heap[f.source.value].cls, st.heap[f.inst].cls]) == Some(v))
            && (r.Next? || r.End?)
            && r.st.completed == st.completed + (if env.offloaded then [] else [f.inst])
  {
    var f := Top(st);
    if f.source.Some? {
      var cls := st.heap[f.inst].cls;
      var sr := StepOf(st, env);
      var heap1 := st.heap[f.inst := Instance(cls, sr.after)];
      assert heap1[f.source.value].cls == st.heap[f.source.value].cls;
      GetPut(CollectionAfterRead(st, env), [st.heap[f.source.value].cls, cls], sr.outcome.out);
    }
  }

  /** A process at position 0 is run with the frame's input; any other is
      resumed with the bucket under its class, which is then deleted unless
      outputs are kept (gate outcomes leave the collection otherwise alone). */
  lemma ResumeReadsAndDeletesBucket(st: State, env: Env, last: Option<nat>)
    requires Wf(st) && (last.Some? ==> last.value < |st.heap|)
    requires !st.fullStop && Runnable(st)
    requires StepOf(st, env).outcome.XorTo? || StepOf(st, env).outcome.AndTo?
    ensures var inst := st.heap[Top(st).inst];
            var r := Iterate(st, env, last);
            && (inst.proc.position == 0 ==> InputFor(st) == Top(st).input && r.st.collection == st.collection)
            && (inst.proc.position > 0 ==> InputFor(st) == Read(st.collection, inst.cls))
            && (inst.proc.position > 0 && !env.keepIo ==> inst.cls !in r.st.collection)
            && (env.keepIo ==> r.st.collection == st.collection)
  {
    var f := Top(st);
    var sr := StepOf(st, env);
    var st1 := Stepped(st, env);
    assert Iterate(st, env, last) == Dispatch(st1, env, f, sr.outcome);
    if sr.outcome.AndTo? {
      var st2 := Push(st1, Frame(f.inst, Null, f.source));
      assert st2.collection == st1.collection;
    }
  }

  // ---------------------------------------------------------------------
  // Properties of the whole loop

  /** A task that calls the full stop ends the flow at the start of the next
      turn: the stop event names the process just stepped and its position.
      The flow returns null when the event kernel has a handler for the
      event, and throws its "No handler defined for event" error otherwise. */
  lemma FullStopEndsAtNextTurn(st: State, env: Env, last: Option<nat>, fuel: nat)
    requires Wf(st) && (last.Some? ==> last.value < |st.heap|)
    requires !st.fullStop && Runnable(st) && StepOf(st, env).callsFullStop
    requires fuel >= 2
    requires Iterate(st, env, last).Next?
    ensures var r1 := Iterate(st, env, last);
            var p := r1.st.heap[Top(st).inst];
            var r := Flow(st, env, last, fuel);
            && (FullStopClass !in st.events.registry ==> r == Raised(r1.st, EventKernel.NoHandler(FullStopClass)))
            && (FullStopClass in st.events.registry ==>
                  && r.Returned? && r.out.None?
                  && r.st.stack == r1.st.stack && r.st.collection == r1.st.collection
                  && |r.st.effects| > 0 && r.st.effects[|r.st.effects| - 1] == FullStopRaised(p.cls, Processes.GetPosition(p.proc)))
  {
    var r1 := Iterate(st, env, last);
    assert Flow(st, env, last, fuel) == Flow(r1.st, env, Some(r1.last), fuel - 1);
    assert Flow(r1.st, env, Some(r1.last), fuel - 1) == (match StopAt(r1.st, r1.last)
      case End(st2, out) => Returned(st2, out)
      case Threw(st2, e) => Raised(st2, e)
      case Next(st2, l) => OutOfFuel(st2));
  }

  /** The full stop is never reset: once set, every later `process` call
      fails, because the first turn has no previous process to report. */
  lemma FullStopIsSticky(st: State, env: Env, name: string, io: Value, fuel: nat)
    requires Wf(st) && st.fullStop && fuel > 0
    ensures ProcessFlow(st, env, name, io, fuel).Raised?
    ensures ProcessRegistry.Exists(st.registry, name) ==> ProcessFlow(st, env, name, io, fuel).error == NoPreviousProcess
  {
    if ProcessRegistry.Exists(st.registry, name) {
      var s := Start(st, env, name, io).value;
      assert Iterate(s, env, None) == Threw(s, NoPreviousProcess);
    }
  }

  /** A named process whose run is a plain result: `process` returns that
      result after one turn, leaving every frame that was already on the stack
      in place. */
  lemma ProcessSingleStep(st: State, env: Env, name: string, io: Value, fuel: nat)
    requires Wf(st) && !st.fullStop && fuel > 0
    requires ProcessRegistry.Exists(st.registry, name)
    requires var s := Start(st, env, name, io).value;
             Runnable(s) && StepOf(s, env).outcome.Plain? && !StepOf(s, env).callsFullStop
    ensures var s := Start(st, env, name, io).value;
            var r := ProcessFlow(st, env, name, io, fuel);
            && r.Returned?
            && r.out == Some(StepOf(s, env).outcome.out)
            && r.st.stack == st.stack
  {
    var s := Start(st, env, name, io).value;
    PlainDepositsOrEnds(s, env, None);
    var it := Iterate(s, env, None);
    assert Flow(s, env, None, fuel) == Returned(it.st, it.out);
  }
}

=== FILE: go_strings.dfy ===
/** Go's `strings.TrimSpace` on bytes: leading runes are decoded forwards and
    trailing runes backwards, and those that are white space are dropped. A
    white-space rune takes one to three bytes, so the backward decoder finds
    one at the end exactly when the last one, two or three bytes decode, on
    their own, to that rune. */
module GoStrings {
  import opened Sanitize

  /** `unicode.IsSpace`. */
  predicate IsSpaceRune(r: int) {
    || 9 <= r <= 13 || r == 32 || r == 0x85 || r == 0xA0 || r == 0x1680
    || 0x2000 <= r <= 0x200A
    || r == 0x2028 || r == 0x2029 || r == 0x202F || r == 0x205F || r == 0x3000
  }

  /** The first rune of `b` is white space. */
  predicate LeadingSpace(b: seq<Byte>) {
    |b| > 0 && IsSpaceRune(Decode(b).0)
  }

  /** The last `n` bytes of `b` are one white-space rune. */
  predicate SpaceAt(b: seq<Byte>, n: nat)
    requires 1 <= n <= |b|
  {
    var t := b[|b| - n..];
    Decode(t).1 == n && IsSpaceRune(Decode(t).0)
  }

  /** The size of the white-space rune `b` ends with, or 0. */
  function TrailingSpaceSize(b: seq<Byte>): (n: nat)
    ensures n <= 3 && n <= |b|
    ensures n == 1 ==> SpaceAt(b, 1)
    ensures n == 2 ==> SpaceAt(b, 2)
    ensures n == 3 ==> SpaceAt(b, 3)
    ensures n == 0 ==> (|b| >= 1 ==> !SpaceAt(b, 1)) && (|b| >= 2 ==> !SpaceAt(b, 2)) && (|b| >= 3 ==> !SpaceAt(b, 3))
  {
    if |b| >= 1 && SpaceAt(b, 1) then 1
    else if |b| >= 2 && SpaceAt(b, 2) then 2
    else if |b| >= 3 && SpaceAt(b, 3) then 3
    else 0
  }

  function TrimLeft(b: seq<Byte>): (r: seq<Byte>)
    ensures |r| <= |b| && r == b[|b| - |r|..]
    ensures !LeadingSpace(r)
    decreases |b|
  {
    if LeadingSpace(b) then TrimLeft(b[Decode(b).1..]) else b
  }

  function TrimRight(b: seq<Byte>): (r: seq<Byte>)
    ensures |r| <= |b| && r == b[..|r|]
    ensures TrailingSpaceSize(r) == 0
    decreases |b|
  {
    var n := TrailingSpaceSize(b);
    if n == 0 then b
    else
      var r := TrimRight(b[..|b| - n]);
      assert b[..|b| - n][..|r|] == b[..|r|];
      r
  }

  /** Decoding a prefix gives the same rune, or the replacement rune when
      the prefix cuts the rune short. */
  lemma DecodePrefix(t: seq<Byte>, m: nat)
    requires 1 <= m <= |t|
    ensures Decode(t[..m]) == Decode(t) || Decode(t[..m]).0 == RuneError
  {
    var p := t[..m];
    assert p[0] == t[0];
    if m >= 2 { assert p[1] == t[1]; }
    if m >= 3 { assert p[2] == t[2]; }
    if m >= 4 { assert p[3] == t[3]; }
  }

  /** `strings.TrimSpace`. */
  function TrimSpace(b: seq<Byte>): (r: seq<Byte>)
    ensures |r| <= |b|
    ensures exists i :: 0 <= i <= |b| - |r| && b[i..][..|r|] == r
    ensures !LeadingSpace(r) && TrailingSpaceSize(r) == 0
  {
    var t := TrimLeft(b);
    var r := TrimRight(t);
    assert |r| > 0 ==> Decode(r) == Decode(t) || Decode(r).0 == RuneError by {
      if |r| > 0 { DecodePrefix(t, |r|); }
    }
    assert b[|b| - |t|..][..|r|] == r;
    r
  }

  /** Text without white space at either end is its own trim. */
  lemma {:induction false} TrimmedIsFixed(b: seq<Byte>)
    requires !LeadingSpace(b) && TrailingSpaceSize(b) == 0
    ensures TrimSpace(b) == b
  {
  }

  lemma TrimSpaceIsIdempotent(b: seq<Byte>)
    ensures TrimSpace(TrimSpace(b)) == TrimSpace(b)
  {
    TrimmedIsFixed(TrimSpace(b));
  }
}

=== FILE: http_server.dfy ===
/** The HTTP helper's registry: a map from a URL path to the entry of the
    external process that will handle the one request expected on it. The
    command socket registers and deregisters entries, a ticker counts their
    lifetime down, housekeeping removes the stale and the handled ones, and
    an HTTP request is admitted to an entry or refused. Every goroutine loop
    is one sequential step here; locks, sockets and the logging are not
    modelled, and the external process's answer is a parameter. */
module HttpServer {
  import opened Wrappers
  import opened Sanitize
  import opened GoStrings

  type Path = seq<Byte>

  datatype Entry = Entry(
    enabled: bool,
    handling: bool,   // the external process is evaluating the request
    handled: bool,    // the external process has handled the request
    socketFile: string,
    owner: string,    // the external process's identifier
    allowedMethods: seq<string>,
    timeout: int)     // stale once it is not positive

  datatype Command = Command(command: string, path: Path, socketFile: string, owner: string, allowedMethods: seq<string>, timeout: int)

  datatype Reply = Reply(ok: bool, error: string)

  type Mux = map<Path, Entry>

  /** "/ping" */
  const PingPath: Path := [0x2F, 0x70, 0x69, 0x6E, 0x67]

  const PingEntry := Entry(true, false, false, "", "", ["GET"], -1)

  const RefusedMethods: seq<string> := ["CONNECT", "HEAD", "OPTIONS", "TRACE"]

  const DefaultMethods: seq<string> := ["GET", "POST", "PUT", "PATCH", "DELETE"]

  const Ok := Reply(true, "")

  /** The mux as the server starts: only the heartbeat resource. */
  function Start(): (mux: Mux)
    ensures mux.Keys == {PingPath} && mux[PingPath].enabled
  {
    map[PingPath := PingEntry]
  }

  predicate RefusesMethods(cmd: Command) {
    exists i :: 0 <= i < |cmd.allowedMethods| && cmd.allowedMethods[i] in RefusedMethods
  }

  /** How a command's path is filed: trimmed, then stripped of invisible runes. */
  function Normalize(p: Path): Path {
    StripInvisibleRunes(TrimSpace(p))
  }

  /** A filed path is clean, and its runes are the trimmed path's runes
      without the invisible ones. */
  lemma NormalizeFiles(p: Path)
    ensures Clean(Normalize(p))
    ensures DecodeAll(Normalize(p)) == Filter(DecodeAll(TrimSpace(p)))
  {
  }

  /** The entry a registration files: ready for service, with the
      command's socket, owner and lifetime; an empty method list allows
      GET, POST, PUT, PATCH and DELETE. */
  function NewEntry(cmd: Command): (e: Entry)
    ensures e.enabled && !e.handling && !e.handled
    ensures e.socketFile == cmd.socketFile && e.owner == cmd.owner && e.timeout == cmd.timeout
    ensures |cmd.allowedMethods| > 0 ==> e.allowedMethods == cmd.allowedMethods
    ensures |cmd.allowedMethods| == 0 ==> e.allowedMethods == DefaultMethods
  {
    var methods := if |cmd.allowedMethods| == 0 then DefaultMethods else cmd.allowedMethods;
    Entry(true, false, false, cmd.socketFile, cmd.owner, methods, cmd.timeout)
  }

  /** `register`: refused methods and an already filed path are rejected
      with the mux unchanged; otherwise the normalized path is filed with a
      fresh entry and nothing else changes. */
  function Register(mux: Mux, cmd: Command): (r: (Mux, Reply))
    ensures RefusesMethods(cmd) ==> r == (mux, Reply(false, "invalid method"))
    ensures var path := Normalize(cmd.path);
            && (!RefusesMethods(cmd) && path in mux ==> r == (mux, Reply(false, "path already registered")))
            && (r.1.ok <==> !RefusesMethods(cmd) && path !in mux)
            && (r.1.ok ==> r.0 == mux[path := NewEntry(cmd)])
  {
    FileAt(mux, cmd, Normalize(cmd.path))
  }

  /** `register` once the path to file under is known. */
  function FileAt(mux: Mux, cmd: Command, path: Path): (r: (Mux, Reply))
    ensures RefusesMethods(cmd) ==> r == (mux, Reply(false, "invalid method"))
    ensures !RefusesMethods(cmd) && path in mux ==> r == (mux, Reply(false, "path already registered"))
    ensures r.1.ok <==> !RefusesMethods(cmd) && path !in mux
    ensures r.1.ok ==> r.0 == mux[path := NewEntry(cmd)]
  {
    if RefusesMethods(cmd) then (mux, Reply(false, "invalid method"))
    else if path in mux then (mux, Reply(false, "path already registered"))
    else (mux[path := NewEntry(cmd)], Ok)
  }

  /** `deregister`: the path is looked up as sent. */
  function Deregister(mux: Mux, cmd: Command): (r: (Mux, Reply))
    ensures cmd.path !in mux ==> r == (mux, Reply(false, "resource not found"))
    ensures cmd.path in mux && mux[cmd.path].owner != cmd.owner ==> r == (mux, Reply(false, "wrong resource owner"))
    ensures r.1.ok <==> cmd.path in mux && mux[cmd.path].owner == cmd.owner
    ensures r.1.ok ==> r.0.Keys == mux.Keys - {cmd.path} && forall p :: p in r.0 ==> r.0[p] == mux[p]
    ensures r.1.ok ==> r.0 == mux - {cmd.path}
  {
    if cmd.path !in mux then (mux, Reply(false, "resource not found"))
    else if mux[cmd.path].owner != cmd.owner then (mux, Reply(false, "wrong resource owner"))
    else (mux - {cmd.path}, Ok)
  }

  /** The command dispatcher: the command name must match exactly. */
  function Dispatch(mux: Mux, cmd: Command): (r: (Mux, Reply))
    ensures cmd.command == "REGISTER" ==> r == Register(mux, cmd)
    ensures cmd.command == "DEREGISTER" ==> r == Deregister(mux, cmd)
    ensures cmd.command != "REGISTER" && cmd.command != "DEREGISTER" ==> r == (mux, Reply(false, "unknown command"))
  {
    match cmd.command
    case "REGISTER" => Register(mux, cmd)
    case "DEREGISTER" => Deregister(mux, cmd)
    case _ => (mux, Reply(false, "unknown command"))
  }

  /** An entry whose lifetime a tick counts down. */
  predicate Counting(p: Path, e: Entry) {
    !e.handled && !e.handling && e.timeout > 0 && p != PingPath
  }

  /** One tick on one entry. */
  function TickEntry(p: Path, e: Entry): Entry {
    if Counting(p, e) then e.(timeout := e.timeout - 1) else e
  }

  /** One lifetime tick over every entry. */
  function Tick(mux: Mux): (r: Mux)
    ensures r.Keys == mux.Keys
  {
    map p | p in mux :: TickEntry(p, mux[p])
  }

  /** A tick takes one unit off the lifetime of a counting entry and leaves
      everything else as it was. */
  lemma TickLowersCounting(mux: Mux, p: Path)
    requires p in mux
    ensures Tick(mux)[p].timeout == (if Counting(p, mux[p]) then mux[p].timeout - 1 else mux[p].timeout)
    ensures Tick(mux)[p] == mux[p].(timeout := Tick(mux)[p].timeout)
  {
  }

  /** What housekeeping removes: an entry that is not the heartbeat, is not
      being handled, and is either done with or out of time. */
  predicate Removable(p: Path, e: Entry) {
    p != PingPath && !e.handling && ((!e.enabled && e.handled) || e.timeout <= 0)
  }

  /** One housekeeping sweep, and whether the server then shuts down: when
      one entry, taken to be the heartbeat, is all that is left. */
  function Housekeep(mux: Mux): (r: (Mux, bool))
    ensures forall p :: p in r.0 <==> p in mux && !Removable(p, mux[p])
    ensures forall p :: p in r.0 ==> r.0[p] == mux[p]
    ensures PingPath in mux ==> (r.1 <==> r.0.Keys == {PingPath})
  {
    var kept := map p | p in mux && !Removable(p, mux[p]) :: mux[p];
    assert PingPath in mux ==> (|kept| == 1 <==> kept.Keys == {PingPath}) by {
      if PingPath in mux {
        OnlyMember(kept.Keys, PingPath);
      }
    }
    (kept, |kept| - 1 == 0)
  }

  /** A set holding `x` has one member exactly when it is `{x}`. */
  lemma OnlyMember<T>(s: set<T>, x: T)
    requires x in s
    ensures |s| == 1 <==> s == {x}
  {
    if |s| == 1 {
      assert |s - {x}| == 0;
      forall y | y in s ensures y == x {
        assert y !in s - {x};
      }
    }
  }

  /** The request's `Accept` header: absent, the wildcard, or its
      comma-separated media types as parsed (`None` where parsing fails). */
  datatype Accept = NoAccept | AnyMedia | Listed(types: seq<Option<string>>)

  /** What reading the request body gives, for a method that has one. */
  datatype Body = BadContentType | Rejected | Read

  /** What the exchange with the external process gives. */
  datatype Link = DialFailed | WriteFailed | ReadFailed | Closed | Answered(ok: bool)

  predicate Served(t: string) {
    t == "application/json" || t == "application/x-www-form-urlencoded" || t == "multipart/form-data"
  }

  /** The scan of the listed media types: 400 at an unparsable one, 200 at
      the first served one, 415 when none is served. */
  function AcceptScan(types: seq<Option<string>>): (code: int)
    ensures code == 200 <==> exists i :: 0 <= i < |types| && types[i].Some? && Served(types[i].value)
                                         && forall j :: 0 <= j < i ==> types[j].Some?
    ensures code in {200, 400, 415}
  {
    if |types| == 0 then 415
    else if types[0].None? then 400
    else if Served(types[0].value) then 200
    else
      var c := AcceptScan(types[1..]);
      assert forall i :: 1 <= i < |types| ==> types[i] == types[1..][i - 1];
      assert c == 200 ==> exists i :: 0 <= i < |types| && types[i].Some? && Served(types[i].value)
                                       && forall j :: 0 <= j < i ==> types[j].Some? by {
        if c == 200 {
          var i :| 0 <= i < |types[1..]| && types[1..][i].Some? && Served(types[1..][i].value)
                   && forall j :: 0 <= j < i ==> types[1..][j].Some?;
          forall j | 0 <= j < i + 1 ensures types[j].Some? {
            if j > 0 { assert types[j] == types[1..][j - 1]; }
          }
          assert types[i + 1] == types[1..][i];
        }
      }
      c
  }

  /** The admission checks of `ServeHTTP`, in order: unknown path, disabled
      entry, entry busy, method not allowed, then the `Accept` header. 0 means
      admitted; the heartbeat answers a GET itself. */
  function Admission(mux: Mux, path: Path, verb: string, accept: Accept): (code: int)
    ensures path !in mux ==> code == 404
    ensures path in mux && path == PingPath && verb == "GET" ==> code == 200
    ensures code == 0 ==>
              && path in mux && !(path == PingPath && verb == "GET")
              && mux[path].enabled && !mux[path].handling && verb in mux[path].allowedMethods
              && (accept.Listed? ==> AcceptScan(accept.types) == 200)
    ensures path in mux && !(path == PingPath && verb == "GET") ==>
              && (!mux[path].enabled ==> code == 404)
              && (mux[path].enabled && mux[path].handling ==> code == 423)
              && (mux[path].enabled && !mux[path].handling && verb !in mux[path].allowedMethods ==> code == 405)
  {
    if path !in mux then 404
    else if path == PingPath && verb == "GET" then 200
    else
      var e := mux[path];
      if !e.enabled then 404
      else if e.handling then 423
      else if verb !in e.allowedMethods then 405
      else match accept
        case NoAccept => 0
        case AnyMedia => 0
        case Listed(types) =>
          var c := AcceptScan(types);
          if c == 200 then 0 else c
  }

  /** `ServeHTTP`: an admitted request marks the entry busy while it is
      handed over, and the entry is free again once the answer (or the
      failure) comes back; an ok answer disables the entry and marks it
      handled: a resource serves one request. */
  function Serve(mux: Mux, path: Path, verb: string, accept: Accept, body: Body, link: Link): (r: (Mux, int))
    ensures Admission(mux, path, verb, accept) != 0 ==> r == (mux, Admission(mux, path, verb, accept))
    ensures r.0.Keys == mux.Keys
    ensures forall p :: p in mux && p != path ==> r.0[p] == mux[p]
    ensures r.1 == 202 <==> Admission(mux, path, verb, accept) == 0 && link == Answered(true)
                            && (verb in ["DELETE", "GET"] || body == Read)
    ensures Admission(mux, path, verb, accept) == 0 ==>
              && !r.0[path].handling
              && r.0[path].timeout == mux[path].timeout
              && (r.1 == 202 ==> !r.0[path].enabled && r.0[path].handled)
              && (r.1 != 202 ==> r.0[path] == mux[path])
  {
    var code := Admission(mux, path, verb, accept);
    if code != 0 then (mux, code)
    else
      var e := mux[path];
      var withoutBody := verb in ["DELETE", "GET"];
      if !withoutBody && body != Read then (mux, 400)
      else match link
        case DialFailed => (mux, 400)
        case WriteFailed => (mux, 500)
        case ReadFailed => (mux, 500)
        case Closed => (mux, 400)
        case Answered(ok) =>
          if ok then (mux[path := e.(enabled := false, handled := true)], 202) else (mux, 400)
  }

  /** A second registration of a path is refused and changes nothing. */
  lemma RegisterTwiceRefused(mux: Mux, cmd: Command, again: Command)
    requires Register(mux, cmd).1.ok
    requires Normalize(again.path) == Normalize(cmd.path) && !RefusesMethods(again)
    ensures Register(Register(mux, cmd).0, again) == (Register(mux, cmd).0, Reply(false, "path already registered"))
  {
  }

  /** The commands as the PHP side sends them, in lower case, are not
      recognised. */
  lemma LowerCaseCommandsUnknown(mux: Mux, cmd: Command)
    requires cmd.command == "register" || cmd.command == "deregister"
    ensures Dispatch(mux, cmd) == (mux, Reply(false, "unknown command"))
  {
  }

  function AsciiUpper(s: string): (u: string)
    ensures |u| == |s|
    ensures forall i :: 0 <= i < |s| ==> u[i] == if 'a' <= s[i] <= 'z' then (s[i] as int - 32) as char else s[i]
  {
    seq(|s|, i requires 0 <= i < |s| => if 'a' <= s[i] <= 'z' then (s[i] as int - 32) as char else s[i])
  }

  /** The dispatcher with the command name compared regardless of ASCII
      case. */
  function DispatchAnyCase(mux: Mux, cmd: Command): (r: (Mux, Reply))
    ensures AsciiUpper(cmd.command) == "REGISTER" ==> r == Register(mux, cmd)
    ensures AsciiUpper(cmd.command) == "DEREGISTER" ==> r == DeregisterIntended(mux, cmd)
    ensures AsciiUpper(cmd.command) != "REGISTER" && AsciiUpper(cmd.command) != "DEREGISTER" ==>
              r == (mux, Reply(false, "unknown command"))
  {
    var name := AsciiUpper(cmd.command);
    if name == "REGISTER" then Register(mux, cmd)
    else if name == "DEREGISTER" then DeregisterIntended(mux, cmd)
    else (mux, Reply(false, "unknown command"))
  }

  /** The lower-case commands reach the same operations as the upper-case
      ones. */
  lemma PhpRegisterDispatched(mux: Mux, cmd: Command)
    requires cmd.command == "register"
    ensures DispatchAnyCase(mux, cmd) == Register(mux, cmd)
  {
    var u := AsciiUpper(cmd.command);
    assert u[0] == 'R' && u[1] == 'E' && u[2] == 'G' && u[3] == 'I';
    assert u[4] == 'S' && u[5] == 'T' && u[6] == 'E' && u[7] == 'R';
    assert u == "REGISTER";
  }

  lemma PhpDeregisterDispatched(mux: Mux, cmd: Command)
    requires cmd.command == "deregister"
    ensures DispatchAnyCase(mux, cmd) == DeregisterIntended(mux, cmd)
  {
    var u := AsciiUpper(cmd.command);
    assert u[0] == 'D' && u[1] == 'E' && u[2] == 'R' && u[3] == 'E' && u[4] == 'G';
    assert u[5] == 'I' && u[6] == 'S' && u[7] == 'T' && u[8] == 'E' && u[9] == 'R';
    assert u == "DEREGISTER";
  }

  /** Registration files a path under its normalized form (`Register` is
      `FileAt` of the normalized path). When that form differs from the path
      as sent, deregistering the path as sent finds nothing, and the entry
      outlives its deregistration. */
  lemma PaddedPathOutlivesDeregister(cmd: Command, filed: Path)
    requires !RefusesMethods(cmd) && cmd.path != PingPath
    requires filed != cmd.path && filed != PingPath
    ensures FileAt(Start(), cmd, filed).1.ok
    ensures filed in FileAt(Start(), cmd, filed).0
    ensures var m := FileAt(Start(), cmd, filed).0;
            Deregister(m, cmd.(command := "DEREGISTER")) == (m, Reply(false, "resource not found"))
  {
    StillAbsent(Start(), filed, NewEntry(cmd), cmd.path);
    DeregisterAbsent(FileAt(Start(), cmd, filed).0, cmd.(command := "DEREGISTER"));
  }

  /** Such a path: "/x " is filed as "/x". */
  lemma NormalizePadded()
    ensures var padded: Path := [0x2F, 0x78, 0x20];
            && Normalize(padded) == [0x2F, 0x78]
            && padded != PingPath && Normalize(padded) != PingPath
  {
    TrimPadded();
    StripBare();
  }

  /** Deregistering a path that is not filed. */
  lemma DeregisterAbsent(mux: Mux, c: Command)
    requires c.path !in mux
    ensures Deregister(mux, c) == (mux, Reply(false, "resource not found"))
  {
  }

  /** Filing one path leaves another absent path absent. */
  lemma StillAbsent(mux: Mux, q: Path, e: Entry, p: Path)
    requires p !in mux && p != q
    ensures p !in mux[q := e]
  {
  }

  lemma TrimPadded()
    ensures TrimSpace([0x2F, 0x78, 0x20]) == [0x2F, 0x78]
  {
    TrimLeftPadded();
    TrimRightPadded();
  }

  lemma TrimLeftPadded()
    ensures TrimLeft([0x2F, 0x78, 0x20]) == [0x2F, 0x78, 0x20]
  {
    AsciiStartKept([0x2F, 0x78, 0x20]);
  }

  lemma TrimRightPadded()
    ensures TrimRight([0x2F, 0x78, 0x20]) == [0x2F, 0x78]
  {
    var padded: Path := [0x2F, 0x78, 0x20];
    AsciiSpaceEnd(padded);
    AsciiEndKept([0x2F, 0x78]);
    assert padded[..2] == [0x2F, 0x78];
  }

  /** Text that starts with a visible ASCII byte keeps its start. */
  lemma AsciiStartKept(b: seq<Byte>)
    requires |b| > 0 && b[0] < 0x80 && !IsSpaceRune(b[0])
    ensures TrimLeft(b) == b
  {
  }

  /** Text that ends with an ASCII space loses that one byte first. */
  lemma AsciiSpaceEnd(b: seq<Byte>)
    requires |b| > 0 && b[|b| - 1] == 0x20
    ensures TrailingSpaceSize(b) == 1
  {
    assert b[|b| - 1..][0] == 0x20;
  }

  /** Text whose last bytes are ASCII and the last one visible keeps its end. */
  lemma AsciiEndKept(b: seq<Byte>)
    requires |b| > 0 && b[|b| - 1] < 0x80 && !IsSpaceRune(b[|b| - 1])
    requires |b| >= 2 ==> b[|b| - 2] < 0x80
    requires |b| >= 3 ==> b[|b| - 3] < 0x80
    ensures TrimRight(b) == b
  {
    AsciiNotSpaceAt(b, 1);
    if |b| >= 2 { AsciiNotSpaceAt(b, 2); }
    if |b| >= 3 { AsciiNotSpaceAt(b, 3); }
    assert TrailingSpaceSize(b) == 0;
  }

  /** An ASCII byte `n` from the end is a rune of one byte, so the last `n`
      bytes are one white-space rune only for `n` = 1 and a blank. */
  lemma AsciiNotSpaceAt(b: seq<Byte>, n: nat)
    requires 1 <= n <= |b| && b[|b| - n] < 0x80
    requires n == 1 ==> !IsSpaceRune(b[|b| - 1])
    ensures !SpaceAt(b, n)
  {
    var t := b[|b| - n..];
    assert t[0] == b[|b| - n];
    assert Decode(t) == (t[0] as int, 1);
  }

  lemma StripBare()
    ensures StripInvisibleRunes([0x2F, 0x78]) == [0x2F, 0x78]
  {
    var bare: Path := [0x2F, 0x78];
    DecodeAllStep(bare);
    DecodeAllStep([0x78]);
    assert bare[1..] == [0x78] && [0x78][1..] == [];
    assert DecodeAll(bare) == [0x2F, 0x78];
    var rs := [0x2F, 0x78];
    assert rs[1..] == [0x78] && [0x78][1..] == [];
    assert Filter(rs) == rs;
    assert EncodeAll(rs) == bare;
  }

  /** Anyone sending the heartbeat's empty owner can deregister it, after
      which the sweep's count of what is left is off by one and an empty
      registry never shuts the server down. */
  lemma PingCanBeDeregistered()
    ensures var gone := Deregister(Start(), Command("DEREGISTER", PingPath, "", "", [], 0));
            && gone == (map[], Ok)
            && Housekeep(gone.0) == (map[], false)
  {
  }

  /** `deregister` as evidently intended: the path is looked up as it was
      filed, and the heartbeat, which always exists, is not deregistered. */
  function DeregisterIntended(mux: Mux, cmd: Command): (r: (Mux, Reply))
    ensures PingPath in mux ==> PingPath in r.0
    ensures var path := Normalize(cmd.path);
            && (r.1.ok <==> path in mux && path != PingPath && mux[path].owner == cmd.owner)
            && (r.1.ok ==> r.0 == mux - {path})
    ensures !r.1.ok ==> r.0 == mux
  {
    DeregisterFiledPath(mux, cmd.(path := Normalize(cmd.path)))
  }

  /** The intended deregistration of a path as it was filed. */
  function DeregisterFiledPath(mux: Mux, c: Command): (r: (Mux, Reply))
    ensures PingPath in mux ==> PingPath in r.0
    ensures r.1.ok <==> c.path in mux && c.path != PingPath && mux[c.path].owner == c.owner
    ensures r.1.ok ==> r.0 == mux - {c.path}
    ensures !r.1.ok ==> r.0 == mux
  {
    if c.path == PingPath then (mux, Reply(false, "wrong resource owner"))
    else Deregister(mux, c)
  }

  /** What a registration files, the intended deregistration removes again:
      the mux is as it was. */
  lemma RegisterThenDeregister(mux: Mux, cmd: Command)
    requires PingPath in mux && Register(mux, cmd).1.ok
    ensures DeregisterIntended(Register(mux, cmd).0, cmd) == (mux, Ok)
  {
    var path := Normalize(cmd.path);
    assert path !in mux && Register(mux, cmd).0 == mux[path := NewEntry(cmd)];
    RemoveFiled(mux, cmd, NewEntry(cmd));
  }

  lemma RemoveFiled(mux: Mux, cmd: Command, e: Entry)
    requires PingPath in mux && Normalize(cmd.path) !in mux && e.owner == cmd.owner
    ensures DeregisterIntended(mux[Normalize(cmd.path) := e], cmd) == (mux, Ok)
  {
    var path := Normalize(cmd.path);
    DeregisterFiled(mux, cmd.(path := path), e);
  }

  lemma DeregisterFiled(mux: Mux, c: Command, e: Entry)
    requires c.path !in mux && e.owner == c.owner
    ensures Deregister(mux[c.path := e], c) == (mux, Ok)
  {
    assert mux[c.path := e] - {c.path} == mux;
  }

  /** The heartbeat stays registered whatever the server does, with
      deregistration as intended. */
  lemma PingAlwaysThere(mux: Mux, cmd: Command, path: Path, verb: string, accept: Accept, body: Body, link: Link)
    requires PingPath in mux
    ensures PingPath in Register(mux, cmd).0
    ensures PingPath in DeregisterIntended(mux, cmd).0
    ensures PingPath in DispatchAnyCase(mux, cmd).0
    ensures PingPath in Tick(mux)
    ensures PingPath in Housekeep(mux).0
    ensures PingPath in Serve(mux, path, verb, accept, body, link).0
  {
    PingKeptByCommands(mux, cmd);
    PingKeptByDispatch(mux, cmd);
    PingKeptByServer(mux, path, verb, accept, body, link);
  }

  lemma PingKeptByCommands(mux: Mux, cmd: Command)
    requires PingPath in mux
    ensures PingPath in Register(mux, cmd).0
    ensures PingPath in DeregisterIntended(mux, cmd).0
  {
  }

  lemma PingKeptByDispatch(mux: Mux, cmd: Command)
    requires PingPath in mux
    ensures PingPath in DispatchAnyCase(mux, cmd).0
  {
    PingKeptByCommands(mux, cmd);
  }

  lemma PingKeptByServer(mux: Mux, path: Path, verb: string, accept: Accept, body: Body, link: Link)
    requires PingPath in mux
    ensures PingPath in Tick(mux)
    ensures PingPath in Housekeep(mux).0
    ensures PingPath in Serve(mux, path, verb, accept, body, link).0
  {
  }

  /** `n` lifetime ticks. */
  function Ticks(mux: Mux, n: nat): (r: Mux)
    ensures r.Keys == mux.Keys
  {
    if n == 0 then mux else Tick(Ticks(mux, n - 1))
  }

  /** `n` ticks on one entry. */
  function TickEntryN(p: Path, e: Entry, n: nat): Entry {
    if n == 0 then e else TickEntry(p, TickEntryN(p, e, n - 1))
  }

  /** Ticking the mux ticks each entry on its own. */
  lemma {:induction false} TicksAt(mux: Mux, p: Path, n: nat)
    requires p in mux
    ensures p in Ticks(mux, n) && Ticks(mux, n)[p] == TickEntryN(p, mux[p], n)
  {
    if n > 0 {
      TicksAt(mux, p, n - 1);
      TickAt(Ticks(mux, n - 1), p);
    }
  }

  lemma TickAt(m: Mux, p: Path)
    requires p in m
    ensures Tick(m)[p] == TickEntry(p, m[p])
  {
  }

  /** An idle entry loses one unit of lifetime per tick. */
  lemma {:induction false} IdleEntryCountsDown(mux: Mux, p: Path, n: nat)
    requires p in mux && p != PingPath && !mux[p].handled && !mux[p].handling
    requires n <= mux[p].timeout
    ensures Ticks(mux, n)[p] == mux[p].(timeout := mux[p].timeout - n)
  {
    TicksAt(mux, p, n);
    EntryCountsDown(p, mux[p], n);
  }

  lemma {:induction false} EntryCountsDown(p: Path, e: Entry, n: nat)
    requires p != PingPath && !e.handled && !e.handling && n <= e.timeout
    ensures TickEntryN(p, e, n) == e.(timeout := e.timeout - n)
  {
    if n > 0 {
      EntryCountsDown(p, e, n - 1);
    }
  }

  /** An idle entry is swept once its lifetime has run out. */
  lemma IdleEntryExpires(mux: Mux, p: Path)
    requires p in mux && p != PingPath && !mux[p].handled && !mux[p].handling && mux[p].timeout > 0
    ensures p !in Housekeep(Ticks(mux, mux[p].timeout)).0
  {
    IdleEntryCountsDown(mux, p, mux[p].timeout);
  }

  /** A resource answers one request: after an accepted request the entry
      refuses every later one and the next sweep removes it. */
  lemma ServedOnce(mux: Mux, path: Path, verb: string, accept: Accept, body: Body, link: Link, verb2: string, accept2: Accept)
    requires path != PingPath
    requires Serve(mux, path, verb, accept, body, link).1 == 202
    ensures Admission(Serve(mux, path, verb, accept, body, link).0, path, verb2, accept2) == 404
    ensures path !in Housekeep(Serve(mux, path, verb, accept, body, link).0).0
  {
  }
}

=== FILE: legacy_kernel.dfy ===
/** The older engine's kernel: a recursive interpreter over task sets. An
    exclusive gate processes the set it names; an inclusive gate processes
    every set it names with the same input, resumes its own set with the
    collected results and returns that collection. The gates' decisions are
    an oracle keyed by the set and the gate's position; the recursion is
    bounded by `fuel`. Observer notifications and clean-ups are recorded as
    effects, in order. */
module LegacyKernel {
  import opened Wrappers
  import opened LegacyTaskSet
  import opened LegacyRegistry

  datatype Env = Env(
    call: (nat, IO) -> IO,
    xorTo: (string, nat, IO) -> string,
    orTo: (string, nat, IO) -> seq<string>,
    observers: bool)

  datatype Effect = Notified(io: IO) | CleanedUp(setName: string) | NotifiedDeferred

  datatype KState = KState(reg: Registry, complete: seq<string>, first: Option<string>, running: bool, log: seq<Effect>)

  datatype Outcome = Returned(io: IO, st: KState) | Threw(error: Exception) | OutOfFuel

  const NoBranches := LogicException("Inclusive (OR) gates must return at least 1 or more set of tasks to follow")

  /** What every step keeps: the registry's names, the sets already
      recorded complete, and a truthy first set name. */
  predicate Keeps(st: KState, st': KState) {
    && st'.reg.sets.Keys == st.reg.sets.Keys
    && |st.complete| <= |st'.complete| && st'.complete[..|st.complete|] == st.complete
    && (Truthy(st.first) ==> st'.first == st.first)
  }

  lemma KeepsChains(a: KState, b: KState, r: Outcome)
    requires Keeps(a, b)
    requires r.Returned? ==> Keeps(b, r.st)
    ensures r.Returned? ==> Keeps(a, r.st)
  {
    if r.Returned? {
      assert r.st.complete[..|a.complete|] == r.st.complete[..|b.complete|][..|a.complete|];
    }
  }

  /** The effects of one `processTaskSet` end with the set's clean-up, then
      the deferred notification when it fired. */
  predicate EndsWithCleanUp(log: seq<Effect>, name: string) {
    || (|log| >= 1 && log[|log| - 1] == CleanedUp(name))
    || (|log| >= 2 && log[|log| - 2] == CleanedUp(name) && log[|log| - 1] == NotifiedDeferred)
  }

  /** `processTaskSet`: look the set up, record the first set name ever
      processed, process the set, handle its gate or result, clean the set
      up, and when returning from the first set name, stop running and fire
      the deferred notifications. */
  function ProcessTaskSet(st: KState, name: string, io: IO, env: Env, fuel: nat): (r: Outcome)
    ensures r.Returned? ==> Keeps(st, r.st) && name in st.reg.sets
    ensures fuel > 0 && name !in st.reg.sets ==> r == Threw(Unregistered(name))
    ensures fuel > 0 && name in st.reg.sets && Done(st.reg.sets[name]) ==> r == Threw(SetDone)
    ensures r.Returned? ==> EndsWithCleanUp(r.st.log, name)
    ensures r.Returned? && Truthy(st.first) ==>
              (r.st.log[|r.st.log| - 1] == NotifiedDeferred <==> env.observers && st.first == Some(name))
    ensures r.Returned? && !Truthy(st.first) && Truthy(Some(name)) ==>
              && r.st.first == Some(name) && !r.st.running
              && (r.st.log[|r.st.log| - 1] == NotifiedDeferred <==> env.observers)
    decreases fuel, 0, 0
  {
    if fuel == 0 then OutOfFuel
    else
      var st0 := st.(running := true);
      match GetNamed(st0.reg, name)
      case Failure(e) => Threw(e)
      case Success((ts, reg1)) =>
        var st1 := st0.(reg := reg1, first := if Truthy(st0.first) then st0.first else Some(name));
        match Process(ts, io, env.call)
        case Failure(e) => Threw(e)
        case Success((step, ts1)) =>
          var st2 := st1.(reg := Add(st1.reg, name, ts1));
          match GateOrReturn(st2, name, step, env, fuel - 1)
          case Threw(e) => Threw(e)
          case OutOfFuel => OutOfFuel
          case Returned(out, st3) =>
            var st4 := st3.(log := st3.log + [CleanedUp(name)]);
            if st4.first == Some(name) then
              Returned(out, st4.(running := false, log := st4.log + (if env.observers then [NotifiedDeferred] else [])))
            else Returned(out, st4)
  }

  /** `processGateOrReturn`: notify the observers of the input or result,
      then follow an exclusive gate, fan out at an inclusive gate, or record
      the set complete and return its result. */
  function GateOrReturn(st: KState, name: string, step: Step, env: Env, fuel: nat): (r: Outcome)
    requires name in st.reg.sets
    ensures r.Returned? ==> Keeps(st, r.st)
    ensures step.Output? ==>
              r == Returned(step.io, st.(complete := st.complete + [name], log := st.log + (if env.observers then [Notified(step.io)] else [])))
    ensures step.XorAt? ==>
              r == ProcessTaskSet(st.(complete := st.complete + [name], log := st.log + (if env.observers then [Notified(step.io)] else [])),
                                  env.xorTo(name, step.gate, step.io), step.io, env, fuel)
    ensures step.OrAt? ==>
              r == Fanout(st.(log := st.log + (if env.observers then [Notified(step.io)] else [])), name, step.gate, step.io, env, fuel)
    decreases fuel, 3, 0
  {
    var st1 := st.(log := st.log + (if env.observers then [Notified(step.io)] else []));
    var st2 := st1.(complete := st1.complete + [name]);
    assert Keeps(st, st2) by {
      assert st2.complete[..|st.complete|] == st.complete;
    }
    match step
    case Output(out) => Returned(out, st2)
    case XorAt(g, gio) =>
      var r := ProcessTaskSet(st2, env.xorTo(name, g, gio), gio, env, fuel);
      KeepsChains(st, st2, r);
      r
    case OrAt(g, gio) =>
      var r := Fanout(st1, name, g, gio, env, fuel);
      KeepsChains(st, st1, r);
      r
  }

  /** An inclusive gate: every named set is processed with the gate's input,
      the gate's own set is resumed with the collection of their results
      (whatever that resume yields is handled and then dropped), and the
      collection is returned. */
  function Fanout(st: KState, name: string, g: nat, io: IO, env: Env, fuel: nat): (r: Outcome)
    requires name in st.reg.sets
    ensures |env.orTo(name, g, io)| == 0 ==> r == Threw(NoBranches)
    ensures r.Returned? ==> Keeps(st, r.st)
    ensures r.Returned? ==> r.io.Collected? && |r.io.items| == |env.orTo(name, g, io)|
    ensures r.Returned? ==> Branches(st, env.orTo(name, g, io), io, env, fuel).Returned? && r.io == Branches(st, env.orTo(name, g, io), io, env, fuel).io
    decreases fuel, 2, 0
  {
    var names := env.orTo(name, g, io);
    if |names| == 0 then Threw(NoBranches)
    else
      match Branches(st, names, io, env, fuel)
      case Threw(e) => Threw(e)
      case OutOfFuel => OutOfFuel
      case Returned(collected, st2) =>
        match Resume(st2.reg.sets[name], collected, env.call)
        case Failure(e) => Threw(e)
        case Success((step2, ts2)) =>
          var st3 := st2.(reg := Add(st2.reg, name, ts2));
          if fuel == 0 then OutOfFuel
          else
            match GateOrReturn(st3, name, step2, env, fuel - 1)
            case Threw(e) => Threw(e)
            case OutOfFuel => OutOfFuel
            case Returned(_, st4) => Returned(collected, st4)
  }

  /** The branches of an inclusive gate, in listed order, each processed with
      the same input; the results are collected in that order. */
  function Branches(st: KState, names: seq<string>, io: IO, env: Env, fuel: nat): (r: Outcome)
    ensures r.Returned? ==> Keeps(st, r.st)
    ensures r.Returned? ==> r.io.Collected? && |r.io.items| == |names|
    decreases fuel, 1, |names|
  {
    if |names| == 0 then Returned(Collected([]), st)
    else
      match ProcessTaskSet(st, names[0], io, env, fuel)
      case Threw(e) => Threw(e)
      case OutOfFuel => OutOfFuel
      case Returned(out, st1) =>
        match Branches(st1, names[1..], io, env, fuel)
        case Threw(e) => Threw(e)
        case OutOfFuel => OutOfFuel
        case Returned(rest, st2) => Returned(Collected([out] + rest.items), st2)
  }

  /** A first run of a set of plain tasks: their chained output is returned
      and the observers are notified of it, the set is recorded complete and
      left done, it is cleaned up, and since it is the first set, the deferred
      notifications fire. */
  lemma PlainSetRun(st: KState, name: string, io: IO, env: Env, fuel: nat)
    requires name in st.reg.sets && !Done(st.reg.sets[name])
    requires AllTasks(st.reg.sets[name].entries, 0, |st.reg.sets[name].entries|)
    requires fuel >= 2 && st.first == None && Truthy(Some(name)) && env.observers
    ensures var ts := st.reg.sets[name];
            var out := Chain(ts.entries, 0, |ts.entries|, io, env.call);
            && ProcessTaskSet(st, name, io, env, fuel).Returned?
            && var r := ProcessTaskSet(st, name, io, env, fuel);
            && r.io == out
            && r.st.complete == st.complete + [name]
            && r.st.log == st.log + [Notified(out), CleanedUp(name), NotifiedDeferred]
            && Done(r.st.reg.sets[name])
            && r.st.first == Some(name) && !r.st.running
  {
    var ts := st.reg.sets[name];
    TasksOnlyRunThrough(ts, io, env.call);
  }

  /** A set that ran to its end stays done in the registry, so a second
      route to it fails. */
  lemma SecondRouteToFinishedSetFails(st: KState, name: string, io: IO, io2: IO, env: Env, fuel: nat)
    requires name in st.reg.sets && !Done(st.reg.sets[name])
    requires AllTasks(st.reg.sets[name].entries, 0, |st.reg.sets[name].entries|)
    requires fuel >= 2 && st.first == None && Truthy(Some(name)) && env.observers
    ensures ProcessTaskSet(ProcessTaskSet(st, name, io, env, fuel).st, name, io2, env, fuel) == Threw(SetDone)
  {
    PlainSetRun(st, name, io, env, fuel);
  }
}

=== FILE: legacy_registry.dfy ===
/** The older engine's registry of task sets, keyed by class name; a lookup
    returns the stored set itself and makes it the current one. */
module LegacyRegistry {
  import opened Wrappers
  import opened LegacyTaskSet

  datatype Registry = Registry(sets: map<string, TaskSet>, current: Option<string>)

  /** `add`: file the set under its class; a later add of the class overwrites. */
  function Add(r: Registry, cls: string, s: TaskSet): (r': Registry)
    ensures r'.sets.Keys == r.sets.Keys + {cls}
    ensures r'.sets[cls] == s
    ensures forall n :: n in r.sets && n != cls ==> r'.sets[n] == r.sets[n]
    ensures r'.current == r.current
  {
    r.(sets := r.sets[cls := s])
  }

  predicate Exists(r: Registry, name: string) {
    name in r.sets
  }

  function Unregistered(name: string): Exception {
    RuntimeException("Unregistered task set " + name)
  }

  /** `getNamed`: the stored set, recorded as current; unknown names fail. */
  function GetNamed(r: Registry, name: string): (res: Result<(TaskSet, Registry)>)
    ensures res.Failure? <==> !Exists(r, name)
    ensures res.Failure? ==> res.error == Unregistered(name)
    ensures res.Success? ==> res.value.0 == r.sets[name] && res.value.1 == r.(current := Some(name))
  {
    if name !in r.sets then Failure(Unregistered(name))
    else Success((r.sets[name], r.(current := Some(name))))
  }

  /** Adding makes a name exist and look up to exactly what was added. */
  lemma AddThenGet(r: Registry, cls: string, s: TaskSet, other: string)
    ensures GetNamed(Add(r, cls, s), cls) == Success((s, Add(r, cls, s).(current := Some(cls))))
    ensures other != cls ==> (Exists(Add(r, cls, s), other) <==> Exists(r, other))
  {
  }
}

=== FILE: legacy_task_set.dfy ===
/** The older engine's task set: a non-empty list of tasks and gates walked
    with PHP's internal array cursor. `pos` is that cursor; it is past the
    end (`pos == |entries|`) once the set is done. Tasks are an oracle:
    `call(id, io)` is what task `id` returns on `io`. */
module LegacyTaskSet {
  import opened Wrappers

  datatype IO = Null | Data(d: nat) | Collected(items: seq<IO>)

  datatype Entry = Task(id: nat) | XorGate(id: nat) | OrGate(id: nat)

  /** What the subclass lists: a task or gate, or anything else. */
  datatype Item = Accepted(entry: Entry) | Other

  datatype TaskSet = TaskSet(entries: seq<Entry>, pos: nat)

  /** What `process` and `resume` hand back: a gate carrying the current
      input, or the last task's output. */
  datatype Step = XorAt(gate: nat, io: IO) | OrAt(gate: nat, io: IO) | Output(io: IO)

  const InvalidSet := LogicException("Invalid task set")
  const SetDone := LogicException("This task set is done")
  const NotAfterOrGate := LogicException("Resume only after OrGate instance")

  /** The constructor: the list must be non-empty and hold only tasks and gates. */
  function New(items: seq<Item>): (r: Result<TaskSet>)
    ensures r.Failure? <==> |items| == 0 || Other in items
    ensures r.Failure? ==> r.error == InvalidSet
    ensures r.Success? ==>
              && r.value.pos == 0
              && |r.value.entries| == |items|
              && forall i :: 0 <= i < |items| ==> items[i] == Accepted(r.value.entries[i])
  {
    if |items| == 0 || Other in items then Failure(InvalidSet)
    else
      assert forall i :: 0 <= i < |items| ==> items[i].Accepted? by {
        forall i | 0 <= i < |items| ensures items[i].Accepted? {
          assert items[i] in items;
        }
      }
      Success(TaskSet(seq(|items|, i requires 0 <= i < |items| => items[i].entry), 0))
  }

  predicate Done(s: TaskSet) {
    s.pos >= |s.entries|
  }

  predicate AllTasks(entries: seq<Entry>, i: nat, j: nat)
    requires i <= j <= |entries|
  {
    forall k :: i <= k < j ==> entries[k].Task?
  }

  /** The reference semantics of a run of tasks: each one's output is the
      next one's input. */
  function Chain(entries: seq<Entry>, i: nat, j: nat, io: IO, call: (nat, IO) -> IO): IO
    requires i <= j <= |entries| && AllTasks(entries, i, j)
    decreases j - i
  {
    if i == j then io else Chain(entries, i + 1, j, call(entries[i].id, io), call)
  }

  /** The walk from entry `i` on: tasks run in order until a gate is met or
      the list ends. An exclusive gate moves the cursor to the last entry,
      an inclusive gate leaves it on the gate, and running off the end leaves
      it past the end. */
  function Walk(entries: seq<Entry>, i: nat, io: IO, call: (nat, IO) -> IO): (r: (Step, nat))
    requires i < |entries|
    ensures r.0.Output? ==> AllTasks(entries, i, |entries|) && r.0.io == Chain(entries, i, |entries|, io, call) && r.1 == |entries|
    ensures r.0.XorAt? ==>
              && i <= r.0.gate < |entries| && entries[r.0.gate] == XorGate(entries[r.0.gate].id)
              && AllTasks(entries, i, r.0.gate) && r.0.io == Chain(entries, i, r.0.gate, io, call)
              && r.1 == |entries| - 1
    ensures r.0.OrAt? ==>
              && i <= r.0.gate < |entries| && entries[r.0.gate] == OrGate(entries[r.0.gate].id)
              && AllTasks(entries, i, r.0.gate) && r.0.io == Chain(entries, i, r.0.gate, io, call)
              && r.1 == r.0.gate
    decreases |entries| - i
  {
    match entries[i]
    case XorGate(_) => (XorAt(i, io), |entries| - 1)
    case OrGate(_) => (OrAt(i, io), i)
    case Task(id) =>
      var out := call(id, io);
      if i + 1 == |entries| then (Output(out), |entries|)
      else Walk(entries, i + 1, out, call)
  }

  /** `process`: refused on a done set, otherwise a walk from the first entry. */
  function Process(s: TaskSet, io: IO, call: (nat, IO) -> IO): (r: Result<(Step, TaskSet)>)
    ensures r.Failure? <==> Done(s)
    ensures r.Failure? ==> r.error == SetDone
    ensures r.Success? ==> r.value.1.entries == s.entries && r.value.1.pos <= |s.entries|
    ensures r.Success? && r.value.0.Output? ==>
              AllTasks(s.entries, 0, |s.entries|) && r.value.0.io == Chain(s.entries, 0, |s.entries|, io, call) && Done(r.value.1)
    ensures r.Success? && r.value.0.XorAt? ==>
              && r.value.0.gate < |s.entries| && s.entries[r.value.0.gate].XorGate?
              && AllTasks(s.entries, 0, r.value.0.gate) && r.value.0.io == Chain(s.entries, 0, r.value.0.gate, io, call)
              && r.value.1.pos == |s.entries| - 1
    ensures r.Success? && r.value.0.OrAt? ==>
              && r.value.0.gate < |s.entries| && s.entries[r.value.0.gate].OrGate?
              && AllTasks(s.entries, 0, r.value.0.gate) && r.value.0.io == Chain(s.entries, 0, r.value.0.gate, io, call)
              && r.value.1.pos == r.value.0.gate
  {
    if Done(s) then Failure(SetDone)
    else
      var w := Walk(s.entries, 0, io, call);
      Success((w.0, s.(pos := w.1)))
  }

  /** `resume`: only on a set whose cursor rests on an inclusive gate; the
      walk continues after the gate, and a gate at the end leaves the set
      done with the input as output. */
  function Resume(s: TaskSet, io: IO, call: (nat, IO) -> IO): (r: Result<(Step, TaskSet)>)
    ensures Done(s) ==> r == Failure(SetDone)
    ensures !Done(s) && !s.entries[s.pos].OrGate? ==> r == Failure(NotAfterOrGate)
    ensures r.Success? ==> s.pos < |s.entries| && s.entries[s.pos].OrGate? && r.value.1.entries == s.entries
    ensures r.Success? && s.pos + 1 == |s.entries| ==> r.value == (Output(io), s.(pos := |s.entries|))
    ensures r.Success? && s.pos + 1 < |s.entries| ==>
              var w := Walk(s.entries, s.pos + 1, io, call);
              r.value == (w.0, s.(pos := w.1))
  {
    if Done(s) then Failure(SetDone)
    else if !s.entries[s.pos].OrGate? then Failure(NotAfterOrGate)
    else if s.pos + 1 == |s.entries| then Success((Output(io), s.(pos := |s.entries|)))
    else
      var w := Walk(s.entries, s.pos + 1, io, call);
      Success((w.0, s.(pos := w.1)))
  }

  /** `cleanUp`: the positions whose entries are cleaned, last to first. */
  function CleanUpOrder(s: TaskSet): (r: seq<nat>)
    ensures |r| == |s.entries|
    ensures forall j :: 0 <= j < |r| ==> r[j] == |s.entries| - 1 - j
  {
    seq(|s.entries|, j requires 0 <= j < |s.entries| => |s.entries| - 1 - j)
  }

  /** A set of tasks only runs every task once, in order, and ends done; a
      second `process` is then refused. */
  lemma {:induction false} TasksOnlyRunThrough(s: TaskSet, io: IO, call: (nat, IO) -> IO)
    requires !Done(s) && AllTasks(s.entries, 0, |s.entries|)
    ensures var r := Process(s, io, call);
            && r == Success((Output(Chain(s.entries, 0, |s.entries|, io, call)), s.(pos := |s.entries|)))
            && Process(r.value.1, io, call) == Failure(SetDone)
  {
    WalkOverTasks(s.entries, 0, io, call);
  }

  lemma {:induction false} WalkOverTasks(entries: seq<Entry>, i: nat, io: IO, call: (nat, IO) -> IO)
    requires i < |entries| && AllTasks(entries, i, |entries|)
    ensures Walk(entries, i, io, call) == (Output(Chain(entries, i, |entries|, io, call)), |entries|)
    decreases |entries| - i
  {
    if i + 1 < |entries| {
      WalkOverTasks(entries, i + 1, call(entries[i].id, io), call);
    }
  }

  /** An exclusive gate leaves the cursor on the last entry, so the set is
      not done and may be processed again. */
  lemma XorGateLeavesSetOpen(s: TaskSet, io: IO, call: (nat, IO) -> IO)
    requires Process(s, io, call).Success? && Process(s, io, call).value.0.XorAt?
    ensures !Done(Process(s, io, call).value.1)
    ensures Process(Process(s, io, call).value.1, io, call).Success?
  {
  }

  /** An inclusive gate keeps the cursor on itself, so `resume` carries on
      with the entry after it. */
  lemma OrGateThenResume(s: TaskSet, io: IO, io2: IO, call: (nat, IO) -> IO)
    requires Process(s, io, call).Success? && Process(s, io, call).value.0.OrAt?
    ensures var s1 := Process(s, io, call).value.1;
            var g := Process(s, io, call).value.0.gate;
            && s1.pos == g
            && Resume(s1, io2, call).Success?
            && (g + 1 < |s.entries| ==> Resume(s1, io2, call).value == (Walk(s.entries, g + 1, io2, call).0, s1.(pos := Walk(s.entries, g + 1, io2, call).1)))
  {
  }
}

=== FILE: nested_collection.dfy ===
/** The IO values the flow kernel passes around, and the result collection
    it keeps between frames: a string-keyed table whose dotted keys address
    nested buckets (`"Source.Branch"` is the entry `Branch` inside the bucket
    `Source`). Paths are given already split at the dots. */
module NestedCollection {
  import opened Wrappers

  datatype Value = Null | Data(d: nat) | Bucket(items: map<string, Value>)

  /** The bucket under `k`, or an empty one when `k` is missing or not a bucket. */
  function Inner(m: map<string, Value>, k: string): map<string, Value> {
    if k in m && m[k].Bucket? then m[k].items else map[]
  }

  /** `add(value, "a.b.c")`: store `v` at the path, creating buckets on the way. */
  function Put(m: map<string, Value>, path: seq<string>, v: Value): (r: map<string, Value>)
    requires |path| > 0
    ensures r.Keys == m.Keys + {path[0]}
    ensures forall k :: k in m && k != path[0] ==> r[k] == m[k]
    decreases |path|
  {
    if |path| == 1 then m[path[0] := v]
    else m[path[0] := Bucket(Put(Inner(m, path[0]), path[1..], v))]
  }

  /** The value stored at a path, if any. */
  function Get(m: map<string, Value>, path: seq<string>): Option<Value>
    requires |path| > 0
    decreases |path|
  {
    if path[0] !in m then None
    else if |path| == 1 then Some(m[path[0]])
    else if m[path[0]].Bucket? then Get(m[path[0]].items, path[1..])
    else None
  }

  /** `getAsCollection(key)`: what is stored under a top-level key; a missing
      key reads as null. */
  function Read(m: map<string, Value>, key: string): Value {
    if key in m then m[key] else Null
  }

  /** `delete(key)` */
  function Delete(m: map<string, Value>, key: string): (r: map<string, Value>)
    ensures key !in r
    ensures forall k :: k != key ==> (k in r <==> k in m)
    ensures forall k :: k in r ==> r[k] == m[k]
  {
    m - {key}
  }

  /** What was put at a path is read back from it. */
  lemma {:induction false} GetPut(m: map<string, Value>, path: seq<string>, v: Value)
    requires |path| > 0
    ensures Get(Put(m, path, v), path) == Some(v)
    decreases |path|
  {
    if |path| > 1 {
      GetPut(Inner(m, path[0]), path[1..], v);
    }
  }

  /** Putting at one path leaves every path that diverges from it unchanged. */
  lemma {:induction false} GetPutOther(m: map<string, Value>, path: seq<string>, v: Value, other: seq<string>, i: nat)
    requires |path| > 0 && i < |path| && i < |other|
    requires path[..i] == other[..i] && path[i] != other[i]
    requires Get(m, other).Some?
    ensures Get(Put(m, path, v), other) == Get(m, other)
    decreases i
  {
    if i > 0 {
      assert path[0] == other[0] by { assert path[..i][0] == other[..i][0]; }
      assert path[1..][..i - 1] == other[1..][..i - 1] by {
        assert path[1..][..i - 1] == path[..i][1..];
        assert other[1..][..i - 1] == other[..i][1..];
      }
      if |path| > 1 {
        GetPutOther(Inner(m, path[0]), path[1..], v, other[1..], i - 1);
      }
    }
  }

  /** A branch result deposited under "Source.Branch" is found in the bucket
      the source reads back under "Source". */
  lemma DepositThenRead(m: map<string, Value>, source: string, branch: string, v: Value)
    ensures Read(Put(m, [source, branch], v), source).Bucket?
    ensures branch in Read(Put(m, [source, branch], v), source).items
    ensures Read(Put(m, [source, branch], v), source).items[branch] == v
    ensures forall b :: b in Inner(m, source) && b != branch ==> Read(Put(m, [source, branch], v), source).items[b] == Inner(m, source)[b]
  {
    assert [source, branch][1..] == [branch];
  }
}

=== FILE: observer_kernel.dfy ===
/** The observer kernel: subjects are routed by their class to a registered
    observer class, observed at once or deferred to the end of the process or
    of the flow. A subject class with no registration is ignored. Its
    `handleDeferFromFlow` and `handleDeferFromProcess` are the queue flushes
    `DeferQueues.FlushFlow` and `DeferQueues.FlushProcess`. */
module ObserverKernel {
  import opened DeferQueues

  /** `observe`: `classOf` is the subject's class. */
  function Observe<E(==,!new)>(k: Deferrals<E>, classOf: E -> string, subject: E): (r: (Deferrals<E>, seq<Call<E>>))
    requires Valid(k)
    ensures Valid(r.0) && r.0.registry == k.registry
    ensures classOf(subject) !in k.registry ==> r == (k, [])
    ensures classOf(subject) in k.registry ==>
              var route := k.registry[classOf(subject)];
              && (route.timing == Realtime <==> r.1 != [])
              && (route.timing == Realtime ==> r == (k, [Call(route.handler, subject)]))
              && (route.timing == DeferFromFlow ==> r.0.process == k.process && Pending(r.0.flow, route.handler) == Pending(k.flow, route.handler) + [subject])
              && (route.timing == DeferFromProcess ==> r.0.flow == k.flow && Pending(r.0.process, route.handler) == Pending(k.process, route.handler) + [subject])
  {
    var cls := classOf(subject);
    if cls !in k.registry then (k, [])
    else Dispatch(k, k.registry[cls], subject)
  }

  /** A subject observed later, once deferred to the end of the flow, is
      observed exactly when the flow ends: the call is in the flush and in no
      immediate result. */
  lemma {:induction false} DeferredObservedAtFlowEnd<E(!new)>(k: Deferrals<E>, classOf: E -> string, subject: E)
    requires Valid(k)
    requires classOf(subject) in k.registry && k.registry[classOf(subject)].timing == DeferFromFlow
    ensures var r := Observe(k, classOf, subject);
            && r.1 == []
            && Call(k.registry[classOf(subject)].handler, subject) in FlushFlow(r.0).1
  {
    var r := Observe(k, classOf, subject);
    var h := k.registry[classOf(subject)].handler;
    assert Pending(r.0.flow, h) == Pending(k.flow, h) + [subject];
    assert subject in Pending(r.0.flow, h);
  }
}

=== FILE: offload.dfy ===
/** The parent side of the offload protocol: it spawns one child per
    requested process name, writes each child its setup line, and reads the
    child's output line by line until it sees the terminator line. */
module Offload {
  import opened Wrappers
  import opened OffloadWorker
  import PhpArray
  import Reactor

  /** The handles of one spawned child. */
  datatype Child = Child(proc: int, stdin: int, stdout: int, stderr: int)

  /** The spawn table: one child per requested name, keyed by the name, in
      request order. `open(k)` is the child spawned for the k-th name; a name
      requested twice keeps its last child. */
  function SpawnFrom(names: seq<string>, k: nat, t: PhpArray.Arr<string, Child>, open: nat -> Child): (t': PhpArray.Arr<string, Child>)
    requires PhpArray.Valid(t) && k <= |names|
    ensures PhpArray.Valid(t')
    ensures forall n :: n in t'.vals <==> n in t.vals || n in names[k..]
    ensures forall j :: k <= j < |names| && names[j] !in names[j + 1..] ==> names[j] in t'.vals && t'.vals[names[j]] == open(j)
    ensures forall n :: n in t.vals && n !in names[k..] ==> t'.vals[n] == t.vals[n]
    decreases |names| - k
  {
    if k == |names| then t
    else
      var t1 := PhpArray.Set(t, names[k], open(k));
      var t' := SpawnFrom(names, k + 1, t1, open);
      SpawnStep(names, k, t, t1, t', open);
      t'
  }

  /** One spawn, then the rest: what the rest keeps and adds, the whole keeps and adds. */
  lemma SpawnStep(names: seq<string>, k: nat, t: PhpArray.Arr<string, Child>, t1: PhpArray.Arr<string, Child>,
                  t2: PhpArray.Arr<string, Child>, open: nat -> Child)
    requires k < |names| && t1.vals == t.vals[names[k] := open(k)]
    requires forall n :: n in t2.vals <==> n in t1.vals || n in names[k + 1..]
    requires forall j :: k + 1 <= j < |names| && names[j] !in names[j + 1..] ==> names[j] in t2.vals && t2.vals[names[j]] == open(j)
    requires forall n :: n in t1.vals && n !in names[k + 1..] ==> t2.vals[n] == t1.vals[n]
    ensures forall n :: n in t2.vals <==> n in t.vals || n in names[k..]
    ensures forall j :: k <= j < |names| && names[j] !in names[j + 1..] ==> names[j] in t2.vals && t2.vals[names[j]] == open(j)
    ensures forall n :: n in t.vals && n !in names[k..] ==> t2.vals[n] == t.vals[n]
  {
    SpawnStepKeys(names, k, t, t1, t2, open);
    SpawnStepOpened(names, k, t, t1, t2, open);
    SpawnStepKept(names, k, t, t1, t2, open);
  }

  lemma SpawnStepOpened(names: seq<string>, k: nat, t: PhpArray.Arr<string, Child>, t1: PhpArray.Arr<string, Child>,
                        t2: PhpArray.Arr<string, Child>, open: nat -> Child)
    requires k < |names| && t1.vals == t.vals[names[k] := open(k)]
    requires forall n :: n in t2.vals <==> n in t1.vals || n in names[k + 1..]
    requires forall j :: k + 1 <= j < |names| && names[j] !in names[j + 1..] ==> names[j] in t2.vals && t2.vals[names[j]] == open(j)
    requires forall n :: n in t1.vals && n !in names[k + 1..] ==> t2.vals[n] == t1.vals[n]
    ensures forall j :: k <= j < |names| && names[j] !in names[j + 1..] ==> names[j] in t2.vals && t2.vals[names[j]] == open(j)
  {
    if names[k] !in names[k + 1..] {
      assert names[k] in t2.vals && t2.vals[names[k]] == open(k);
    }
  }

  lemma SpawnStepKeys(names: seq<string>, k: nat, t: PhpArray.Arr<string, Child>, t1: PhpArray.Arr<string, Child>,
                      t2: PhpArray.Arr<string, Child>, open: nat -> Child)
    requires k < |names| && t1.vals == t.vals[names[k] := open(k)]
    requires forall n :: n in t2.vals <==> n in t1.vals || n in names[k + 1..]
    ensures forall n :: n in t2.vals <==> n in t.vals || n in names[k..]
  {
    assert names[k..] == [names[k]] + names[k + 1..];
  }

  lemma SpawnStepKept(names: seq<string>, k: nat, t: PhpArray.Arr<string, Child>, t1: PhpArray.Arr<string, Child>,
                      t2: PhpArray.Arr<string, Child>, open: nat -> Child)
    requires k < |names| && t1.vals == t.vals[names[k] := open(k)]
    requires forall n :: n in t2.vals <==> n in t1.vals || n in names[k + 1..]
    requires forall n :: n in t1.vals && n !in names[k + 1..] ==> t2.vals[n] == t1.vals[n]
    ensures forall n :: n in t.vals && n !in names[k..] ==> t2.vals[n] == t.vals[n]
  {
    assert names[k..] == [names[k]] + names[k + 1..];
  }

  function Spawn(names: seq<string>, open: nat -> Child): (t: PhpArray.Arr<string, Child>)
    ensures PhpArray.Valid(t)
    ensures forall n :: n in t.vals <==> n in names
    ensures forall j :: 0 <= j < |names| && names[j] !in names[j + 1..] ==> t.vals[names[j]] == open(j)
  {
    assert names[0..] == names;
    SpawnFrom(names, 0, PhpArray.Empty(), open)
  }

  /** A name requested twice loses its first child from the table, so that
      child is never exchanged with nor shut down. */
  lemma DuplicateNameOrphansChild(name: string, open: nat -> Child)
    requires open(0) != open(1)
    ensures Spawn([name, name], open).vals[name] == open(1)
    ensures forall n :: n in Spawn([name, name], open).vals ==> Spawn([name, name], open).vals[n] != open(0)
  {
    assert [name, name][2..] == [];
  }

  /** The reactor callbacks of the exchange. */
  datatype Callback = SendSetup(name: string) | ReadResult(name: string) | Watchdog(name: string)

  const TicksPerSecond: nat := 1000

  /** The table's entries in key order. */
  function Entries(t: PhpArray.Arr<string, Child>): (es: seq<(string, Child)>)
    requires PhpArray.Valid(t)
    ensures |es| == |t.keys|
    ensures forall e :: e in es <==> e.0 in t.vals && e.1 == t.vals[e.0]
  {
    var es := seq(|t.keys|, i requires 0 <= i < |t.keys| => (t.keys[i], t.vals[t.keys[i]]));
    assert forall e: (string, Child) :: e.0 in t.vals && e.1 == t.vals[e.0] ==> e in es by {
      forall e: (string, Child) | e.0 in t.vals && e.1 == t.vals[e.0] ensures e in es {
        assert e.0 in t.keys;
        var j :| 0 <= j < |t.keys| && t.keys[j] == e.0;
        assert es[j] == e;
      }
    }
    es
  }

  /** The pipes `pick` chooses from each entry. */
  function Pipes(es: seq<(string, Child)>, pick: Child -> int): set<int>
    decreases |es|
  {
    if |es| == 0 then {} else {pick(es[0].1)} + Pipes(es[1..], pick)
  }

  lemma {:induction false} PipesMembers(es: seq<(string, Child)>, pick: Child -> int, s: int)
    ensures s in Pipes(es, pick) <==> exists e :: e in es && pick(e.1) == s
    decreases |es|
  {
    if |es| > 0 {
      PipesMembers(es[1..], pick, s);
      assert es == [es[0]] + es[1..];
      if s in Pipes(es[1..], pick) {
        var e :| e in es[1..] && pick(e.1) == s;
        assert e in es;
      }
      if exists e :: e in es && pick(e.1) == s {
        var e :| e in es && pick(e.1) == s;
        assert e == es[0] || e in es[1..];
      }
    }
  }

  /** Register the exchange for the given children in order: a write handler
      on stdin, a read handler on stdout, and, when a script time limit is
      set, a one-shot watchdog one tick before it. */
  function RegisterAll(es: seq<(string, Child)>, r: Reactor.Reactor<Callback>, maxExecution: nat, now: nat): (r': Reactor.Reactor<Callback>)
    requires Reactor.Valid(r)
    ensures Reactor.Valid(r')
    ensures r'.io.writers.vals.Keys == r.io.writers.vals.Keys + Pipes(es, StdinOf)
    ensures r'.io.readers.vals.Keys == r.io.readers.vals.Keys + Pipes(es, StdoutOf)
    ensures |r'.timers| == |r.timers| + (if maxExecution > 0 then |es| else 0)
    ensures r'.timers[..|r.timers|] == r.timers
    decreases |es|
  {
    if |es| == 0 then r
    else
      var r1 := RegisterOne(r, es[0].0, es[0].1, maxExecution, now);
      var r' := RegisterAll(es[1..], r1, maxExecution, now);
      UnionStep(r.io.writers.vals.Keys, es[0].1.stdin, Pipes(es[1..], StdinOf));
      UnionStep(r.io.readers.vals.Keys, es[0].1.stdout, Pipes(es[1..], StdoutOf));
      PrefixStep(r.timers, r1.timers, r'.timers);
      r'
  }

  lemma UnionStep(a: set<int>, x: int, rest: set<int>)
    ensures a + {x} + rest == a + ({x} + rest)
  {
  }

  lemma PrefixStep<T>(a: seq<T>, b: seq<T>, c: seq<T>)
    requires |a| <= |b| <= |c| && b[..|a|] == a && c[..|b|] == b
    ensures c[..|a|] == a
  {
    assert c[..|a|] == c[..|b|][..|a|];
  }

  function StdinOf(c: Child): int { c.stdin }
  function StdoutOf(c: Child): int { c.stdout }

  lemma EntryPipe(t: PhpArray.Arr<string, Child>, es: seq<(string, Child)>, pick: Child -> int, s: int)
    requires PhpArray.Valid(t) && es == Entries(t)
    ensures (exists e :: e in es && pick(e.1) == s) <==> exists n :: n in t.vals && pick(t.vals[n]) == s
  {
    if exists n :: n in t.vals && pick(t.vals[n]) == s {
      var n :| n in t.vals && pick(t.vals[n]) == s;
      assert (n, t.vals[n]) in es;
    }
  }

  /** The registration of one child. */
  function RegisterOne(r: Reactor.Reactor<Callback>, n: string, c: Child, maxExecution: nat, now: nat): (r': Reactor.Reactor<Callback>)
    requires Reactor.Valid(r)
    ensures Reactor.Valid(r')
    ensures r'.io.writers.vals.Keys == r.io.writers.vals.Keys + {c.stdin}
    ensures r'.io.readers.vals.Keys == r.io.readers.vals.Keys + {c.stdout}
    ensures r'.timers == r.timers + (if maxExecution > 0 then [Reactor.Armed(Reactor.Timer(now + maxExecution * TicksPerSecond - 1, Watchdog(n), false, maxExecution * TicksPerSecond - 1))] else [])
  {
    var r1 := Reactor.OnWritable(r, c.stdin, SendSetup(n));
    var r2 := Reactor.OnReadable(r1, c.stdout, ReadResult(n));
    var r3 := if maxExecution > 0 then Reactor.AddTimer(r2, now, maxExecution * TicksPerSecond - 1, Watchdog(n), false) else r2;
    assert r2.timers + [] == r2.timers;
    r3
  }

  /** The exchange registration: only stdin (for writing) and stdout (for
      reading) of each child, plus one watchdog per child under a time limit. */
  function Exchange(t: PhpArray.Arr<string, Child>, maxExecution: nat, now: nat): (r: Reactor.Reactor<Callback>)
    requires PhpArray.Valid(t)
    ensures Reactor.Valid(r)
    ensures forall s :: s in r.io.writers.vals <==> exists n :: n in t.vals && t.vals[n].stdin == s
    ensures forall s :: s in r.io.readers.vals <==> exists n :: n in t.vals && t.vals[n].stdout == s
    ensures |r.timers| == (if maxExecution > 0 then |t.keys| else 0)
  {
    var es := Entries(t);
    var r := RegisterAll(es, Reactor.New(), maxExecution, now);
    forall s ensures s in r.io.writers.vals <==> exists n :: n in t.vals && t.vals[n].stdin == s {
      PipesMembers(es, StdinOf, s);
      EntryPipe(t, es, StdinOf, s);
    }
    forall s ensures s in r.io.readers.vals <==> exists n :: n in t.vals && t.vals[n].stdout == s {
      PipesMembers(es, StdoutOf, s);
      EntryPipe(t, es, StdoutOf, s);
    }
    r
  }

  /** No child's stderr is ever registered, unless it shares a handle number
      with some child's stdin or stdout. */
  lemma StderrNeverRead(t: PhpArray.Arr<string, Child>, maxExecution: nat, now: nat, n: string)
    requires PhpArray.Valid(t) && n in t.vals
    requires forall m :: m in t.vals ==> t.vals[m].stdin != t.vals[n].stderr && t.vals[m].stdout != t.vals[n].stderr
    ensures t.vals[n].stderr !in Exchange(t, maxExecution, now).io.readers.vals
    ensures t.vals[n].stderr !in Exchange(t, maxExecution, now).io.writers.vals
  {
  }

  function PipeFailed(name: string): Exception {
    RuntimeException("Could not pipe process setup to child process " + name)
  }

  /** What a stdin handler call leaves: the bytes that reached the child, the
      bytes still to send, and the reactor operations it performed. */
  datatype Sent = Sent(sent: string, pending: string, actions: seq<Reactor.Action>)

  function Min(a: nat, b: nat): nat {
    if a <= b then a else b
  }

  /** The stdin handler as written: write the setup line, where `written` is
      the byte count the write reports (0 for a failed write), and deregister
      stdin whatever the count; bytes the write did not take are dropped. */
  function OnStdinAsWritten(c: Child, name: string, terminator: string, payload: Bits, written: nat): (r: Result<Sent>)
    ensures r.Failure? <==> written == 0
    ensures r.Failure? ==> r.error == PipeFailed(name)
    ensures r.Success? ==> r.value.actions == [Reactor.Remove(c.stdin)] && r.value.pending == ""
    ensures r.Success? ==> r.value.sent <= Message(name, terminator, payload)
    ensures r.Success? && written >= |Message(name, terminator, payload)| ==> r.value.sent == Message(name, terminator, payload)
  {
    var m := Message(name, terminator, payload);
    if written == 0 then Failure(PipeFailed(name))
    else Success(Sent(m[..Min(written, |m|)], "", [Reactor.Remove(c.stdin)]))
  }

  /** A short write passes as success: the child is left with a line that has
      no end of line, so its read never completes. */
  lemma ShortWriteLosesLine(c: Child, name: string, terminator: string, payload: Bits, written: nat)
    requires '\n' !in name && '\n' !in terminator
    requires 0 < written < |Message(name, terminator, payload)|
    ensures OnStdinAsWritten(c, name, terminator, payload, written).Success?
    ensures var s := OnStdinAsWritten(c, name, terminator, payload, written).value;
            && s.actions == [Reactor.Remove(c.stdin)]
            && '\n' !in s.sent
  {
    var m := Message(name, terminator, payload);
    var enc := Encode(payload);
    var s := m[..written];
    forall i | 0 <= i < |s| ensures s[i] != '\n' {
      assert s[i] == m[i];
      if i < |name| { assert m[i] == name[i]; }
      else if i == |name| {}
      else if i < |name| + 1 + |terminator| { assert m[i] == terminator[i - |name| - 1]; }
      else if i == |name| + 1 + |terminator| {}
      else { assert m[i] == enc[i - |name| - 2 - |terminator|]; assert IsCodeChar(enc[i - |name| - 2 - |terminator|]); }
    }
  }

  /** The stdin handler as evidently intended: keep what the write did not
      take and deregister stdin only once the whole line is out. */
  function OnStdin(c: Child, name: string, pending: string, written: nat): (r: Result<Sent>)
    ensures r.Failure? <==> written == 0
    ensures r.Failure? ==> r.error == PipeFailed(name)
    ensures r.Success? ==> r.value.sent + r.value.pending == pending
    ensures r.Success? ==> (r.value.actions == [Reactor.Remove(c.stdin)] <==> r.value.pending == "")
    ensures r.Success? ==> (r.value.actions == [] <==> r.value.pending != "")
  {
    if written == 0 then Failure(PipeFailed(name))
    else
      var k := Min(written, |pending|);
      var rest := pending[k..];
      assert pending[..k] + rest == pending;
      Success(Sent(pending[..k], rest, if rest == "" then [Reactor.Remove(c.stdin)] else []))
  }

  /** Successive stdin handler calls with the byte counts `writes`, starting
      from `pending`; what reached the child in total and what is left. */
  function Deliver(c: Child, name: string, pending: string, writes: seq<nat>): Result<(string, string)>
    decreases |writes|
  {
    if |writes| == 0 || pending == "" then Success(("", pending))
    else
      var s :- OnStdin(c, name, pending, writes[0]);
      var rest :- Deliver(c, name, s.pending, writes[1..]);
      Success((s.sent + rest.0, rest.1))
  }

  /** With the intended handler, the child receives exactly the setup line
      once enough bytes were written, and never anything but a prefix of it. */
  lemma {:induction false} DeliverSendsPrefix(c: Child, name: string, pending: string, writes: seq<nat>)
    requires forall i :: 0 <= i < |writes| ==> writes[i] > 0
    ensures Deliver(c, name, pending, writes).Success?
    ensures var d := Deliver(c, name, pending, writes).value; d.0 + d.1 == pending
    decreases |writes|
  {
    if |writes| > 0 && pending != "" {
      var s := OnStdin(c, name, pending, writes[0]).value;
      DeliverSendsPrefix(c, name, s.pending, writes[1..]);
      var rest := Deliver(c, name, s.pending, writes[1..]).value;
      assert s.sent + rest.0 + rest.1 == s.sent + (rest.0 + rest.1);
    }
  }

  lemma {:induction false} DeliverCompletes(c: Child, name: string, pending: string, writes: seq<nat>)
    requires forall i :: 0 <= i < |writes| ==> writes[i] > 0
    requires |writes| >= |pending|
    ensures Deliver(c, name, pending, writes) == Success((pending, ""))
    decreases |writes|
  {
    DeliverSendsPrefix(c, name, pending, writes);
    if |writes| > 0 && pending != "" {
      var s := OnStdin(c, name, pending, writes[0]).value;
      DeliverCompletes(c, name, s.pending, writes[1..]);
    }
  }

  /** The stdout handler: the terminator line deregisters stdout and stores
      nothing; any other line is decoded and stored under the process name,
      replacing an earlier result; a failed read (`None`) does nothing. */
  function OnStdout(c: Child, name: string, terminator: string, line: Option<string>, results: PhpArray.Arr<string, Bits>): (r: (PhpArray.Arr<string, Bits>, seq<Reactor.Action>))
    requires PhpArray.Valid(results)
    ensures PhpArray.Valid(r.0)
    ensures line == Some(terminator + Eol) ==> r == (results, [Reactor.Remove(c.stdout)])
    ensures line.Some? && line != Some(terminator + Eol) ==>
              r.1 == [] && r.0.vals == results.vals[name := Decode(line.value)]
    ensures line.None? ==> r == (results, [])
  {
    match line
    case None => (results, [])
    case Some(l) =>
      if l == terminator + Eol then (results, [Reactor.Remove(c.stdout)])
      else (PhpArray.Set(results, name, Decode(l)), [])
  }

  /** Feeding the stdout handler a sequence of lines. */
  function ReadAll(c: Child, name: string, terminator: string, lines: seq<string>, results: PhpArray.Arr<string, Bits>): (r: (PhpArray.Arr<string, Bits>, seq<Reactor.Action>))
    requires PhpArray.Valid(results)
    ensures PhpArray.Valid(r.0)
    decreases |lines|
  {
    if |lines| == 0 then (results, [])
    else
      var first := OnStdout(c, name, terminator, Some(lines[0]), results);
      var rest := ReadAll(c, name, terminator, lines[1..], first.0);
      (rest.0, first.1 + rest.1)
  }

  /** A terminator with a character the encoding never writes cannot be
      mistaken for a result line. */
  predicate Distinguishable(terminator: string) {
    exists i :: 0 <= i < |terminator| && !IsCodeChar(terminator[i])
  }

  lemma DefaultTerminatorDistinguishable(rand: nat -> nat)
    ensures Distinguishable(Terminator(None, rand))
    ensures '|' !in Terminator(None, rand) && '\n' !in Terminator(None, rand)
  {
    var t := Terminator(None, rand);
    assert t[0] == '-';
    DefaultTerminatorAlphabet(rand);
    assert forall i :: 0 <= i < |t| ==> IsTerminatorChar(t[i]);
  }

  /** The whole exchange with one child: the parent's setup line is parsed by
      the worker, which runs the named process on the payload. When the
      process returns, reading the worker's output stores exactly that
      result under the name and deregisters stdout; when it throws, the
      worker fails and writes no line, so no terminator line ever comes. */
  lemma ExchangeRoundTrip(name: string, terminator: string, payload: Bits, run: (string, Bits) -> Result<Bits>, c: Child, results: PhpArray.Arr<string, Bits>)
    requires Carriable(name, terminator) && Distinguishable(terminator)
    requires PhpArray.Valid(results)
    ensures var w := Worker(Message(name, terminator, payload), _ => true, run);
            && (w.Success? <==> run(name, payload).Success?)
            && (w.Failure? ==> w.error == run(name, payload).error)
            && (w.Success? ==>
                  && w.value.status == 0
                  && var back := ReadAll(c, name, terminator, Lines(w.value.stdout), results);
                  && back.0.vals == results.vals[name := run(name, payload).value]
                  && back.1 == [Reactor.Remove(c.stdout)])
  {
    ParseMessage(name, terminator, payload);
    DecodeEncode(payload, "");
    assert Encode(payload) + "" == Encode(payload);
    var req := ParseRequest(Message(name, terminator, payload));
    assert req.process.value == name && req.terminator.value == terminator;
    assert Decode(req.payload.value) == payload;
    assert Message(name, terminator, payload) != "";
    var w := Worker(Message(name, terminator, payload), _ => true, run);
    if run(name, payload).Success? {
      var out := run(name, payload).value;
      var result := Encode(out);
      assert w.value.stdout == result + Eol + terminator + Eol;
      WorkerLines(result, terminator);
      assert result + Eol != terminator + Eol by {
        var i :| 0 <= i < |terminator| && !IsCodeChar(terminator[i]);
        if |result| == |terminator| {
          assert (result + Eol)[i] == result[i];
          assert (terminator + Eol)[i] == terminator[i];
          assert IsCodeChar(result[i]);
        }
      }
      DecodeEncode(out, Eol);
      var first := OnStdout(c, name, terminator, Some(result + Eol), results);
      var lines := [result + Eol, terminator + Eol];
      assert lines[1..] == [terminator + Eol];
      assert lines[1..][1..] == [];
      var second := OnStdout(c, name, terminator, Some(terminator + Eol), first.0);
      assert second == (first.0, [Reactor.Remove(c.stdout)]);
      assert ReadAll(c, name, terminator, [], first.0) == (first.0, []);
      assert ReadAll(c, name, terminator, lines[1..], first.0) == (first.0, [Reactor.Remove(c.stdout)] + []);
      assert lines[0] == result + Eol && first.1 == [];
      var all := ReadAll(c, name, terminator, lines, results);
      assert all.0 == ReadAll(c, name, terminator, lines[1..], first.0).0;
      assert all.1 == first.1 + ReadAll(c, name, terminator, lines[1..], first.0).1;
      assert all.1 == [Reactor.Remove(c.stdout)];
    }
  }

  /** The watchdog: a child still running one tick before the time limit has
      its stdin and stdout deregistered. */
  function OnWatchdog(c: Child, running: bool): (acts: seq<Reactor.Action>)
    ensures running <==> acts != []
    ensures running ==> acts == [Reactor.Remove(c.stdin), Reactor.Remove(c.stdout)]
    ensures Reactor.StopRun !in acts
  {
    if running then [Reactor.Remove(c.stdin), Reactor.Remove(c.stdout)] else []
  }

  /** What the shutdown does to a process handle. */
  datatype ProcCall = Terminate(proc: int) | Close(proc: int)

  /** The final task: for each child in table order, terminate it if it is
      still running, then close it if it is (still) running; `running` and
      `runningAfter` are the status checks before each. */
  function ShutdownFrom(t: PhpArray.Arr<string, Child>, k: nat, running: int -> bool, runningAfter: int -> bool): (calls: seq<ProcCall>)
    requires PhpArray.Valid(t) && k <= |t.keys|
    ensures forall p :: Terminate(p) in calls <==> running(p) && exists j :: k <= j < |t.keys| && t.vals[t.keys[j]].proc == p
    ensures forall p :: Close(p) in calls <==> runningAfter(p) && exists j :: k <= j < |t.keys| && t.vals[t.keys[j]].proc == p
    decreases |t.keys| - k
  {
    if k == |t.keys| then []
    else
      var p := t.vals[t.keys[k]].proc;
      (if running(p) then [Terminate(p)] else []) + (if runningAfter(p) then [Close(p)] else []) + ShutdownFrom(t, k + 1, running, runningAfter)
  }

  function Shutdown(t: PhpArray.Arr<string, Child>, running: int -> bool, runningAfter: int -> bool): (calls: seq<ProcCall>)
    requires PhpArray.Valid(t)
    ensures forall p :: Terminate(p) in calls <==> running(p) && exists n :: n in t.vals && t.vals[n].proc == p
    ensures forall p :: Close(p) in calls <==> runningAfter(p) && exists n :: n in t.vals && t.vals[n].proc == p
  {
    assert forall n :: n in t.vals ==> exists j :: 0 <= j < |t.keys| && t.keys[j] == n by {
      forall n | n in t.vals ensures exists j :: 0 <= j < |t.keys| && t.keys[j] == n {
        assert n in t.keys;
      }
    }
    ShutdownFrom(t, 0, running, runningAfter)
  }

  const NoScriptDirectory := RuntimeException("Could not change ot OffloadedProcess.php script directory")
  const NoScript := RuntimeException("Could not find or read OffloadedProcess.php script")

  /** The first task: the worker script's directory must be enterable and the
      script readable; the input passes through unchanged. */
  function LocateScript<V>(io: V, chdirOk: bool, readable: bool): (r: Result<V>)
    ensures r.Success? <==> chdirOk && readable
    ensures !chdirOk ==> r == Failure(NoScriptDirectory)
    ensures chdirOk && !readable ==> r == Failure(NoScript)
    ensures r.Success? ==> r.value == io
  {
    if !chdirOk then Failure(NoScriptDirectory)
    else if !readable then Failure(NoScript)
    else Success(io)
  }
}

=== FILE: offload_worker.dfy ===
/** The worker side of the offload protocol, and the message it reads.

    The parent writes each child one setup line `name|terminator|payload`
    followed by an end of line. The worker reads that one line, runs the
    named process on the decoded payload, and answers with one payload line
    and one terminator line.

    A payload is the serialized form of an IO value, taken here as a bit
    string; its encoding writes one '0' or '1' per bit, so like the real
    encoding it never contains '|', '-' or white space, and decoding skips
    any other character the way the real decoder skips the end of line. */
module OffloadWorker {
  import opened Wrappers
  import RandomStrings

  type Bits = seq<bool>

  const Eol := "\n"

  predicate IsCodeChar(c: char) {
    c == '0' || c == '1'
  }

  function Encode(b: Bits): (s: string)
    ensures |s| == |b|
    ensures forall i :: 0 <= i < |s| ==> IsCodeChar(s[i])
  {
    if |b| == 0 then "" else [if b[0] then '1' else '0'] + Encode(b[1..])
  }

  /** Decoding reads the code characters and skips every other character. */
  function Decode(s: string): Bits {
    if |s| == 0 then []
    else if IsCodeChar(s[0]) then [s[0] == '1'] + Decode(s[1..])
    else Decode(s[1..])
  }

  /** Decoding an encoding, with any non-code tail such as the end of line,
      gives back the bits. */
  lemma {:induction false} DecodeEncode(b: Bits, tail: string)
    requires forall i :: 0 <= i < |tail| ==> !IsCodeChar(tail[i])
    ensures Decode(Encode(b) + tail) == b
    decreases |b|
  {
    if |b| == 0 {
      assert Encode(b) + tail == tail;
      SkipsNonCode(tail);
    } else {
      assert (Encode(b) + tail)[1..] == Encode(b[1..]) + tail;
      DecodeEncode(b[1..], tail);
    }
  }

  lemma {:induction false} SkipsNonCode(s: string)
    requires forall i :: 0 <= i < |s| ==> !IsCodeChar(s[i])
    ensures Decode(s) == []
    decreases |s|
  {
    if |s| > 0 {
      SkipsNonCode(s[1..]);
    }
  }

  // ---------------------------------------------------------------------
  // The terminator

  /** The content terminator: the supplied one verbatim, or '---', a shuffled
      alphanumeric string and '---'. */
  function Terminator(supplied: Option<string>, rand: nat -> nat): (t: string)
    ensures supplied.Some? ==> t == supplied.value
    ensures supplied.None? ==> |t| == 68 && t[..3] == "---" && t[65..] == "---"
  {
    match supplied
    case Some(s) => s
    case None =>
      var a := RandomStrings.GetAlphaNumeric(None, None, rand);
      Framed(a);
      "---" + a + "---"
  }

  lemma Framed(a: string)
    requires |a| == 62
    ensures var t := "---" + a + "---";
            |t| == 68 && t[..3] == "---" && t[65..] == "---" && t[3..65] == a
  {
  }

  predicate IsTerminatorChar(c: char) {
    RandomStrings.IsAlphanumeric(c) || c == '-'
  }

  /** The default terminator holds only alphanumerics and '-'. */
  lemma DefaultTerminatorAlphabet(rand: nat -> nat)
    ensures var t := Terminator(None, rand);
            forall i :: 0 <= i < |t| ==> IsTerminatorChar(t[i])
  {
    var a := RandomStrings.GetAlphaNumeric(None, None, rand);
    RandomStrings.BareAlphaNumeric(rand);
    assert Terminator(None, rand) == "---" + a + "---";
    FramedAlphabet(a);
  }

  lemma FramedAlphabet(a: string)
    requires |a| == 62 && forall i :: 0 <= i < |a| ==> RandomStrings.IsAlphanumeric(a[i])
    ensures var t := "---" + a + "---";
            forall i :: 0 <= i < |t| ==> IsTerminatorChar(t[i])
  {
    var t := "---" + a + "---";
    forall i | 0 <= i < |t| ensures IsTerminatorChar(t[i]) {
      if 3 <= i < 65 {
        assert t[i] == a[i - 3];
      }
    }
  }

  // ---------------------------------------------------------------------
  // Line handling shared by both sides

  /** What one `fgets` returns: up to and including the first end of line,
      or everything when there is none. */
  function FirstLine(s: string): (l: string)
    ensures |l| <= |s| && l == s[..|l|]
    ensures |s| > 0 ==> |l| > 0
    decreases |s|
  {
    if |s| == 0 then ""
    else if s[0] == '\n' then "\n"
    else [s[0]] + FirstLine(s[1..])
  }

  lemma {:induction false} FirstLineOf(l: string, more: string)
    requires '\n' !in l
    ensures FirstLine(l + Eol + more) == l + Eol
    decreases |l|
  {
    if |l| > 0 {
      assert (l + Eol + more)[1..] == l[1..] + Eol + more;
      FirstLineOf(l[1..], more);
    }
  }

  /** The successive `fgets` results over a whole output. */
  function Lines(s: string): (ls: seq<string>)
    decreases |s|
  {
    if |s| == 0 then [] else [FirstLine(s)] + Lines(s[|FirstLine(s)|..])
  }

  /** The characters `trim` removes by default. */
  predicate IsTrimmed(c: char) {
    c == ' ' || c == '\t' || c == '\n' || c == '\r' || c == '\0' || c as int == 0x0B
  }

  function TrimLeft(s: string): (r: string)
    ensures |r| == 0 || !IsTrimmed(r[0])
    decreases |s|
  {
    if |s| > 0 && IsTrimmed(s[0]) then TrimLeft(s[1..]) else s
  }

  function TrimRight(s: string): (r: string)
    ensures |r| == 0 || !IsTrimmed(r[|r| - 1])
    decreases |s|
  {
    if |s| > 0 && IsTrimmed(s[|s| - 1]) then TrimRight(s[..|s| - 1]) else s
  }

  function Trim(s: string): (r: string)
    ensures |r| == 0 || (!IsTrimmed(r[0]) && !IsTrimmed(r[|r| - 1]))
  {
    var l := TrimLeft(s);
    var r := TrimRight(l);
    TrimRightKeepsFront(l);
    r
  }

  lemma {:induction false} TrimRightKeepsFront(s: string)
    requires |s| == 0 || !IsTrimmed(s[0])
    ensures var r := TrimRight(s); |r| == 0 || r[0] == s[0]
    decreases |s|
  {
    if |s| > 0 && IsTrimmed(s[|s| - 1]) {
      TrimRightKeepsFront(s[..|s| - 1]);
    }
  }

  /** A line whose ends are not white space loses only its end of line. */
  lemma TrimLine(l: string)
    requires |l| > 0 && !IsTrimmed(l[0]) && !IsTrimmed(l[|l| - 1])
    ensures Trim(l + Eol) == l
  {
    assert TrimLeft(l + Eol) == l + Eol;
    assert (l + Eol)[..|l + Eol| - 1] == l;
    assert TrimRight(l + Eol) == TrimRight(l);
    assert TrimRight(l) == l;
  }

  /** `explode('|', s)`. */
  function Explode(s: string): (parts: seq<string>)
    ensures |parts| >= 1
    ensures forall i :: 0 <= i < |parts| ==> '|' !in parts[i]
    decreases |s|
  {
    if |s| == 0 then [""]
    else
      var rest := Explode(s[1..]);
      if s[0] == '|' then [""] + rest
      else [[s[0]] + rest[0]] + rest[1..]
  }

  /** `implode('|', parts)`. */
  function Implode(parts: seq<string>): string
    requires |parts| >= 1
    decreases |parts|
  {
    if |parts| == 1 then parts[0] else parts[0] + "|" + Implode(parts[1..])
  }

  /** Exploding loses nothing: imploding the parts gives the string back. */
  lemma {:induction false} ImplodeExplode(s: string)
    ensures Implode(Explode(s)) == s
    decreases |s|
  {
    if |s| > 0 {
      var rest := Explode(s[1..]);
      ImplodeExplode(s[1..]);
      if s[0] == '|' {
        assert Explode(s) == [""] + rest;
        assert ([""] + rest)[1..] == rest;
      } else {
        var parts := [[s[0]] + rest[0]] + rest[1..];
        assert Explode(s) == parts;
        if |rest| == 1 {
          assert s == [s[0]] + s[1..];
        } else {
          assert parts[1..] == rest[1..];
          assert Implode(rest) == rest[0] + "|" + Implode(rest[1..]);
          assert s == [s[0]] + s[1..];
        }
      }
    }
  }

  /** Exploding a field without '|' followed by '|' splits off that field. */
  lemma {:induction false} ExplodeField(a: string, rest: string)
    requires '|' !in a
    ensures Explode(a + "|" + rest) == [a] + Explode(rest)
    decreases |a|
  {
    if |a| > 0 {
      assert (a + "|" + rest)[1..] == a[1..] + "|" + rest;
      ExplodeField(a[1..], rest);
      assert [a[0]] + a[1..] == a;
    } else {
      assert a + "|" + rest == "|" + rest;
      assert ("|" + rest)[1..] == rest;
    }
  }

  lemma {:induction false} ExplodeWhole(a: string)
    requires '|' !in a
    ensures Explode(a) == [a]
    decreases |a|
  {
    if |a| > 0 {
      ExplodeWhole(a[1..]);
      assert [a[0]] + a[1..] == a;
    }
  }

  // ---------------------------------------------------------------------
  // The setup line

  /** The setup line the parent writes to a child. */
  function Message(name: string, terminator: string, payload: Bits): string {
    name + "|" + terminator + "|" + Encode(payload) + Eol
  }

  /** What the worker takes from its input: the fields of the first line,
      trimmed and split at '|'; a missing field is null. */
  datatype Request = Request(process: Option<string>, terminator: Option<string>, payload: Option<string>)

  function Field(parts: seq<string>, i: nat): Option<string> {
    if i < |parts| then Some(parts[i]) else None
  }

  function ParseRequest(stdin: string): (req: Request)
    ensures req.process.Some?
    ensures req.payload.Some? ==> req.terminator.Some?
  {
    var parts := Explode(Trim(FirstLine(stdin)));
    Request(Field(parts, 0), Field(parts, 1), Field(parts, 2))
  }

  /** A name and a terminator the line format can carry: neither holds '|'
      or an end of line, and the name does not start with white space. */
  predicate Carriable(name: string, terminator: string) {
    && '|' !in name && '|' !in terminator
    && '\n' !in name && '\n' !in terminator
    && (|name| == 0 || !IsTrimmed(name[0]))
  }

  /** The encoding holds no '|', no end of line, and does not end in white
      space. */
  lemma EncodingIsPlain(b: Bits)
    ensures '|' !in Encode(b) && '\n' !in Encode(b)
    ensures |Encode(b)| > 0 ==> !IsTrimmed(Encode(b)[|Encode(b)| - 1])
  {
    var e := Encode(b);
    forall i | 0 <= i < |e| ensures e[i] != '|' && e[i] != '\n' { assert IsCodeChar(e[i]); }
    if |e| > 0 { assert IsCodeChar(e[|e| - 1]); }
  }

  /** A character other than '|' occurs in three fields joined by '|' only
      when it occurs in one of them. */
  lemma JoinedAvoids(a: string, b: string, c: string, ch: char)
    requires ch != '|' && ch !in a && ch !in b && ch !in c
    ensures ch !in a + "|" + b + "|" + c
  {
    var l := a + "|" + b + "|" + c;
    forall i | 0 <= i < |l| ensures l[i] != ch {
      if i < |a| { assert l[i] == a[i]; }
      else if i == |a| {}
      else if i < |a| + 1 + |b| { assert l[i] == b[i - |a| - 1]; }
      else if i == |a| + 1 + |b| {}
      else { assert l[i] == c[i - |a| - 2 - |b|]; }
    }
  }

  /** Exploding three '|'-free fields joined by '|' gives the three fields. */
  lemma ExplodeThree(a: string, b: string, c: string)
    requires '|' !in a && '|' !in b && '|' !in c
    ensures Explode(a + "|" + b + "|" + c) == [a, b, c]
  {
    ExplodeTwo(a, b, c);
    ExplodeWhole(c);
  }

  /** The parse of one complete line with non-blank ends: its '|'-fields. */
  lemma ParseLine(l: string)
    requires '\n' !in l && |l| > 0 && !IsTrimmed(l[0]) && !IsTrimmed(l[|l| - 1])
    ensures var parts := Explode(l);
            ParseRequest(l + Eol) == Request(Field(parts, 0), Field(parts, 1), Field(parts, 2))
  {
    assert l + Eol == l + Eol + "";
    FirstLineOf(l, "");
    TrimLine(l);
  }

  /** The worker's parse inverts the parent's setup line. */
  lemma ParseMessage(name: string, terminator: string, payload: Bits)
    requires Carriable(name, terminator)
    ensures ParseRequest(Message(name, terminator, payload)) == Request(Some(name), Some(terminator), Some(Encode(payload)))
  {
    var enc := Encode(payload);
    var l := name + "|" + terminator + "|" + enc;
    EncodingIsPlain(payload);
    assert '\n' !in l;
    assert Message(name, terminator, payload) == l + Eol;
    assert !IsTrimmed(l[0]) by {
      assert l[0] == (if |name| == 0 then '|' else name[0]);
    }
    assert !IsTrimmed(l[|l| - 1]) by {
      assert l[|l| - 1] == (if |enc| == 0 then '|' else enc[|enc| - 1]);
    }
    ParseLine(l);
    ExplodeThree(name, terminator, enc);
  }

  /** A name with '|' in it is cut at the first '|': the rest of the name
      becomes the terminator, the terminator becomes the payload, and the
      payload is lost. */
  lemma NameWithBarIsCut(a: string, b: string, t: string, payload: Bits)
    requires Carriable(a, t) && Carriable(b, t)
    ensures ParseRequest(Message(a + "|" + b, t, payload)) == Request(Some(a), Some(b), Some(t))
  {
    var enc := Encode(payload);
    EncodingIsPlain(payload);
    var rest := t + "|" + enc;
    var l := a + "|" + b + "|" + rest;
    assert Message(a + "|" + b, t, payload) == l + Eol;
    assert '\n' !in l;
    assert !IsTrimmed(l[0]) by {
      assert l[0] == (if |a| == 0 then '|' else a[0]);
    }
    assert !IsTrimmed(l[|l| - 1]) by {
      assert l[|l| - 1] == rest[|rest| - 1];
      assert rest[|rest| - 1] == (if |enc| == 0 then '|' else enc[|enc| - 1]);
    }
    ParseLine(l);
    ExplodeTwo(a, b, rest);
    ExplodeField(t, enc);
    var parts := [a, b] + ([t] + Explode(enc));
    assert parts[0] == a && parts[1] == b && parts[2] == t;
  }

  lemma ExplodeTwo(a: string, b: string, rest: string)
    requires '|' !in a && '|' !in b
    ensures Explode(a + "|" + b + "|" + rest) == [a, b] + Explode(rest)
  {
    var tail := b + "|" + rest;
    ExplodeField(b, rest);
    ExplodeField(a, tail);
    assert a + "|" + b + "|" + rest == a + "|" + tail;
    assert [a] + ([b] + Explode(rest)) == [a, b] + Explode(rest);
  }

  // ---------------------------------------------------------------------
  // The worker

  datatype WorkerExit = WorkerExit(stdout: string, status: int)

  const NoClassName := EngineError("Class name must be a valid object or a string")

  function ClassNotFound(name: string): Exception {
    EngineError("Class \"" + name + "\" not found")
  }

  /** `trim` given the `false` that `fgets` returns on an empty input. */
  const TrimOfFalse := TypeError("trim(): Argument #1 ($string) must be of type string, bool given")

  /** `base64_decode` given the null that `list` leaves for a missing field. */
  const DecodeOfNull := TypeError("base64_decode(): Argument #1 ($string) must be of type string, null given")

  /** The worker script: parse the first input line, instantiate the named
      process (`classExists`), run it on the decoded payload (`run`, which
      may throw), then write the encoded result line and the terminator line,
      and exit 0. The script declares strict types, so `trim` of a missing
      line and `base64_decode` of a missing payload field throw. A failure
      writes neither line. */
  function Worker(stdin: string, classExists: string -> bool, run: (string, Bits) -> Result<Bits>): (r: Result<WorkerExit>)
    ensures stdin == "" ==> r == Failure(TrimOfFalse)
    ensures var req := ParseRequest(stdin);
            stdin != "" && !classExists(req.process.value) ==> r == Failure(ClassNotFound(req.process.value))
    ensures var req := ParseRequest(stdin);
            stdin != "" && classExists(req.process.value) && req.payload.None? ==> r == Failure(DecodeOfNull)
    ensures var req := ParseRequest(stdin);
            r.Success? <==>
              && stdin != "" && classExists(req.process.value) && req.payload.Some?
              && run(req.process.value, Decode(req.payload.value)).Success?
    ensures var req := ParseRequest(stdin);
            stdin != "" && classExists(req.process.value) && req.payload.Some? && r.Failure? ==>
              r.error == run(req.process.value, Decode(req.payload.value)).error
    ensures r.Success? ==>
              var req := ParseRequest(stdin);
              && req.terminator.Some?
              && r.value.status == 0
              && r.value.stdout == Encode(run(req.process.value, Decode(req.payload.value)).value) + Eol + req.terminator.value + Eol
  {
    if stdin == "" then Failure(TrimOfFalse)
    else
      var req := ParseRequest(stdin);
      var name := req.process.value;
      if !classExists(name) then Failure(ClassNotFound(name))
      else if req.payload.None? then Failure(DecodeOfNull)
      else
        var out :- run(name, Decode(req.payload.value));
        Success(WorkerExit(Encode(out) + Eol + req.terminator.value + Eol, 0))
  }

  /** A line without an end of line inside, then an end of line, is the
      first thing `fgets` returns. */
  lemma LinesCons(l: string, more: string)
    requires '\n' !in l
    ensures Lines(l + Eol + more) == [l + Eol] + Lines(more)
  {
    FirstLineOf(l, more);
    assert (l + Eol + more)[|l + Eol|..] == more;
  }

  /** The worker's output reads back as exactly its two lines when the
      terminator holds no end of line. */
  lemma WorkerLines(result: string, term: string)
    requires forall i :: 0 <= i < |result| ==> IsCodeChar(result[i])
    requires '\n' !in term
    ensures Lines(result + Eol + term + Eol) == [result + Eol, term + Eol]
  {
    assert '\n' !in result by {
      forall i | 0 <= i < |result| ensures result[i] != '\n' { assert IsCodeChar(result[i]); }
    }
    assert result + Eol + term + Eol == result + Eol + (term + Eol);
    LinesCons(result, term + Eol);
    assert term + Eol == term + Eol + "";
    LinesCons(term, "");
    assert Lines("") == [];
  }
}

=== FILE: php_array.dfy ===
/** PHP's ordered array restricted to what the sources use: a key-to-value
    table that remembers insertion order. Setting an existing key updates the
    value in place; setting a new key appends it; unsetting drops it. */
module PhpArray {

  datatype Arr<K(==,!new), V> = Arr(keys: seq<K>, vals: map<K, V>)

  predicate Distinct<K(==,!new)>(s: seq<K>) {
    forall i, j :: 0 <= i < j < |s| ==> s[i] != s[j]
  }

  /** Every key is listed exactly once, and the listed keys are the table's keys. */
  ghost predicate Valid<K(!new), V>(a: Arr<K, V>) {
    && Distinct(a.keys)
    && (forall k :: k in a.vals <==> k in a.keys)
  }

  function Empty<K(==,!new), V>(): (r: Arr<K, V>)
    ensures Valid(r) && |r.keys| == 0
  {
    Arr([], map[])
  }

  /** `$a[$k] = $v` */
  function Set<K(==,!new), V>(a: Arr<K, V>, k: K, v: V): (r: Arr<K, V>)
    requires Valid(a)
    ensures Valid(r)
    ensures r.vals == a.vals[k := v]
    ensures k in a.vals ==> r.keys == a.keys
    ensures k !in a.vals ==> r.keys == a.keys + [k]
  {
    if k in a.vals then Arr(a.keys, a.vals[k := v]) else Arr(a.keys + [k], a.vals[k := v])
  }

  /** The list `s` without the element `k`. */
  function Without<K(==,!new)>(s: seq<K>, k: K): (r: seq<K>)
    ensures forall x :: x in r <==> x in s && x != k
    ensures Distinct(s) ==> Distinct(r)
    ensures |r| <= |s|
  {
    if |s| == 0 then []
    else if s[0] == k then Without(s[1..], k)
    else
      var t := Without(s[1..], k);
      assert Distinct(s) ==> Distinct(s[1..]) by {
        if Distinct(s) {
          forall i, j | 0 <= i < j < |s[1..]| ensures s[1..][i] != s[1..][j] {
            assert s[1..][i] == s[i + 1] && s[1..][j] == s[j + 1];
          }
        }
      }
      assert Distinct(s) ==> Distinct([s[0]] + t) by {
        if Distinct(s) {
          var r := [s[0]] + t;
          forall i, j | 0 <= i < j < |r| ensures r[i] != r[j] {
            if i == 0 {
              assert r[j] in t;
              var m :| 0 <= m < |s[1..]| && s[1..][m] == r[j];
              assert s[m + 1] == r[j];
            } else {
              assert r[i] == t[i - 1] && r[j] == t[j - 1];
            }
          }
        }
      }
      [s[0]] + t
  }

  /** `unset($a[$k])` */
  function Unset<K(==,!new), V>(a: Arr<K, V>, k: K): (r: Arr<K, V>)
    requires Valid(a)
    ensures Valid(r)
    ensures r.vals == a.vals - {k}
  {
    Arr(Without(a.keys, k), a.vals - {k})
  }

  /** `array_values($a)`: the values in key order. */
  function Values<K(==,!new), V>(a: Arr<K, V>): (r: seq<V>)
    requires Valid(a)
    ensures |r| == |a.keys|
    ensures forall i :: 0 <= i < |r| ==> r[i] == a.vals[a.keys[i]]
  {
    seq(|a.keys|, i requires 0 <= i < |a.keys| => a.vals[a.keys[i]])
  }

  /** Reading back a key just set yields the value set; every other key is untouched. */
  lemma SetThenGet<K(!new), V>(a: Arr<K, V>, k: K, v: V, other: K)
    requires Valid(a)
    ensures k in Set(a, k, v).vals && Set(a, k, v).vals[k] == v
    ensures other != k ==> (other in Set(a, k, v).vals <==> other in a.vals)
    ensures other != k && other in a.vals ==> Set(a, k, v).vals[other] == a.vals[other]
    ensures |Set(a, k, v).keys| == |a.keys| + (if k in a.vals then 0 else 1)
  {
  }
}

=== FILE: process_registry.dfy ===
/** The process registry: class name to either a shared (singleton) instance
    or the class name to instantiate on every lookup. Generic over the
    instance type `P`; class reflection and instantiation are parameters. */
module ProcessRegistry {
  import opened Wrappers

  datatype Stored<P> = Shared(instance: P) | ByName(cls: string)

  datatype Registry<P> = Registry(entries: map<string, Stored<P>>, current: Option<P>)

  /** What `add` receives: an instance of some process class, or a string. */
  datatype Candidate<P> = Instance(cls: string, instance: P) | Name(name: string)

  /** What the host language knows about classes. `isProcessClass(s)` holds when
      `s` names an existing subclass of Process; `canonical(s)` is the declared
      spelling of that class; `isSingleton` reads the Singleton attribute. */
  datatype Reflection = Reflection(
    isProcessClass: string -> bool,
    canonical: string -> string,
    isSingleton: string -> bool)

  function Empty<P>(): Registry<P> {
    Registry(map[], None)
  }

  /** The key an accepted candidate is registered under. */
  function KeyOf<P>(c: Candidate<P>, refl: Reflection): string {
    match c
    case Instance(cls, _) => cls
    case Name(s) => refl.canonical(s)
  }

  function Add<P>(r: Registry<P>, c: Candidate<P>, refl: Reflection, fabricate: string -> P): (res: Result<Registry<P>>)
    ensures res.Failure? <==> c.Name? && !refl.isProcessClass(c.name)
    ensures res.Failure? ==> res.error == LogicException("Trying to register invalid process: " + c.name)
    ensures res.Success? ==>
              var key := KeyOf(c, refl);
              && res.value.current == r.current
              && res.value.entries.Keys == r.entries.Keys + {key}
              && (forall n :: n in r.entries && n != key ==> res.value.entries[n] == r.entries[n])
              && (refl.isSingleton(key) <==> res.value.entries[key].Shared?)
              && (res.value.entries[key].ByName? ==> res.value.entries[key].cls == key)
              && (c.Instance? && refl.isSingleton(key) ==> res.value.entries[key] == Shared(c.instance))
  {
    match c
    case Instance(cls, p) =>
      Success(r.(entries := r.entries[cls := if refl.isSingleton(cls) then Shared(p) else ByName(cls)]))
    case Name(s) =>
      if !refl.isProcessClass(s) then Failure(LogicException("Trying to register invalid process: " + s))
      else
        var key := refl.canonical(s);
        Success(r.(entries := r.entries[key := if refl.isSingleton(key) then Shared(fabricate(key)) else ByName(key)]))
  }

  function Exists<P>(r: Registry<P>, name: string): bool {
    name in r.entries
  }

  /** `getNamed`: the shared instance, or a new instance of the stored class;
      either way it becomes the current process. */
  function GetNamed<P>(r: Registry<P>, name: string, fabricate: string -> P): (res: Result<(P, Registry<P>)>)
    ensures res.Failure? <==> !Exists(r, name)
    ensures res.Failure? ==> res.error == LogicException("Unregistered process " + name)
    ensures res.Success? ==> res.value.1 == r.(current := Some(res.value.0))
    ensures res.Success? && r.entries[name].Shared? ==> res.value.0 == r.entries[name].instance
    ensures res.Success? && r.entries[name].ByName? ==> res.value.0 == fabricate(r.entries[name].cls)
  {
    if name !in r.entries then Failure(LogicException("Unregistered process " + name))
    else
      var p := match r.entries[name] case Shared(q) => q case ByName(cls) => fabricate(cls);
      Success((p, r.(current := Some(p))))
  }

  /** A name exists after `add` exactly when it existed before or is the key
      just added; a failed `add` changes nothing. */
  lemma ExistsAfterAdd<P>(r: Registry<P>, c: Candidate<P>, refl: Reflection, fabricate: string -> P, n: string)
    requires Add(r, c, refl, fabricate).Success?
    ensures Exists(Add(r, c, refl, fabricate).value, n) <==> Exists(r, n) || n == KeyOf(c, refl)
  {
  }

  /** Re-adding a class overwrites its earlier entry. */
  lemma ReAddOverwrites<P>(r: Registry<P>, c1: Candidate<P>, c2: Candidate<P>, refl: Reflection, fabricate: string -> P)
    requires Add(r, c1, refl, fabricate).Success?
    requires KeyOf(c1, refl) == KeyOf(c2, refl)
    requires Add(Add(r, c1, refl, fabricate).value, c2, refl, fabricate).Success?
    ensures Add(Add(r, c1, refl, fabricate).value, c2, refl, fabricate).value.entries
            == Add(r, c2, refl, fabricate).value.entries
  {
  }

  /** A singleton hands out the same instance on every lookup, and a lookup
      leaves the table unchanged. */
  lemma SingletonIsShared<P>(r: Registry<P>, name: string, fabricate: string -> P)
    requires Exists(r, name) && r.entries[name].Shared?
    ensures var first := GetNamed(r, name, fabricate).value;
            && GetNamed(first.1, name, fabricate).value.0 == first.0
            && first.0 == r.entries[name].instance
  {
  }

  /** A lookup of a name added by class name (non-singleton) instantiates the
      class it was registered under; a name that was never added fails. */
  lemma LookupAfterAdd<P>(r: Registry<P>, s: string, refl: Reflection, fabricate: string -> P)
    requires refl.isProcessClass(s) && !refl.isSingleton(refl.canonical(s))
    ensures var r2 := Add(r, Name(s), refl, fabricate).value;
            && GetNamed(r2, refl.canonical(s), fabricate).Success?
            && GetNamed(r2, refl.canonical(s), fabricate).value.0 == fabricate(refl.canonical(s))
  {
  }
}

=== FILE: processes.dfy ===
/** The resumable process: an ordered list of tasks and gates with a cursor.
    `Handle` mirrors the do/while loop of the process: it recognises only the
    exclusive gate (terminal) and the inclusive "or" gate (advance by one);
    every other entry, gates of other kinds included, is invoked as a task, and
    such a gate's non-object result is refused by the observation. */
module Processes {
  import opened Wrappers

  datatype GateKind = XorKind | OrKind | AndKind | OffloadAndKind | EventKind | FuseKind | UndoKind

  /** One entry of a process, identified by an opaque id. */
  datatype Entry = Task(id: nat) | Gate(kind: GateKind, id: nat)

  /** An object found in a declared task list: a task or gate, or anything else. */
  datatype Obj = Instance(entry: Entry) | Foreign

  /** A value of the declared task list before construction. */
  datatype Declared = Object(obj: Obj) | Str(s: string) | OtherValue

  datatype Process = Process(tasks: seq<Entry>, position: nat)

  /** What one run or resume hands back: a gate carrying its input, or plain output. */
  datatype Yield<V> = Gated(gate: Entry, io: V) | Output(io: V)

  /** A run or resume: its out, the process afterwards, and the indices of the
      entries invoked as tasks, in invocation order. */
  datatype Step<V> = Step(out: Yield<V>, after: Process, invoked: seq<nat>)

  /** The entries a process owner calls during `cleanUp`, in call order. */
  datatype CleanUpCall =
    | FlushProcessEvents
    | ObserveProcess
    | FlushProcessObservers
    | CleanEntry(index: nat, forSerialization: bool)

  const NoTasks := LogicException("Invalid process: no tasks to process")
  const InvalidEntry := LogicException("Invalid task: must be instance of Task or Gate contract")
  const AlreadyCompleted := LogicException("Process already completed")
  /** `makeObservation` declares an `object` parameter, so observing a task's
      null output is a `TypeError`. */
  const NullObserved := TypeError("Flows\\Processes\\Process::makeObservation(): Argument #1 ($subject) must be of type object, null given")

  /** The type a gate's `__invoke` declares: array for the AND, offload-AND
      and OR gates, string for the XOR and event gates, bool for the fuse gate
      and int for the undo-state gate. None of them is an object. */
  function InvokeType(k: GateKind): string {
    match k
    case XorKind => "string"
    case OrKind => "array"
    case AndKind => "array"
    case OffloadAndKind => "array"
    case EventKind => "string"
    case FuseKind => "bool"
    case UndoKind => "int"
  }

  /** Observing what a gate invoked as a task returns is a `TypeError` too. */
  function NonObjectObserved(k: GateKind): Exception {
    TypeError("Flows\\Processes\\Process::makeObservation(): Argument #1 ($subject) must be of type object, " + InvokeType(k) + " given")
  }

  /** The entry a declared value becomes: a string naming an existing class is
      instantiated first; a non-class string or other value is no entry. */
  function Resolve(d: Declared, classExists: string -> bool, instantiate: string -> Obj): Option<Entry> {
    match d
    case Object(Instance(e)) => Some(e)
    case Object(Foreign) => None
    case Str(s) =>
      if classExists(s) then
        (match instantiate(s) case Instance(e) => Some(e) case Foreign => None)
      else None
    case OtherValue => None
  }

  function ResolveAll(ds: seq<Declared>, classExists: string -> bool, instantiate: string -> Obj): (r: Option<seq<Entry>>)
    ensures r.Some? <==> forall i :: 0 <= i < |ds| ==> Resolve(ds[i], classExists, instantiate).Some?
    ensures r.Some? ==> |r.value| == |ds|
    ensures r.Some? ==> forall i :: 0 <= i < |ds| ==> r.value[i] == Resolve(ds[i], classExists, instantiate).value
  {
    if |ds| == 0 then Some([])
    else
      match Resolve(ds[0], classExists, instantiate)
      case None => None
      case Some(e) =>
        match ResolveAll(ds[1..], classExists, instantiate)
        case None =>
          assert !Resolve(ds[1..][0], classExists, instantiate).Some? || exists i :: 0 <= i < |ds[1..]| && !Resolve(ds[1..][i], classExists, instantiate).Some?;
          None
        case Some(rest) => Some([e] + rest)
  }

  /** The constructor: an empty list, or one with an entry that is neither a
      task nor a gate, is refused; otherwise the cursor starts at 0. */
  function Construct(ds: seq<Declared>, classExists: string -> bool, instantiate: string -> Obj): (r: Result<Process>)
    ensures |ds| == 0 ==> r == Failure(NoTasks)
    ensures r.Success? <==> |ds| > 0 && forall i :: 0 <= i < |ds| ==> Resolve(ds[i], classExists, instantiate).Some?
    ensures r.Failure? && |ds| > 0 ==> r.error == InvalidEntry
    ensures r.Success? ==> r.value.position == 0 && |r.value.tasks| == |ds|
    ensures r.Success? ==> forall i :: 0 <= i < |ds| ==> r.value.tasks[i] == Resolve(ds[i], classExists, instantiate).value
  {
    if |ds| == 0 then Failure(NoTasks)
    else
      match ResolveAll(ds, classExists, instantiate)
      case None => Failure(InvalidEntry)
      case Some(es) => Success(Process(es, 0))
  }

  /** As written, the constructor's check names `Flows\Contracts\Gate`, which
      no gate class implements: every gate extends `Flows\Gates\Gate`, which
      implements `Flows\Contracts\Gates\Gate` instead. So only tasks pass. */
  function ConstructAsWritten(ds: seq<Declared>, classExists: string -> bool, instantiate: string -> Obj): (r: Result<Process>)
    ensures |ds| == 0 ==> r == Failure(NoTasks)
    ensures r.Success? <==>
              && |ds| > 0
              && forall i :: 0 <= i < |ds| ==>
                   Resolve(ds[i], classExists, instantiate).Some? && Resolve(ds[i], classExists, instantiate).value.Task?
    ensures r.Failure? && |ds| > 0 ==> r.error == InvalidEntry
  {
    if |ds| == 0 then Failure(NoTasks)
    else
      match ResolveAll(ds, classExists, instantiate)
      case None => Failure(InvalidEntry)
      case Some(es) =>
        if forall i :: 0 <= i < |es| ==> es[i].Task? then Success(Process(es, 0)) else Failure(InvalidEntry)
  }

  /** As written, a process that lists a gate cannot be constructed, while the
      corrected constructor accepts it with the gate in place. */
  lemma GateListRefusedAsWritten(ds: seq<Declared>, classExists: string -> bool, instantiate: string -> Obj, g: nat)
    requires g < |ds| && Resolve(ds[g], classExists, instantiate).Some?
    requires Resolve(ds[g], classExists, instantiate).value.Gate?
    ensures ConstructAsWritten(ds, classExists, instantiate) == Failure(InvalidEntry)
    ensures Construct(ds, classExists, instantiate).Success? ==>
              Construct(ds, classExists, instantiate).value.tasks[g] == Resolve(ds[g], classExists, instantiate).value
  {
  }

  /** A task followed by an exclusive gate, the shape of the exclusive-gate
      process test: refused as written, accepted once corrected. */
  lemma XorGatedProcessRefusedAsWritten(classExists: string -> bool, instantiate: string -> Obj)
    ensures var ds := [Object(Instance(Task(0))), Object(Instance(Gate(XorKind, 1)))];
            && ConstructAsWritten(ds, classExists, instantiate) == Failure(InvalidEntry)
            && Construct(ds, classExists, instantiate) == Success(Process([Task(0), Gate(XorKind, 1)], 0))
  {
    var ds := [Object(Instance(Task(0))), Object(Instance(Gate(XorKind, 1)))];
    assert Resolve(ds[1], classExists, instantiate).value.Gate?;
    var c := Construct(ds, classExists, instantiate);
    assert c.value.tasks == [Task(0), Gate(XorKind, 1)] by {
      assert |c.value.tasks| == 2;
      assert c.value.tasks[0] == Resolve(ds[0], classExists, instantiate).value;
      assert c.value.tasks[1] == Resolve(ds[1], classExists, instantiate).value;
    }
  }

  /** The two constructors agree on every list that resolves to tasks only, or
      that does not resolve. */
  lemma ConstructAgreesOnTasks(ds: seq<Declared>, classExists: string -> bool, instantiate: string -> Obj)
    requires forall i :: 0 <= i < |ds| && Resolve(ds[i], classExists, instantiate).Some? ==>
               Resolve(ds[i], classExists, instantiate).value.Task?
    ensures ConstructAsWritten(ds, classExists, instantiate) == Construct(ds, classExists, instantiate)
  {
  }

  predicate Done(p: Process) {
    p.position >= |p.tasks|
  }

  function GetPosition(p: Process): (r: Option<nat>)
    ensures r.None? <==> p.position >= |p.tasks|
    ensures r.Some? ==> r.value == p.position && r.value < |p.tasks|
  {
    if Done(p) then None else Some(p.position)
  }

  /** `[position, taskCount]`; unlike `GetPosition` it reports the raw cursor. */
  function GetProgress(p: Process): (nat, nat) {
    (p.position, |p.tasks|)
  }

  /** The progress pair reports the cursor even where the position reads null. */
  lemma ProgressVersusPosition(p: Process)
    ensures GetPosition(p).None? <==> GetProgress(p).0 >= GetProgress(p).1
    ensures GetPosition(p).Some? ==> GetPosition(p).value == GetProgress(p).0
  {
  }

  /** An entry that stops the loop: an exclusive or an inclusive gate. */
  predicate IsStop(e: Entry) {
    e.Gate? && (e.kind == XorKind || e.kind == OrKind)
  }

  /** Reference: the first stopping entry at or after `lo` (or the end). */
  function FirstStop(tasks: seq<Entry>, lo: nat): (k: nat)
    requires lo <= |tasks|
    ensures lo <= k <= |tasks|
    ensures k < |tasks| ==> IsStop(tasks[k])
    ensures forall i :: lo <= i < k ==> !IsStop(tasks[i])
    decreases |tasks| - lo
  {
    if lo == |tasks| then lo
    else if IsStop(tasks[lo]) then lo
    else FirstStop(tasks, lo + 1)
  }

  /** Reference: one entry invoked as a task and its result observed. A task's
      output is handed on, and its null output (`None`) is refused; a gate's
      result is never an object, so it is always refused. */
  function Observe<V>(e: Entry, io: V, invoke: (Entry, V) -> Option<V>): Result<V> {
    match e
    case Gate(k, _) => Failure(NonObjectObserved(k))
    case Task(_) =>
      match invoke(e, io)
      case None => Failure(NullObserved)
      case Some(out) => Success(out)
  }

  /** Reference: the input fed through the entries `lo .. hi-1`, each output
      becoming the next input, until the first observation that refuses. Any
      gate in the range makes it fail: either it is reached and refused, or
      something before it already was. */
  function Feed<V>(tasks: seq<Entry>, lo: nat, hi: nat, io: V, invoke: (Entry, V) -> Option<V>): (r: Result<V>)
    requires lo <= hi <= |tasks|
    ensures (exists i :: lo <= i < hi && tasks[i].Gate?) ==> r.Failure?
    ensures r.Failure? ==>
              || r.error == NullObserved
              || exists i :: lo <= i < hi && tasks[i].Gate? && r.error == NonObjectObserved(tasks[i].kind)
    decreases hi - lo
  {
    if lo == hi then Success(io)
    else
      match Observe(tasks[lo], io, invoke)
      case Failure(e) =>
        assert tasks[lo].Task? ==> e == NullObserved;
        Failure(e)
      case Success(out) => Feed(tasks, lo + 1, hi, out, invoke)
  }

  function Range(lo: nat, hi: nat): (r: seq<nat>)
    requires lo <= hi
    ensures |r| == hi - lo
    ensures forall i :: 0 <= i < |r| ==> r[i] == lo + i
    decreases hi - lo
  {
    if lo == hi then [] else [lo] + Range(lo + 1, hi)
  }

  /** The loop of the process from cursor `pos`: tasks run in order, each
      output feeding the next, up to the first exclusive or inclusive gate, which
      is handed back with the input that reached it. An exclusive gate moves the
      cursor to the end (the process is done); an inclusive gate moves it one past
      the gate. With no such gate the last output is returned. Every task's
      output is observed, and observing null is a `TypeError`; so is observing
      the array, string, bool or int that a gate of another kind returns when it
      is invoked as a task. An exclusive or inclusive gate is observed as
      itself, never null. */
  function Handle<V>(tasks: seq<Entry>, pos: nat, io: V, invoke: (Entry, V) -> Option<V>): (r: Result<Step<V>>)
    requires pos < |tasks|
    ensures var k := FirstStop(tasks, pos);
            && (r.Failure? <==> Feed(tasks, pos, k, io, invoke).Failure?)
            && (r.Failure? ==> r.error == Feed(tasks, pos, k, io, invoke).error)
    ensures (exists i :: pos <= i < FirstStop(tasks, pos) && tasks[i].Gate?) ==> r.Failure?
    ensures r.Success? ==>
              var k := FirstStop(tasks, pos);
              var fed := Feed(tasks, pos, k, io, invoke).value;
              && r.value.after.tasks == tasks
              && r.value.invoked == Range(pos, k)
              && (k < |tasks| ==>
                    && r.value.out == Gated(tasks[k], fed)
                    && r.value.after.position == (if tasks[k].kind == XorKind then |tasks| else k + 1))
              && (k == |tasks| ==>
                    && r.value.out == Output(fed)
                    && r.value.after.position == |tasks|)
    decreases |tasks| - pos
  {
    var work := tasks[pos];
    if work.Gate? && work.kind == XorKind then
      Success(Step(Gated(work, io), Process(tasks, |tasks|), []))
    else if work.Gate? && work.kind == OrKind then
      Success(Step(Gated(work, io), Process(tasks, pos + 1), []))
    else if work.Gate? then
      Failure(NonObjectObserved(work.kind))
    else
      match invoke(work, io)
      case None => Failure(NullObserved)
      case Some(out) =>
        if pos + 1 < |tasks| then
          var rest :- Handle(tasks, pos + 1, out, invoke);
          Success(Step(rest.out, rest.after, [pos] + rest.invoked))
        else
          Success(Step(Output(out), Process(tasks, pos + 1), [pos]))
  }

  /** `run`: refused on a done process; otherwise the cursor restarts at 0,
      and a refused observation on the way to the first exclusive or inclusive
      gate (a null task output, or any other gate) is a `TypeError`. */
  function Run<V>(p: Process, io: V, invoke: (Entry, V) -> Option<V>): (r: Result<Step<V>>)
    ensures Done(p) ==> r == Failure(AlreadyCompleted)
    ensures !Done(p) ==> (r.Success? <==> Feed(p.tasks, 0, FirstStop(p.tasks, 0), io, invoke).Success?)
    ensures !Done(p) && r.Failure? ==> r.error == Feed(p.tasks, 0, FirstStop(p.tasks, 0), io, invoke).error
    ensures (exists i :: 0 <= i < FirstStop(p.tasks, 0) && p.tasks[i].Gate?) ==> r.Failure?
    ensures r.Success? ==> r.value.invoked == Range(0, FirstStop(p.tasks, 0))
  {
    if Done(p) then Failure(AlreadyCompleted) else Handle(p.tasks, 0, io, invoke)
  }

  /** `resume`: refused on a done process; otherwise continues at the cursor. */
  function Resume<V>(p: Process, io: V, invoke: (Entry, V) -> Option<V>): (r: Result<Step<V>>)
    ensures Done(p) ==> r == Failure(AlreadyCompleted)
    ensures !Done(p) ==> (r.Success? <==> Feed(p.tasks, p.position, FirstStop(p.tasks, p.position), io, invoke).Success?)
    ensures !Done(p) && r.Failure? ==> r.error == Feed(p.tasks, p.position, FirstStop(p.tasks, p.position), io, invoke).error
    ensures !Done(p) && (exists i :: p.position <= i < FirstStop(p.tasks, p.position) && p.tasks[i].Gate?) ==> r.Failure?
    ensures r.Success? ==> r.value.invoked == Range(p.position, FirstStop(p.tasks, p.position))
  {
    if Done(p) then Failure(AlreadyCompleted) else Handle(p.tasks, p.position, io, invoke)
  }

  /** `run` is `resume` after resetting the cursor to the first entry. */
  lemma RunIsResumeFromStart<V>(p: Process, io: V, invoke: (Entry, V) -> Option<V>)
    requires !Done(p)
    ensures Run(p, io, invoke) == Resume(p.(position := 0), io, invoke)
  {
  }

  /** With no exclusive or inclusive gate, `run` invokes every entry once, in
      order, feeding each output to the next, returns the last output and
      leaves the process done; it fails instead exactly when some observation on
      the way refuses, which any gate in the list guarantees. */
  lemma {:induction false} RunWithoutGates<V>(p: Process, io: V, invoke: (Entry, V) -> Option<V>)
    requires |p.tasks| > 0 && p.position < |p.tasks|
    requires forall i :: 0 <= i < |p.tasks| ==> !IsStop(p.tasks[i])
    ensures Run(p, io, invoke).Success? <==> Feed(p.tasks, 0, |p.tasks|, io, invoke).Success?
    ensures Run(p, io, invoke).Failure? ==> Run(p, io, invoke).error == Feed(p.tasks, 0, |p.tasks|, io, invoke).error
    ensures (exists i :: 0 <= i < |p.tasks| && p.tasks[i].Gate?) ==> Run(p, io, invoke).Failure?
    ensures Run(p, io, invoke).Success? ==>
              && Run(p, io, invoke).value.invoked == Range(0, |p.tasks|)
              && Run(p, io, invoke).value.out == Output(Feed(p.tasks, 0, |p.tasks|, io, invoke).value)
              && Done(Run(p, io, invoke).value.after)
  {
    NoStopMeansEnd(p.tasks, 0);
  }

  lemma {:induction false} NoStopMeansEnd(tasks: seq<Entry>, lo: nat)
    requires lo <= |tasks|
    requires forall i :: lo <= i < |tasks| ==> !IsStop(tasks[i])
    ensures FirstStop(tasks, lo) == |tasks|
    decreases |tasks| - lo
  {
    if lo < |tasks| {
      NoStopMeansEnd(tasks, lo + 1);
    }
  }

  /** A task at the cursor that returns null fails the resume at once,
      whatever follows. */
  lemma NullFirstOutputFails<V>(p: Process, io: V, invoke: (Entry, V) -> Option<V>)
    requires !Done(p) && p.tasks[p.position].Task? && invoke(p.tasks[p.position], io).None?
    ensures Resume(p, io, invoke) == Failure(NullObserved)
  {
  }

  /** A gate of any other kind at the cursor is invoked as a task, and its
      non-object result fails the resume at once, whatever the task oracle says. */
  lemma OtherGateFirstFails<V>(p: Process, io: V, invoke: (Entry, V) -> Option<V>)
    requires !Done(p) && p.tasks[p.position].Gate? && !IsStop(p.tasks[p.position])
    ensures Resume(p, io, invoke) == Failure(NonObjectObserved(p.tasks[p.position].kind))
  {
  }

  /** An exclusive gate ends the process: it is handed back with the input that
      reached it and the process is done, so no later resume is possible. */
  lemma XorGateEndsProcess<V>(p: Process, io: V, invoke: (Entry, V) -> Option<V>)
    requires !Done(p)
    requires var k := FirstStop(p.tasks, p.position); k < |p.tasks| && p.tasks[k].kind == XorKind
    ensures var k := FirstStop(p.tasks, p.position);
            var r := Resume(p, io, invoke);
            && (r.Success? <==> Feed(p.tasks, p.position, k, io, invoke).Success?)
            && (r.Success? ==>
                  && r.value.out == Gated(p.tasks[k], Feed(p.tasks, p.position, k, io, invoke).value)
                  && Done(r.value.after)
                  && Resume(r.value.after, io, invoke) == Failure(AlreadyCompleted))
  {
  }

  /** An inclusive gate advances the cursor exactly one past itself: the next
      resume starts at the entry after the gate, or is refused when the gate was
      the last entry. */
  lemma OrGateAdvancesByOne<V>(p: Process, io: V, io2: V, invoke: (Entry, V) -> Option<V>)
    requires !Done(p)
    requires var k := FirstStop(p.tasks, p.position); k < |p.tasks| && p.tasks[k].kind == OrKind
    ensures var k := FirstStop(p.tasks, p.position);
            var r := Resume(p, io, invoke);
            && (r.Success? <==> Feed(p.tasks, p.position, k, io, invoke).Success?)
            && (r.Success? ==>
                  && r.value.out == Gated(p.tasks[k], Feed(p.tasks, p.position, k, io, invoke).value)
                  && r.value.after.position == k + 1
                  && (k + 1 < |p.tasks| ==>
                        var r2 := Resume(r.value.after, io2, invoke);
                        r2.Success? ==> r2.value.invoked == Range(k + 1, FirstStop(p.tasks, k + 1)))
                  && (k + 1 < |p.tasks| ==> Resume(r.value.after, io2, invoke) != Failure(AlreadyCompleted))
                  && (k + 1 == |p.tasks| ==> Resume(r.value.after, io2, invoke) == Failure(AlreadyCompleted)))
  {
  }

  /** The cleanup calls from the last entry down to the first. */
  function Countdown(n: nat, forSerialization: bool): (r: seq<CleanUpCall>)
    ensures |r| == n
    ensures forall j :: 0 <= j < n ==> r[j] == CleanEntry(n - 1 - j, forSerialization)
  {
    if n == 0 then [] else [CleanEntry(n - 1, forSerialization)] + Countdown(n - 1, forSerialization)
  }

  /** `cleanUp`: when the event and observer kernels are bound, the process
      flushes its deferred events, is observed, and flushes its deferred
      observations; then every entry is cleaned, last to first, whatever the
      cursor. */
  function CleanUp(p: Process, kernelsBound: bool, forSerialization: bool): (r: seq<CleanUpCall>)
    ensures |r| == (if kernelsBound then 3 else 0) + |p.tasks|
    ensures kernelsBound ==> r[..3] == [FlushProcessEvents, ObserveProcess, FlushProcessObservers]
    ensures kernelsBound ==> forall j :: 3 <= j < |r| ==> r[j] == CleanEntry(|r| - 1 - j, forSerialization)
    ensures !kernelsBound ==> forall j :: 0 <= j < |r| ==> r[j] == CleanEntry(|r| - 1 - j, forSerialization)
  {
    (if kernelsBound then [FlushProcessEvents, ObserveProcess, FlushProcessObservers] else [])
      + Countdown(|p.tasks|, forSerialization)
  }
}

=== FILE: random_strings.dfy ===
/** The two random-string helpers: the shuffled alphanumeric string with an
    optional prefix and suffix, and the hexadecimal string of random bytes.
    The random source is a parameter: `rand(i)` is the i-th number the
    generator hands out. */
module RandomStrings {
  import opened Wrappers

  /** The characters from `c` on, `n` of them. */
  function CharRange(c: char, n: nat): (r: string)
    requires c as int + n <= 0xD800
    ensures |r| == n && forall i :: 0 <= i < n ==> r[i] as int == c as int + i
  {
    seq(n, i requires 0 <= i < n => (c as int + i) as char)
  }

  /** The 62 ASCII alphanumerics, in the order the shuffle starts from:
      digits, lower case, upper case. */
  const Alphanumerics: string := CharRange('0', 10) + CharRange('a', 26) + CharRange('A', 26)

  predicate IsAlphanumeric(c: char) {
    '0' <= c <= '9' || 'a' <= c <= 'z' || 'A' <= c <= 'Z'
  }

  lemma AlphanumericsAreAlphanumeric()
    ensures |Alphanumerics| == 62
    ensures forall i :: 0 <= i < |Alphanumerics| ==> IsAlphanumeric(Alphanumerics[i])
    ensures forall c :: IsAlphanumeric(c) ==> c in Alphanumerics
  {
    forall c | IsAlphanumeric(c) ensures c in Alphanumerics {
      if '0' <= c <= '9' {
        assert Alphanumerics[c as int - '0' as int] == c;
      } else if 'a' <= c <= 'z' {
        assert Alphanumerics[10 + c as int - 'a' as int] == c;
      } else {
        assert Alphanumerics[36 + c as int - 'A' as int] == c;
      }
    }
  }

  function Swap<T>(s: seq<T>, i: nat, j: nat): (r: seq<T>)
    requires i < |s| && j < |s|
    ensures |r| == |s| && multiset(r) == multiset(s)
    ensures r[i] == s[j] && r[j] == s[i]
    ensures forall k :: 0 <= k < |s| && k != i && k != j ==> r[k] == s[k]
  {
    s[i := s[j]][j := s[i]]
  }

  /** The shuffle: for each position from `n - 1` down to 1, swap it with a
      position drawn from 0 up to it. */
  function ShuffleDown<T>(s: seq<T>, n: nat, rand: nat -> nat): (r: seq<T>)
    requires n <= |s|
    ensures |r| == |s| && multiset(r) == multiset(s)
    decreases n
  {
    if n <= 1 then s
    else
      var i := n - 1;
      ShuffleDown(Swap(s, i, rand(i) % (i + 1)), i, rand)
  }

  function Shuffle<T>(s: seq<T>, rand: nat -> nat): (r: seq<T>)
    ensures |r| == |s| && multiset(r) == multiset(s)
  {
    ShuffleDown(s, |s|, rand)
  }

  /** The shuffle keeps every element. */
  lemma ShuffleKeepsElements<T>(s: seq<T>, rand: nat -> nat, x: T)
    ensures x in Shuffle(s, rand) <==> x in s
  {
    var r := Shuffle(s, rand);
    assert x in r <==> x in multiset(r);
    assert x in s <==> x in multiset(s);
  }

  /** What a nullable affix contributes: itself when truthy, nothing otherwise. */
  function Affix(s: Option<string>): string {
    if Truthy(s) then s.value else ""
  }

  /** `getAlphaNumeric`: a permutation of the 62 alphanumerics, with a truthy
      prefix put in front and a truthy suffix put behind. */
  function GetAlphaNumeric(prefix: Option<string>, suffix: Option<string>, rand: nat -> nat): (r: string)
    ensures |r| == |Affix(prefix)| + 62 + |Affix(suffix)|
    ensures r[..|Affix(prefix)|] == Affix(prefix)
    ensures r[|r| - |Affix(suffix)|..] == Affix(suffix)
    ensures multiset(r[|Affix(prefix)|..|r| - |Affix(suffix)|]) == multiset(Alphanumerics)
  {
    var s := Shuffle(Alphanumerics, rand);
    var r := Affix(prefix) + s + Affix(suffix);
    assert r[|Affix(prefix)|..|r| - |Affix(suffix)|] == s;
    r
  }

  /** Without prefix and suffix, every character is alphanumeric, and every
      alphanumeric occurs. */
  lemma BareAlphaNumeric(rand: nat -> nat)
    ensures var r := GetAlphaNumeric(None, None, rand);
            && |r| == 62
            && (forall i :: 0 <= i < |r| ==> IsAlphanumeric(r[i]))
            && (forall c :: IsAlphanumeric(c) ==> c in r)
  {
    var r := GetAlphaNumeric(None, None, rand);
    AlphanumericsAreAlphanumeric();
    assert r[0..|r| - 0] == r;
    assert multiset(r) == multiset(Alphanumerics);
    forall i | 0 <= i < |r| ensures IsAlphanumeric(r[i]) {
      assert r[i] in multiset(r);
    }
    forall c | IsAlphanumeric(c) ensures c in r {
      assert c in multiset(Alphanumerics);
    }
  }

  /** A falsy prefix or suffix leaves the result as if none had been given. */
  lemma FalsyAffixesIgnored(prefix: Option<string>, suffix: Option<string>, rand: nat -> nat)
    requires !Truthy(prefix) && !Truthy(suffix)
    ensures GetAlphaNumeric(prefix, suffix, rand) == GetAlphaNumeric(None, None, rand)
  {
  }

  // ---------------------------------------------------------------------
  // Hexadecimal strings

  const HexDigits := "0123456789abcdef"

  predicate IsLowerHex(c: char) {
    '0' <= c <= '9' || 'a' <= c <= 'f'
  }

  /** `bin2hex` of one byte: the high nibble, then the low one. */
  function ByteToHex(b: nat): (r: string)
    requires b < 256
    ensures |r| == 2 && IsLowerHex(r[0]) && IsLowerHex(r[1])
  {
    [HexDigits[b / 16], HexDigits[b % 16]]
  }

  /** `bin2hex(random_bytes(n))`: byte `i` is `rand(i) % 256`. */
  function RandomHex(n: nat, rand: nat -> nat): (r: string)
    ensures |r| == 2 * n
    ensures forall i :: 0 <= i < |r| ==> IsLowerHex(r[i])
  {
    if n == 0 then "" else RandomHex(n - 1, rand) + ByteToHex(rand(n - 1) % 256)
  }

  /** What `random_bytes` raises for a length below 1. */
  const BadLength := ValueError("random_bytes(): Argument #1 ($length) must be greater than 0")

  /** `getHexadecimal` as written: a truthy prefix replaces the whole string by
      prefix and suffix, throwing the random hex away, and a truthy suffix is
      then appended a second time. */
  function GetHexadecimalAsWritten(length: int, prefix: Option<string>, suffix: Option<string>, rand: nat -> nat): (r: Result<string>)
    ensures r.Failure? <==> length < 1
    ensures r.Failure? ==> r.error == BadLength
    ensures r.Success? && !Truthy(prefix) && !Truthy(suffix) ==>
              |r.value| == 2 * length && forall i :: 0 <= i < |r.value| ==> IsLowerHex(r.value[i])
    ensures r.Success? && Truthy(prefix) ==>
              r.value == prefix.value + suffix.GetOr("") + (if Truthy(suffix) then suffix.value else "")
  {
    if length < 1 then Failure(BadLength)
    else
      var s := RandomHex(length, rand);
      var s1 := if Truthy(prefix) then prefix.value + suffix.GetOr("") else s;
      Success(if Truthy(suffix) then s1 + suffix.value else s1)
  }

  /** `getHexadecimal` as evidently intended: prefix, hex, suffix. */
  function GetHexadecimal(length: int, prefix: Option<string>, suffix: Option<string>, rand: nat -> nat): (r: Result<string>)
    ensures r.Failure? <==> length < 1
    ensures r.Failure? ==> r.error == BadLength
    ensures r.Success? ==>
              var front := if Truthy(prefix) then prefix.value else "";
              var back := if Truthy(suffix) then suffix.value else "";
              && |r.value| == |front| + 2 * length + |back|
              && r.value[..|front|] == front
              && r.value[|r.value| - |back|..] == back
              && forall i :: |front| <= i < |r.value| - |back| ==> IsLowerHex(r.value[i])
  {
    if length < 1 then Failure(BadLength)
    else
      var s := RandomHex(length, rand);
      var front := if Truthy(prefix) then prefix.value else "";
      var back := if Truthy(suffix) then suffix.value else "";
      var r := front + s + back;
      assert forall i :: |front| <= i < |r| - |back| ==> r[i] == s[i - |front|];
      Success(r)
  }

  /** With a prefix, the as-written helper returns no random characters at all:
      its result does not depend on the random source. */
  lemma PrefixDropsHex(length: int, prefix: string, suffix: Option<string>, rand1: nat -> nat, rand2: nat -> nat)
    requires length >= 1 && Truthy(Some(prefix))
    ensures GetHexadecimalAsWritten(length, Some(prefix), suffix, rand1) == GetHexadecimalAsWritten(length, Some(prefix), suffix, rand2)
  {
  }

  /** The socket names built from "flows-" and ".sock" all come out the same. */
  lemma SocketNameCollides(rand: nat -> nat)
    ensures GetHexadecimalAsWritten(8, Some("flows-"), Some(".sock"), rand) == Success("flows-.sock.sock")
  {
    assert Truthy(Some("flows-")) && Truthy(Some(".sock"));
    assert "flows-" + ".sock" + ".sock" == "flows-.sock.sock";
  }

  /** The intended helper keeps `2 * length` random characters between prefix
      and suffix, and agrees with the as-written one when no prefix is given. */
  lemma IntendedKeepsHex(length: int, prefix: Option<string>, suffix: Option<string>, rand: nat -> nat)
    requires length >= 1
    ensures |GetHexadecimal(length, prefix, suffix, rand).value| >= 2 * length
    ensures !Truthy(prefix) ==> GetHexadecimal(length, prefix, suffix, rand) == GetHexadecimalAsWritten(length, prefix, suffix, rand)
  {
    var s := RandomHex(length, rand);
    assert "" + s == s;
    assert s + "" == s;
  }
}

=== FILE: reactor.dfy ===
/** The event loop: read and write handler tables keyed by stream id (in
    registration order), a timer list, the timer sweep and the run loop.
    Time is in natural-number ticks. Callbacks are values of a type `C`; what a
    callback does when called is the oracle `fire`, which answers with the
    reactor operations it performs: removing a stream or stopping the run. */
module Reactor {
  import opened Wrappers
  import PhpArray

  datatype Action = Remove(stream: int) | StopRun

  datatype Timer<C> = Timer(due: nat, cb: C, repeat: bool, interval: nat)

  /** A timer entry. `Stub` is what writing a due time into a missing entry
      creates: an entry holding only the due time, with no callback. */
  datatype TimerEntry<C> = Armed(t: Timer<C>) | Stub(at: nat)

  datatype Handlers<C> = Handlers(readers: PhpArray.Arr<int, C>, writers: PhpArray.Arr<int, C>)

  datatype Reactor<C> = Reactor(io: Handlers<C>, timers: seq<TimerEntry<C>>)

  /** What the run turns into when it calls a callback that is not there. */
  const NotCallable := EngineError("Value of type null is not callable")

  function Due<C>(e: TimerEntry<C>): nat {
    match e
    case Armed(t) => t.due
    case Stub(at) => at
  }

  ghost predicate ValidIo<C>(h: Handlers<C>) {
    PhpArray.Valid(h.readers) && PhpArray.Valid(h.writers)
  }

  ghost predicate Valid<C>(r: Reactor<C>) {
    ValidIo(r.io)
  }

  /** No handler and no timer left: the run loop's exit condition. */
  predicate Idle<C>(r: Reactor<C>) {
    |r.io.readers.keys| == 0 && |r.io.writers.keys| == 0 && |r.timers| == 0
  }

  function New<C>(): (r: Reactor<C>)
    ensures Valid(r) && Idle(r)
  {
    Reactor(Handlers(PhpArray.Empty(), PhpArray.Empty()), [])
  }

  /** `onReadable`: (re)register the read handler of a stream. */
  function OnReadable<C>(r: Reactor<C>, stream: int, h: C): (r': Reactor<C>)
    requires Valid(r)
    ensures Valid(r')
    ensures r'.io.readers.vals == r.io.readers.vals[stream := h]
    ensures r'.io.writers == r.io.writers && r'.timers == r.timers
  {
    r.(io := r.io.(readers := PhpArray.Set(r.io.readers, stream, h)))
  }

  /** `onWritable`: (re)register the write handler of a stream. */
  function OnWritable<C>(r: Reactor<C>, stream: int, h: C): (r': Reactor<C>)
    requires Valid(r)
    ensures Valid(r')
    ensures r'.io.writers.vals == r.io.writers.vals[stream := h]
    ensures r'.io.readers == r.io.readers && r'.timers == r.timers
  {
    r.(io := r.io.(writers := PhpArray.Set(r.io.writers, stream, h)))
  }

  function RemoveIo<C>(h: Handlers<C>, stream: int): (h': Handlers<C>)
    requires ValidIo(h)
    ensures ValidIo(h')
    ensures h'.readers.vals == h.readers.vals - {stream} && h'.writers.vals == h.writers.vals - {stream}
  {
    Handlers(PhpArray.Unset(h.readers, stream), PhpArray.Unset(h.writers, stream))
  }

  /** `remove`: drop both handlers of a stream; timers are untouched. */
  function Remove<C>(r: Reactor<C>, stream: int): (r': Reactor<C>)
    requires Valid(r)
    ensures Valid(r')
    ensures r'.io.readers.vals == r.io.readers.vals - {stream}
    ensures r'.io.writers.vals == r.io.writers.vals - {stream}
    ensures r'.timers == r.timers
  {
    r.(io := RemoveIo(r.io, stream))
  }

  /** `addTimer`: append a timer due `interval` ticks from `now`. */
  function AddTimer<C>(r: Reactor<C>, now: nat, interval: nat, cb: C, repeat: bool): (r': Reactor<C>)
    ensures |r'.timers| == |r.timers| + 1
    ensures r'.timers[..|r.timers|] == r.timers
    ensures r'.timers[|r.timers|] == Armed(Timer(now + interval, cb, repeat, interval))
    ensures r'.io == r.io
  {
    r.(timers := r.timers + [Armed(Timer(now + interval, cb, repeat, interval))])
  }

  function EmptyIo<C>(): (h: Handlers<C>)
    ensures ValidIo(h) && |h.readers.keys| == 0 && |h.writers.keys| == 0
  {
    Handlers(PhpArray.Empty(), PhpArray.Empty())
  }

  /** `stopRun`: empty all three tables. */
  function Stop<C>(r: Reactor<C>): (r': Reactor<C>)
    ensures Valid(r') && Idle(r')
  {
    Reactor(EmptyIo(), [])
  }

  function ActIo<C>(h: Handlers<C>, a: Action): (h': Handlers<C>)
    requires ValidIo(h)
    ensures ValidIo(h')
  {
    match a
    case Remove(s) => RemoveIo(h, s)
    case StopRun => EmptyIo()
  }

  /** Apply the operations a callback performs, in order. */
  function ActAll<C>(r: Reactor<C>, acts: seq<Action>): (r': Reactor<C>)
    requires Valid(r)
    ensures Valid(r')
    ensures StopRun in acts ==> |r'.timers| == 0
    ensures StopRun !in acts ==> r'.timers == r.timers
    decreases |acts|
  {
    if |acts| == 0 then r
    else
      var r1 := match acts[0] case Remove(s) => Remove(r, s) case StopRun => Stop(r);
      ActAll(r1, acts[1..])
  }

  // ---------------------------------------------------------------------
  // The timer sweep

  /** The state during a sweep: the live handler tables and the live timer
      table, indexed by position in the snapshot being iterated. */
  datatype Sweep<C> = Sweep(io: Handlers<C>, live: seq<Option<TimerEntry<C>>>)

  function Cleared<C>(n: nat): (s: seq<Option<TimerEntry<C>>>)
    ensures |s| == n && forall i :: 0 <= i < n ==> s[i].None?
  {
    seq(n, _ => None)
  }

  function SweepActAll<C>(s: Sweep<C>, acts: seq<Action>): (s': Sweep<C>)
    requires ValidIo(s.io)
    ensures ValidIo(s'.io) && |s'.live| == |s.live|
    ensures StopRun !in acts ==> s'.live == s.live
    ensures StopRun in acts ==> |s'.io.readers.keys| == 0 && |s'.io.writers.keys| == 0 && s'.live == Cleared(|s.live|)
    ensures |s.io.readers.keys| == 0 ==> |s'.io.readers.keys| == 0
    ensures |s.io.writers.keys| == 0 ==> |s'.io.writers.keys| == 0
    ensures s.live == Cleared(|s.live|) ==> s'.live == s.live
    decreases |acts|
  {
    if |acts| == 0 then s
    else
      var s1 := match acts[0]
        case Remove(st) => s.(io := RemoveIo(s.io, st))
        case StopRun => Sweep(EmptyIo(), Cleared(|s.live|));
      SweepActAll(s1, acts[1..])
  }

  /** `$timers[$i][0] = $due`: updates the due time of a live entry, and
      creates a stub when the entry is gone. */
  function WriteBack<C>(e: Option<TimerEntry<C>>, due: nat): TimerEntry<C> {
    match e
    case Some(Armed(t)) => Armed(t.(due := due))
    case Some(Stub(_)) => Stub(due)
    case None => Stub(due)
  }

  /** The sweep over the snapshot from position `j`, as written: a due entry
      has its callback called; then a repeating timer is written back with
      due time `now + interval` and a one-shot timer is unset. A due stub has
      no callback to call. */
  function SweepFrom<C>(snapshot: seq<TimerEntry<C>>, j: nat, s: Sweep<C>, now: nat, fire: (C, nat) -> seq<Action>): (r: Result<Sweep<C>>)
    requires ValidIo(s.io) && |s.live| == |snapshot| && j <= |snapshot|
    ensures r.Success? ==> ValidIo(r.value.io) && |r.value.live| == |snapshot|
    ensures r.Failure? ==> r.error == NotCallable
    decreases |snapshot| - j
  {
    if j == |snapshot| then Success(s)
    else
      var e := snapshot[j];
      if now < Due(e) then SweepFrom(snapshot, j + 1, s, now, fire)
      else
        match e
        case Stub(_) => Failure(NotCallable)
        case Armed(t) =>
          var s1 := SweepActAll(s, fire(t.cb, now));
          var s2 := if t.repeat then s1.(live := s1.live[j := Some(WriteBack(s1.live[j], now + t.interval))])
                    else s1.(live := s1.live[j := None]);
          SweepFrom(snapshot, j + 1, s2, now, fire)
  }

  /** `array_values`: the entries still present, in order. */
  function Compact<T>(live: seq<Option<T>>): (r: seq<T>)
    ensures |r| <= |live|
    ensures (forall i :: 0 <= i < |live| ==> live[i].None?) ==> r == []
  {
    if |live| == 0 then [] else (if live[0].Some? then [live[0].value] else []) + Compact(live[1..])
  }

  function Live<C>(ts: seq<TimerEntry<C>>): (r: seq<Option<TimerEntry<C>>>)
    ensures |r| == |ts| && forall i :: 0 <= i < |ts| ==> r[i] == Some(ts[i])
  {
    seq(|ts|, i requires 0 <= i < |ts| => Some(ts[i]))
  }

  /** `runTimers` at time `now`, as written. */
  function RunTimers<C>(r: Reactor<C>, now: nat, fire: (C, nat) -> seq<Action>): (r': Result<Reactor<C>>)
    requires Valid(r)
    ensures r'.Success? ==> Valid(r'.value) && |r'.value.timers| <= |r.timers|
    ensures r'.Failure? ==> r'.error == NotCallable
  {
    var s :- SweepFrom(r.timers, 0, Sweep(r.io, Live(r.timers)), now, fire);
    Success(Reactor(s.io, Compact(s.live)))
  }

  /** Reference: what a sweep does to one timer when no callback stops the run:
      a timer not yet due is kept, a due repeating timer is rescheduled to
      `now + interval`, a due one-shot timer is dropped. */
  function After<C>(e: TimerEntry<C>, now: nat): Option<TimerEntry<C>> {
    if now < Due(e) then Some(e)
    else match e
      case Armed(t) => if t.repeat then Some(Armed(t.(due := now + t.interval))) else None
      case Stub(_) => Some(e)
  }

  function AfterAll<C>(ts: seq<TimerEntry<C>>, now: nat): (r: seq<Option<TimerEntry<C>>>)
    ensures |r| == |ts| && forall i :: 0 <= i < |ts| ==> r[i] == After(ts[i], now)
  {
    seq(|ts|, i requires 0 <= i < |ts| => After(ts[i], now))
  }

  function Rescheduled<C>(ts: seq<TimerEntry<C>>, now: nat): seq<TimerEntry<C>> {
    Compact(AfterAll(ts, now))
  }

  /** No due callback in the table stops the run, and every entry is armed. */
  ghost predicate Tame<C>(ts: seq<TimerEntry<C>>, now: nat, fire: (C, nat) -> seq<Action>) {
    forall i :: 0 <= i < |ts| ==> ts[i].Armed? && (Due(ts[i]) <= now ==> StopRun !in fire(ts[i].t.cb, now))
  }

  lemma {:induction false} SweepTame<C>(snapshot: seq<TimerEntry<C>>, j: nat, s: Sweep<C>, now: nat, fire: (C, nat) -> seq<Action>)
    requires ValidIo(s.io) && |s.live| == |snapshot| && j <= |snapshot|
    requires Tame(snapshot, now, fire)
    requires forall i :: j <= i < |snapshot| ==> s.live[i] == Some(snapshot[i])
    ensures SweepFrom(snapshot, j, s, now, fire).Success?
    ensures SweepFrom(snapshot, j, s, now, fire).value.live
            == s.live[..j] + seq(|snapshot| - j, i requires 0 <= i < |snapshot| - j => After(snapshot[j + i], now))
    decreases |snapshot| - j
  {
    if j < |snapshot| {
      var e := snapshot[j];
      var tail := seq(|snapshot| - (j + 1), i requires 0 <= i < |snapshot| - (j + 1) => After(snapshot[j + 1 + i], now));
      var whole := seq(|snapshot| - j, i requires 0 <= i < |snapshot| - j => After(snapshot[j + i], now));
      assert whole == [After(e, now)] + tail;
      var s2 := TameStep(snapshot, j, s, now, fire);
      SweepTame(snapshot, j + 1, s2, now, fire);
      assert s2.live[..j + 1] == s.live[..j] + [After(e, now)];
    }
  }

  /** One timer of a tame sweep: the sweep from it is the sweep from the next
      one after this timer's slot is set to what it becomes. */
  lemma TameStep<C>(snapshot: seq<TimerEntry<C>>, j: nat, s: Sweep<C>, now: nat, fire: (C, nat) -> seq<Action>) returns (s2: Sweep<C>)
    requires ValidIo(s.io) && |s.live| == |snapshot| && j < |snapshot|
    requires snapshot[j].Armed? && (Due(snapshot[j]) <= now ==> StopRun !in fire(snapshot[j].t.cb, now))
    requires s.live[j] == Some(snapshot[j])
    ensures ValidIo(s2.io) && s2.live == s.live[j := After(snapshot[j], now)]
    ensures SweepFrom(snapshot, j, s, now, fire) == SweepFrom(snapshot, j + 1, s2, now, fire)
  {
    var e := snapshot[j];
    if now < Due(e) {
      s2 := s;
    } else {
      var s1 := SweepActAll(s, fire(e.t.cb, now));
      s2 := if e.t.repeat then s1.(live := s1.live[j := Some(WriteBack(s1.live[j], now + e.t.interval))])
            else s1.(live := s1.live[j := None]);
    }
  }

  /** A sweep in which no due callback stops the run keeps the timers that
      are not due, reschedules each due repeating timer to sweep time plus its
      interval, and drops each due one-shot timer, keeping the order. */
  lemma SweepReschedules<C>(r: Reactor<C>, now: nat, fire: (C, nat) -> seq<Action>)
    requires Valid(r) && Tame(r.timers, now, fire)
    ensures RunTimers(r, now, fire).Success?
    ensures RunTimers(r, now, fire).value.timers == Rescheduled(r.timers, now)
  {
    SweepTame(r.timers, 0, Sweep(r.io, Live(r.timers)), now, fire);
    assert Live(r.timers)[..0] + seq(|r.timers| - 0, i requires 0 <= i < |r.timers| - 0 => After(r.timers[0 + i], now))
           == seq(|r.timers|, i requires 0 <= i < |r.timers| => After(r.timers[i], now));
    var sw := SweepFrom(r.timers, 0, Sweep(r.io, Live(r.timers)), now, fire).value;
    assert RunTimers(r, now, fire) == Success(Reactor(sw.io, Compact(sw.live)));
    assert sw.live == AfterAll(r.timers, now);
  }

  /** The snapshot holds a stub, from position `j` on, that is due at `now`. */
  predicate DueStubFrom<C>(snapshot: seq<TimerEntry<C>>, j: nat, now: nat) {
    exists i :: j <= i < |snapshot| && snapshot[i].Stub? && Due(snapshot[i]) <= now
  }

  /** The sweep walks the snapshot taken when it starts, whatever the
      callbacks do to the live table, so it fails exactly when that snapshot
      holds a due stub. */
  lemma {:induction false} SweepFailsIffDueStub<C>(snapshot: seq<TimerEntry<C>>, j: nat, s: Sweep<C>, now: nat, fire: (C, nat) -> seq<Action>)
    requires ValidIo(s.io) && |s.live| == |snapshot| && j <= |snapshot|
    ensures SweepFrom(snapshot, j, s, now, fire).Failure? <==> DueStubFrom(snapshot, j, now)
    decreases |snapshot| - j
  {
    if j < |snapshot| {
      var e := snapshot[j];
      assert DueStubFrom(snapshot, j, now) <==> (e.Stub? && Due(e) <= now) || DueStubFrom(snapshot, j + 1, now);
      if now < Due(e) {
        SweepFailsIffDueStub(snapshot, j + 1, s, now, fire);
      } else if e.Armed? {
        var t := e.t;
        var s1 := SweepActAll(s, fire(t.cb, now));
        var s2 := if t.repeat then s1.(live := s1.live[j := Some(WriteBack(s1.live[j], now + t.interval))])
                  else s1.(live := s1.live[j := None]);
        SweepFailsIffDueStub(snapshot, j + 1, s2, now, fire);
      }
    }
  }

  /** `runTimers` fails exactly when the table it starts from holds a due stub. */
  lemma RunTimersFailsIffDueStub<C>(r: Reactor<C>, now: nat, fire: (C, nat) -> seq<Action>)
    requires Valid(r)
    ensures RunTimers(r, now, fire).Failure? <==> exists i :: 0 <= i < |r.timers| && r.timers[i].Stub? && Due(r.timers[i]) <= now
  {
    SweepFailsIffDueStub(r.timers, 0, Sweep(r.io, Live(r.timers)), now, fire);
  }

  // ---------------------------------------------------------------------
  // One turn of the run loop

  /** The earliest due time of a non-empty timer table. */
  function MinDue<C>(ts: seq<TimerEntry<C>>): (m: nat)
    requires |ts| > 0
    ensures forall i :: 0 <= i < |ts| ==> m <= Due(ts[i])
    ensures exists i :: 0 <= i < |ts| && m == Due(ts[i])
  {
    if |ts| == 1 then Due(ts[0])
    else
      var rest := MinDue(ts[1..]);
      assert forall i :: 1 <= i < |ts| ==> rest <= Due(ts[i]) by {
        forall i | 1 <= i < |ts| ensures rest <= Due(ts[i]) { assert ts[i] == ts[1..][i - 1]; }
      }
      if Due(ts[0]) <= rest then Due(ts[0])
      else
        ghost var k :| 0 <= k < |ts[1..]| && rest == Due(ts[1..][k]);
        assert ts[1..][k] == ts[k + 1];
        rest
  }

  /** The wait before the next timer: none without timers, otherwise the
      ticks until the earliest due time, and zero when one is already due. */
  function Timeout<C>(r: Reactor<C>, now: nat): (t: Option<nat>)
    ensures t.None? <==> |r.timers| == 0
    ensures t.Some? ==> (t.value == 0 <==> exists i :: 0 <= i < |r.timers| && Due(r.timers[i]) <= now)
    ensures t.Some? && t.value > 0 ==> forall i :: 0 <= i < |r.timers| ==> now + t.value <= Due(r.timers[i])
  {
    if |r.timers| == 0 then None
    else
      var m := MinDue(r.timers);
      Some(if m <= now then 0 else m - now)
  }

  /** How a turn waits: select on the registered streams, or sleep when no
      stream is registered. */
  datatype Wait = Select(readers: seq<int>, writers: seq<int>, timeout: Option<nat>) | Sleep(ticks: nat) | NoWait

  function WaitFor<C>(r: Reactor<C>, now: nat): (w: Wait)
    ensures (|r.io.readers.keys| > 0 || |r.io.writers.keys| > 0) <==> w.Select?
    ensures w.Select? ==> w.readers == r.io.readers.keys && w.writers == r.io.writers.keys && w.timeout == Timeout(r, now)
    ensures w.Sleep? ==> Timeout(r, now) == Some(w.ticks)
    ensures !Idle(r) && !w.Select? ==> w.Sleep?
  {
    if |r.io.readers.keys| > 0 || |r.io.writers.keys| > 0 then Select(r.io.readers.keys, r.io.writers.keys, Timeout(r, now))
    else match Timeout(r, now)
      case Some(t) => Sleep(t)
      case None => NoWait
  }

  /** The streams the select reports ready, in registration order. */
  function Filter(s: seq<int>, ready: int -> bool): (r: seq<int>)
    ensures forall x :: x in r <==> x in s && ready(x)
  {
    if |s| == 0 then [] else (if ready(s[0]) then [s[0]] else []) + Filter(s[1..], ready)
  }

  /** The read or the write handler table. */
  function Table<C>(r: Reactor<C>, readers: bool): PhpArray.Arr<int, C> {
    if readers then r.io.readers else r.io.writers
  }

  /** Call the handler of each ready stream, looked up in the live table at
      the moment of the call, with no check that it is still there. */
  function DispatchReady<C>(r: Reactor<C>, ready: seq<int>, readers: bool, now: nat, fire: (C, nat) -> seq<Action>): (r': Result<Reactor<C>>)
    requires Valid(r)
    ensures r'.Success? ==> Valid(r'.value)
    ensures r'.Failure? ==> r'.error == NotCallable
    decreases |ready|
  {
    if |ready| == 0 then Success(r)
    else
      var table := Table(r, readers);
      if ready[0] !in table.vals then Failure(NotCallable)
      else DispatchReady(ActAll(r, fire(table.vals[ready[0]], now)), ready[1..], readers, now, fire)
  }

  /** The outside world seen by one turn: the time the turn starts, which
      streams the select reports ready, and the time the sweep reads. */
  datatype TurnInput = TurnInput(now: nat, readyRead: int -> bool, readyWrite: int -> bool, sweepAt: nat)

  /** One turn of `run`: ready reads, then ready writes, then the sweep. */
  function Turn<C>(r: Reactor<C>, input: TurnInput, fire: (C, nat) -> seq<Action>): (r': Result<Reactor<C>>)
    requires Valid(r)
    ensures r'.Success? ==> Valid(r'.value)
  {
    var readers := Filter(r.io.readers.keys, input.readyRead);
    var writers := Filter(r.io.writers.keys, input.readyWrite);
    var r1 :- DispatchReady(r, readers, true, input.now, fire);
    var r2 :- DispatchReady(r1, writers, false, input.now, fire);
    RunTimers(r2, input.sweepAt, fire)
  }

  // ---------------------------------------------------------------------
  // Dispatch against a reference

  /** Reference: the operations the ready streams' handlers perform, each
      called with the handler `t0` holds for its stream, in ready order. */
  function Fired<C>(t0: map<int, C>, ready: seq<int>, now: nat, fire: (C, nat) -> seq<Action>): seq<Action>
    requires forall i :: 0 <= i < |ready| ==> ready[i] in t0
    decreases |ready|
  {
    if |ready| == 0 then [] else fire(t0[ready[0]], now) + Fired(t0, ready[1..], now, fire)
  }

  /** Every handler of `h` is the one `t0` holds for that stream. */
  ghost predicate Within<C>(h: map<int, C>, t0: map<int, C>) {
    forall s :: s in h ==> s in t0 && h[s] == t0[s]
  }

  /** The i-th ready stream still has a handler once the calls before it have
      performed their operations. */
  ghost predicate Reached<C>(r: Reactor<C>, t0: map<int, C>, ready: seq<int>, readers: bool, now: nat, fire: (C, nat) -> seq<Action>, i: nat)
    requires Valid(r) && i < |ready|
    requires forall k :: 0 <= k < |ready| ==> ready[k] in t0
  {
    ready[i] in Table(ActAll(r, Fired(t0, ready[..i], now, fire)), readers).vals
  }

  lemma {:induction false} ActAllAppend<C>(r: Reactor<C>, a: seq<Action>, b: seq<Action>)
    requires Valid(r)
    ensures ActAll(r, a + b) == ActAll(ActAll(r, a), b)
    decreases |a|
  {
    if |a| > 0 {
      var r1 := match a[0] case Remove(s) => Remove(r, s) case StopRun => Stop(r);
      assert (a + b)[0] == a[0] && (a + b)[1..] == a[1..] + b;
      ActAllAppend(r1, a[1..], b);
    } else {
      assert a + b == b;
    }
  }

  /** Removing streams and stopping never add a handler or change one. */
  lemma {:induction false} ActAllWithin<C>(r: Reactor<C>, acts: seq<Action>, readers: bool, t0: map<int, C>)
    requires Valid(r) && Within(Table(r, readers).vals, t0)
    ensures Within(Table(ActAll(r, acts), readers).vals, t0)
    decreases |acts|
  {
    if |acts| > 0 {
      var r1 := match acts[0] case Remove(s) => Remove(r, s) case StopRun => Stop(r);
      assert Within(Table(r1, readers).vals, t0);
      ActAllWithin(r1, acts[1..], readers, t0);
    }
  }

  /** A stream keeps its handler through operations that neither stop the
      run nor remove that stream. */
  lemma {:induction false} ActAllKeeps<C>(r: Reactor<C>, acts: seq<Action>, readers: bool, st: int)
    requires Valid(r) && st in Table(r, readers).vals
    requires StopRun !in acts && Action.Remove(st) !in acts
    ensures st in Table(ActAll(r, acts), readers).vals
    decreases |acts|
  {
    if |acts| > 0 {
      var r1 := match acts[0] case Remove(s) => Remove(r, s) case StopRun => Stop(r);
      assert acts[0] != StopRun && acts[0] != Action.Remove(st);
      ActAllKeeps(r1, acts[1..], readers, st);
    }
  }

  /** An operation no handler of the streams performs is not fired. */
  lemma {:induction false} FiredAvoids<C>(t0: map<int, C>, ready: seq<int>, now: nat, fire: (C, nat) -> seq<Action>, a: Action)
    requires forall i :: 0 <= i < |ready| ==> ready[i] in t0
    requires forall i :: 0 <= i < |ready| ==> a !in fire(t0[ready[i]], now)
    ensures a !in Fired(t0, ready, now, fire)
    decreases |ready|
  {
    if |ready| > 0 {
      FiredAvoids(t0, ready[1..], now, fire, a);
    }
  }

  /** After the first ready stream's handler has run, reaching stream `i`
      is reaching stream `i - 1` of the rest. */
  lemma ReachedShift<C>(r: Reactor<C>, t0: map<int, C>, ready: seq<int>, readers: bool, now: nat, fire: (C, nat) -> seq<Action>, i: nat)
    requires Valid(r) && 0 < i < |ready|
    requires forall k :: 0 <= k < |ready| ==> ready[k] in t0
    ensures Reached(r, t0, ready, readers, now, fire, i)
            <==> Reached(ActAll(r, fire(t0[ready[0]], now)), t0, ready[1..], readers, now, fire, i - 1)
  {
    var first := fire(t0[ready[0]], now);
    assert ready[..i][0] == ready[0] && ready[..i][1..] == ready[1..][..i - 1];
    assert Fired(t0, ready[..i], now, fire) == first + Fired(t0, ready[1..][..i - 1], now, fire);
    ActAllAppend(r, first, Fired(t0, ready[1..][..i - 1], now, fire));
  }

  /** Dispatch against the reference: it succeeds exactly when every ready
      stream still has a handler when its turn comes, and then the reactor
      is the one the reference operations produce. `t0` is any table the
      live handlers agree with. */
  lemma {:induction false} DispatchTrace<C>(r: Reactor<C>, t0: map<int, C>, ready: seq<int>, readers: bool, now: nat, fire: (C, nat) -> seq<Action>)
    requires Valid(r) && Within(Table(r, readers).vals, t0)
    requires forall i :: 0 <= i < |ready| ==> ready[i] in t0
    ensures DispatchReady(r, ready, readers, now, fire).Success?
            <==> forall i :: 0 <= i < |ready| ==> Reached(r, t0, ready, readers, now, fire, i)
    ensures DispatchReady(r, ready, readers, now, fire).Success?
            ==> DispatchReady(r, ready, readers, now, fire).value == ActAll(r, Fired(t0, ready, now, fire))
    decreases |ready|
  {
    if |ready| == 0 {
      assert Fired(t0, ready, now, fire) == [];
    } else {
      var st := ready[0];
      assert ready[..0] == [];
      assert Fired(t0, ready[..0], now, fire) == [];
      assert Reached(r, t0, ready, readers, now, fire, 0) <==> st in Table(r, readers).vals;
      if st in Table(r, readers).vals {
        var first := fire(t0[st], now);
        var r1 := ActAll(r, first);
        assert DispatchReady(r, ready, readers, now, fire) == DispatchReady(r1, ready[1..], readers, now, fire);
        ActAllWithin(r, first, readers, t0);
        DispatchTrace(r1, t0, ready[1..], readers, now, fire);
        forall i | 0 < i < |ready|
          ensures Reached(r, t0, ready, readers, now, fire, i) <==> Reached(r1, t0, ready[1..], readers, now, fire, i - 1)
        {
          ReachedShift(r, t0, ready, readers, now, fire, i);
        }
        if forall j :: 0 <= j < |ready[1..]| ==> Reached(r1, t0, ready[1..], readers, now, fire, j) {
          forall i | 0 < i < |ready| ensures Reached(r, t0, ready, readers, now, fire, i) {
            assert Reached(r1, t0, ready[1..], readers, now, fire, i - 1);
          }
        }
        if forall i :: 0 <= i < |ready| ==> Reached(r, t0, ready, readers, now, fire, i) {
          forall j | 0 <= j < |ready[1..]| ensures Reached(r1, t0, ready[1..], readers, now, fire, j) {
            assert Reached(r, t0, ready, readers, now, fire, j + 1);
          }
        }
        assert Fired(t0, ready, now, fire) == first + Fired(t0, ready[1..], now, fire);
        ActAllAppend(r, first, Fired(t0, ready[1..], now, fire));
      }
    }
  }

  /** When no handler called for a ready stream stops the run or removes a
      ready stream that comes after it, every handler is called with the
      operations of those before it applied, and the result is the
      reference. `t0` is any table the live handlers agree with, such as the
      live table itself. */
  lemma DispatchUndisturbed<C>(r: Reactor<C>, t0: map<int, C>, ready: seq<int>, readers: bool, now: nat, fire: (C, nat) -> seq<Action>)
    requires Valid(r) && Within(Table(r, readers).vals, t0)
    requires forall i :: 0 <= i < |ready| ==> ready[i] in Table(r, readers).vals && ready[i] in t0
    requires forall i :: 0 <= i < |ready| ==> StopRun !in fire(t0[ready[i]], now)
    requires forall i, j :: 0 <= i < j < |ready| ==> Action.Remove(ready[j]) !in fire(t0[ready[i]], now)
    ensures DispatchReady(r, ready, readers, now, fire) == Success(ActAll(r, Fired(t0, ready, now, fire)))
  {
    forall i | 0 <= i < |ready| ensures Reached(r, t0, ready, readers, now, fire, i) {
      var pre := ready[..i];
      FiredAvoids(t0, pre, now, fire, StopRun);
      forall k | 0 <= k < |pre| ensures Action.Remove(ready[i]) !in fire(t0[pre[k]], now) {
        assert pre[k] == ready[k];
      }
      FiredAvoids(t0, pre, now, fire, Action.Remove(ready[i]));
      ActAllKeeps(r, Fired(t0, pre, now, fire), readers, ready[i]);
    }
    DispatchTrace(r, t0, ready, readers, now, fire);
  }

  /** No handler of `t` for a stream of `ready` stops the run or removes a
      stream of `streams`. */
  ghost predicate Harmless<C>(t: map<int, C>, ready: seq<int>, streams: seq<int>, now: nat, fire: (C, nat) -> seq<Action>) {
    forall i :: 0 <= i < |ready| && ready[i] in t ==>
      && StopRun !in fire(t[ready[i]], now)
      && forall st :: st in streams ==> Action.Remove(st) !in fire(t[ready[i]], now)
  }

  /** A turn in which no called handler stops the run or removes a ready
      stream: every ready read handler runs, then every ready write handler,
      each as registered when the turn started, then the sweep. */
  lemma TurnUndisturbed<C>(r: Reactor<C>, input: TurnInput, fire: (C, nat) -> seq<Action>)
    requires Valid(r)
    requires Harmless(r.io.readers.vals, Filter(r.io.readers.keys, input.readyRead),
                      Filter(r.io.readers.keys, input.readyRead) + Filter(r.io.writers.keys, input.readyWrite), input.now, fire)
    requires Harmless(r.io.writers.vals, Filter(r.io.writers.keys, input.readyWrite), Filter(r.io.writers.keys, input.readyWrite), input.now, fire)
    ensures var rs := Filter(r.io.readers.keys, input.readyRead);
            var ws := Filter(r.io.writers.keys, input.readyWrite);
            var r1 := ActAll(r, Fired(r.io.readers.vals, rs, input.now, fire));
            var r2 := ActAll(r1, Fired(r.io.writers.vals, ws, input.now, fire));
            Turn(r, input, fire) == RunTimers(r2, input.sweepAt, fire)
  {
    var now := input.now;
    var rs := Filter(r.io.readers.keys, input.readyRead);
    var ws := Filter(r.io.writers.keys, input.readyWrite);
    assert forall i :: 0 <= i < |rs| ==> rs[i] in r.io.readers.vals;
    assert forall i :: 0 <= i < |ws| ==> ws[i] in r.io.writers.vals;
    ReadsUndisturbed(r, rs, ws, now, fire);
    var r1 := ActAll(r, Fired(r.io.readers.vals, rs, now, fire));
    WritesUndisturbed(r1, r.io.writers.vals, ws, now, fire);
    TurnOf(r, input, fire, r1, ActAll(r1, Fired(r.io.writers.vals, ws, now, fire)));
  }

  /** The read half of an undisturbed turn: the reference result, with every
      ready writer keeping its handler. */
  lemma ReadsUndisturbed<C>(r: Reactor<C>, rs: seq<int>, ws: seq<int>, now: nat, fire: (C, nat) -> seq<Action>)
    requires Valid(r)
    requires forall i :: 0 <= i < |rs| ==> rs[i] in r.io.readers.vals
    requires forall i :: 0 <= i < |ws| ==> ws[i] in r.io.writers.vals
    requires Harmless(r.io.readers.vals, rs, rs + ws, now, fire)
    ensures var r1 := ActAll(r, Fired(r.io.readers.vals, rs, now, fire));
            && DispatchReady(r, rs, true, now, fire) == Success(r1)
            && Within(r1.io.writers.vals, r.io.writers.vals)
            && forall i :: 0 <= i < |ws| ==> ws[i] in r1.io.writers.vals
  {
    HarmlessIsQuiet(r.io.readers.vals, rs, ws, now, fire);
    DispatchUndisturbed(r, r.io.readers.vals, rs, true, now, fire);
    WritersSurviveReads(r, rs, ws, now, fire);
  }

  /** The write half of an undisturbed turn, against the writers registered
      when the turn started. */
  lemma WritesUndisturbed<C>(r1: Reactor<C>, t0: map<int, C>, ws: seq<int>, now: nat, fire: (C, nat) -> seq<Action>)
    requires Valid(r1) && Within(r1.io.writers.vals, t0)
    requires forall i :: 0 <= i < |ws| ==> ws[i] in r1.io.writers.vals && ws[i] in t0
    requires Harmless(t0, ws, ws, now, fire)
    ensures DispatchReady(r1, ws, false, now, fire) == Success(ActAll(r1, Fired(t0, ws, now, fire)))
  {
    assert ws + [] == ws;
    HarmlessIsQuiet(t0, ws, [], now, fire);
    DispatchUndisturbed(r1, t0, ws, false, now, fire);
  }

  /** A turn whose two dispatches succeed ends with the sweep of what they
      leave. */
  lemma TurnOf<C>(r: Reactor<C>, input: TurnInput, fire: (C, nat) -> seq<Action>, r1: Reactor<C>, r2: Reactor<C>)
    requires Valid(r)
    requires DispatchReady(r, Filter(r.io.readers.keys, input.readyRead), true, input.now, fire) == Success(r1)
    requires DispatchReady(r1, Filter(r.io.writers.keys, input.readyWrite), false, input.now, fire) == Success(r2)
    ensures Valid(r2)
    ensures Turn(r, input, fire) == RunTimers(r2, input.sweepAt, fire)
  {
  }

  /** What `Harmless` says, in the form the dispatch lemma asks for. */
  lemma HarmlessIsQuiet<C>(t: map<int, C>, ready: seq<int>, more: seq<int>, now: nat, fire: (C, nat) -> seq<Action>)
    requires forall i :: 0 <= i < |ready| ==> ready[i] in t
    requires Harmless(t, ready, ready + more, now, fire)
    ensures forall i :: 0 <= i < |ready| ==> StopRun !in fire(t[ready[i]], now)
    ensures forall i, j :: 0 <= i < j < |ready| ==> Action.Remove(ready[j]) !in fire(t[ready[i]], now)
  {
    forall i, j | 0 <= i < j < |ready| ensures Action.Remove(ready[j]) !in fire(t[ready[i]], now) {
      assert ready[j] in ready + more;
    }
  }

  /** Read handlers that neither stop the run nor remove a ready writer
      leave every ready writer its handler as registered. */
  lemma WritersSurviveReads<C>(r: Reactor<C>, rs: seq<int>, ws: seq<int>, now: nat, fire: (C, nat) -> seq<Action>)
    requires Valid(r)
    requires forall i :: 0 <= i < |rs| ==> rs[i] in r.io.readers.vals
    requires forall i :: 0 <= i < |ws| ==> ws[i] in r.io.writers.vals
    requires Harmless(r.io.readers.vals, rs, rs + ws, now, fire)
    ensures var r1 := ActAll(r, Fired(r.io.readers.vals, rs, now, fire));
            && Within(r1.io.writers.vals, r.io.writers.vals)
            && forall i :: 0 <= i < |ws| ==> ws[i] in r1.io.writers.vals
  {
    var fromReads := Fired(r.io.readers.vals, rs, now, fire);
    ActAllWithin(r, fromReads, false, r.io.writers.vals);
    FiredAvoids(r.io.readers.vals, rs, now, fire, StopRun);
    forall i | 0 <= i < |ws| ensures ws[i] in ActAll(r, fromReads).io.writers.vals {
      assert ws[i] in rs + ws;
      FiredAvoids(r.io.readers.vals, rs, now, fire, Action.Remove(ws[i]));
      ActAllKeeps(r, fromReads, false, ws[i]);
    }
  }

  datatype RunResult<C> = Stopped(r: Reactor<C>) | Crashed(error: Exception) | OutOfTurns(r: Reactor<C>)

  /** `run`: turn while any handler or timer remains. */
  function Run<C>(r: Reactor<C>, inputs: nat -> TurnInput, k: nat, fire: (C, nat) -> seq<Action>, fuel: nat): (res: RunResult<C>)
    requires Valid(r)
    ensures res.Stopped? ==> Idle(res.r)
    ensures Idle(r) ==> res == Stopped(r)
    decreases fuel
  {
    if Idle(r) then Stopped(r)
    else if fuel == 0 then OutOfTurns(r)
    else
      match Turn(r, inputs(k), fire)
      case Failure(e) => Crashed(e)
      case Success(r1) => Run(r1, inputs, k + 1, fire, fuel - 1)
  }

  // ---------------------------------------------------------------------
  // What the missing re-checks lead to

  /** A repeating timer whose callback stops the run is written back into the
      cleared table as a stub, so the loop does not end and the next sweep
      that finds the stub due has no callback to call. */
  lemma StopFromRepeatingTimerLeavesStub<C>(r: Reactor<C>, cb: C, now: nat, later: nat, fire: (C, nat) -> seq<Action>)
    requires Valid(r) && |r.timers| == 1 && r.timers[0].Armed?
    requires r.timers[0].t.repeat && r.timers[0].t.due <= now && r.timers[0].t.cb == cb
    requires fire(cb, now) == [StopRun]
    requires later >= now + r.timers[0].t.interval
    ensures RunTimers(r, now, fire).Success?
    ensures RunTimers(r, now, fire).value.timers == [Stub(now + r.timers[0].t.interval)]
    ensures !Idle(RunTimers(r, now, fire).value)
    ensures RunTimers(RunTimers(r, now, fire).value, later, fire) == Failure(NotCallable)
  {
    var t := r.timers[0].t;
    var s0 := Sweep(r.io, Live(r.timers));
    var s1 := SweepActAll(s0, [StopRun]);
    assert s1.live == [None];
    var s2 := s1.(live := s1.live[0 := Some(WriteBack(s1.live[0], now + t.interval))]);
    assert s2.live == [Some(Stub(now + t.interval))];
    assert SweepFrom(r.timers, 1, s2, now, fire) == Success(s2);
    assert SweepFrom(r.timers, 0, s0, now, fire) == Success(s2);
    var r1 := RunTimers(r, now, fire).value;
    assert r1.timers == Compact(s2.live);
    assert r1.timers == [Stub(now + t.interval)] by {
      assert Compact(s2.live) == [Stub(now + t.interval)] + Compact(s2.live[1..]);
    }
    var stubs := [Stub(now + t.interval)];
    var snap1 := Sweep(r1.io, Live(stubs));
    assert SweepFrom(stubs, 0, snap1, later, fire) == Failure(NotCallable);
  }

  /** A read handler that removes or stops the run before the next ready
      stream's handler is looked up leaves that lookup empty, and the turn fails. */
  lemma HandlerGoneMidBatch<C>(r: Reactor<C>, input: TurnInput, fire: (C, nat) -> seq<Action>, s1: int, s2: int)
    requires Valid(r) && s1 != s2
    requires r.io.readers.keys == [s1, s2]
    requires input.readyRead(s1) && input.readyRead(s2)
    requires fire(r.io.readers.vals[s1], input.now) == [StopRun]
    ensures Turn(r, input, fire) == Failure(NotCallable)
  {
    assert Filter(r.io.readers.keys, input.readyRead) == [s1, s2] by {
      var ks := r.io.readers.keys;
      assert ks[1..] == [s2] && ks[1..][1..] == [];
      assert Filter(ks[1..][1..], input.readyRead) == [];
      assert Filter(ks[1..], input.readyRead) == [s2];
    }
    assert s1 in r.io.readers.keys;
    var r1 := ActAll(r, [StopRun]);
    assert ActAll(r, [StopRun]) == ActAll(Stop(r), []);
    assert s2 !in r1.io.readers.vals;
    assert [s1, s2][1..] == [s2];
    assert DispatchReady(r1, [s2], true, input.now, fire) == Failure(NotCallable);
    assert DispatchReady(r, [s1, s2], true, input.now, fire) == Failure(NotCallable);
  }

  // ---------------------------------------------------------------------
  // The sweep with the evidently intended re-check

  /** The sweep with a re-check: a repeating timer is written back only when
      its entry is still in the table. */
  function SweepFromChecked<C>(snapshot: seq<TimerEntry<C>>, j: nat, s: Sweep<C>, now: nat, fire: (C, nat) -> seq<Action>): (r: Result<Sweep<C>>)
    requires ValidIo(s.io) && |s.live| == |snapshot| && j <= |snapshot|
    ensures r.Success? ==> ValidIo(r.value.io) && |r.value.live| == |snapshot|
    ensures (forall i :: 0 <= i < |snapshot| ==> snapshot[i].Armed?) ==> r.Success?
    ensures r.Success? && |s.io.readers.keys| == 0 && |s.io.writers.keys| == 0 && s.live == Cleared(|snapshot|) ==>
              |r.value.io.readers.keys| == 0 && |r.value.io.writers.keys| == 0 && r.value.live == Cleared(|snapshot|)
    ensures r.Success? && (exists i :: j <= i < |snapshot| && snapshot[i].Armed? && Due(snapshot[i]) <= now
                                        && StopRun in fire(snapshot[i].t.cb, now)) ==>
              |r.value.io.readers.keys| == 0 && |r.value.io.writers.keys| == 0 && r.value.live == Cleared(|snapshot|)
    decreases |snapshot| - j
  {
    if j == |snapshot| then Success(s)
    else
      var e := snapshot[j];
      if now < Due(e) then SweepFromChecked(snapshot, j + 1, s, now, fire)
      else
        match e
        case Stub(_) => Failure(NotCallable)
        case Armed(t) =>
          var s1 := SweepActAll(s, fire(t.cb, now));
          var s2 := if t.repeat && s1.live[j].Some? then s1.(live := s1.live[j := Some(WriteBack(s1.live[j], now + t.interval))])
                    else s1.(live := s1.live[j := None]);
          assert StopRun in fire(t.cb, now) ==> s2.live == Cleared(|snapshot|);
          SweepFromChecked(snapshot, j + 1, s2, now, fire)
  }

  function RunTimersChecked<C>(r: Reactor<C>, now: nat, fire: (C, nat) -> seq<Action>): (r': Result<Reactor<C>>)
    requires Valid(r)
    ensures r'.Success? ==> Valid(r'.value) && |r'.value.timers| <= |r.timers|
  {
    var s :- SweepFromChecked(r.timers, 0, Sweep(r.io, Live(r.timers)), now, fire);
    Success(Reactor(s.io, Compact(s.live)))
  }

  /** With the re-check, a due callback that stops the run leaves the reactor
      idle after the sweep, so the run loop ends. */
  lemma CheckedStopIsFinal<C>(r: Reactor<C>, now: nat, fire: (C, nat) -> seq<Action>, i: nat)
    requires Valid(r) && forall k :: 0 <= k < |r.timers| ==> r.timers[k].Armed?
    requires i < |r.timers| && Due(r.timers[i]) <= now && StopRun in fire(r.timers[i].t.cb, now)
    ensures RunTimersChecked(r, now, fire).Success?
    ensures Idle(RunTimersChecked(r, now, fire).value)
  {
  }
}

=== FILE: sanitize.dfy ===
/** The HTTP helper's sanitizer: removal of invisible and control characters
    from text (decoded to runes and re-encoded) and from raw bytes (decoded
    rune by rune, with bytes that are not UTF-8 kept as they are). Go's
    UTF-8 decoder is modelled exactly: an ill-formed, overlong, surrogate,
    out-of-range or truncated sequence decodes as the replacement rune with
    size one. */
module Sanitize {

  type Byte = x: int | 0 <= x < 256

  const RuneError := 0xFFFD

  /** The invisible rune table, group by group as listed. */
  const C0Controls: set<int> := {
    0x00, 0x01, 0x02, 0x03, 0x04, 0x05, 0x06, 0x07, 0x08, 0x09,
    0x0A, 0x0B, 0x0C, 0x0D, 0x0E, 0x0F, 0x10, 0x11, 0x12, 0x13,
    0x14, 0x15, 0x16, 0x17, 0x18, 0x19, 0x1A, 0x1B, 0x1C, 0x1D,
    0x1E, 0x1F}
  const Spaces: set<int> := {
    0xA0, 0x1680, 0x180E,
    0x2000, 0x2001, 0x2002, 0x2003, 0x2004, 0x2005, 0x2006, 0x2007, 0x2008, 0x2009,
    0x200A}
  const ZeroWidth: set<int> := {0x200B, 0x200C, 0x200D, 0x2060}
  const BiDi: set<int> := {0x200E, 0x200F, 0x202A, 0x202B, 0x202C, 0x202D, 0x202E}
  const InvisibleOperators: set<int> := {0x2061, 0x2062, 0x2063, 0x2064}
  const ByteOrderMark: set<int> := {0xFEFF}
  const InvisibleRunes: set<int> := C0Controls + Spaces + ZeroWidth + BiDi + InvisibleOperators + ByteOrderMark

  /** The same table as ranges: C0 controls, no-break space, Ogham space,
      Mongolian vowel separator, the general-punctuation spaces, zero-width
      and direction marks, the bidirectional embeddings, word joiner and
      invisible operators, and the byte order mark. */
  predicate Blocked(r: int) {
    || 0 <= r <= 0x1F
    || r == 0xA0 || r == 0x1680 || r == 0x180E
    || 0x2000 <= r <= 0x200F
    || 0x202A <= r <= 0x202E
    || 0x2060 <= r <= 0x2064
    || r == 0xFEFF
  }

  lemma BlockedIsTable(r: int)
    ensures r in InvisibleRunes <==> Blocked(r)
  {
    C0ControlsAreRange(r);
    SpacesAreListed(r);
    MarksAreListed(r);
    assert r in InvisibleRunes <==>
      r in C0Controls || r in Spaces || r in ZeroWidth || r in BiDi || r in InvisibleOperators || r in ByteOrderMark;
  }

  lemma C0ControlsAreRange(r: int)
    ensures r in C0Controls <==> 0 <= r <= 0x1F
  {
    if 0 <= r <= 0x1F {
      if r < 8 {} else if r < 16 {} else if r < 24 {} else {}
    }
  }

  lemma SpacesAreListed(r: int)
    ensures r in Spaces <==> r == 0xA0 || r == 0x1680 || r == 0x180E || 0x2000 <= r <= 0x200A
  {
    if 0x2000 <= r <= 0x200A {
      if r < 0x2005 {} else {}
    }
  }

  lemma MarksAreListed(r: int)
    ensures r in ZeroWidth || r in BiDi <==> 0x200B <= r <= 0x200F || 0x202A <= r <= 0x202E || r == 0x2060
    ensures r in InvisibleOperators <==> 0x2061 <= r <= 0x2064
    ensures r in ByteOrderMark <==> r == 0xFEFF
  {
  }

  /** A Unicode scalar value: what a rune may hold once decoded. */
  predicate Scalar(r: int) {
    0 <= r <= 0x10FFFF && !(0xD800 <= r <= 0xDFFF)
  }

  predicate Cont(x: int) {
    0x80 <= x <= 0xBF
  }

  /** `utf8.DecodeRune`: the first rune and the number of bytes it takes. */
  function Decode(b: seq<Byte>): (r: (int, nat))
    requires |b| > 0
    ensures 1 <= r.1 <= |b| && r.1 <= 4
    ensures Scalar(r.0)
    ensures r.1 == 1 ==> r.0 == b[0] || r.0 == RuneError
    ensures b[0] < 0x80 ==> r == (b[0], 1)
  {
    var b0: int := b[0];
    if b0 < 0x80 then (b0, 1)
    else if 0xC2 <= b0 <= 0xDF then
      if |b| >= 2 && Cont(b[1]) then ((b0 - 0xC0) * 64 + (b[1] as int - 0x80), 2) else (RuneError, 1)
    else if 0xE0 <= b0 <= 0xEF then
      var lo := if b0 == 0xE0 then 0xA0 else 0x80;
      var hi := if b0 == 0xED then 0x9F else 0xBF;
      if |b| >= 3 && lo <= b[1] <= hi && Cont(b[2]) then
        ((b0 - 0xE0) * 4096 + (b[1] as int - 0x80) * 64 + (b[2] as int - 0x80), 3)
      else (RuneError, 1)
    else if 0xF0 <= b0 <= 0xF4 then
      var lo := if b0 == 0xF0 then 0x90 else 0x80;
      var hi := if b0 == 0xF4 then 0x8F else 0xBF;
      if |b| >= 4 && lo <= b[1] <= hi && Cont(b[2]) && Cont(b[3]) then
        ((b0 - 0xF0) * 262144 + (b[1] as int - 0x80) * 4096 + (b[2] as int - 0x80) * 64 + (b[3] as int - 0x80), 4)
      else (RuneError, 1)
    else (RuneError, 1)
  }

  /** Where the decoder gives up on a byte. */
  predicate Invalid(b: seq<Byte>)
    requires |b| > 0
  {
    Decode(b) == (RuneError, 1)
  }

  /** UTF-8 encoding of one scalar value. */
  function Encode(r: int): (e: seq<Byte>)
    requires Scalar(r)
    ensures 1 <= |e| <= 4
  {
    if r < 0x80 then [r]
    else if r < 0x800 then [0xC0 + r / 64, 0x80 + r % 64]
    else if r < 0x10000 then [0xE0 + r / 4096, 0x80 + (r / 64) % 64, 0x80 + r % 64]
    else [0xF0 + r / 262144, 0x80 + (r / 4096) % 64, 0x80 + (r / 64) % 64, 0x80 + r % 64]
  }

  /** Decoding undoes encoding, whatever follows. */
  lemma DecodeEncode(r: int, rest: seq<Byte>)
    requires Scalar(r)
    ensures Decode(Encode(r) + rest) == (r, |Encode(r)|)
  {
    if r < 0x80 {
    } else if r < 0x800 {
      DecodeEncodeTwo(r, rest);
    } else if r < 0x10000 {
      DecodeEncodeThree(r, rest);
    } else {
      DecodeEncodeFour(r, rest);
    }
  }

  lemma DecodeEncodeTwo(r: int, rest: seq<Byte>)
    requires 0x80 <= r < 0x800
    ensures Decode(Encode(r) + rest) == (r, 2)
  {
    var e := Encode(r) + rest;
    var q, m := r / 64, r % 64;
    assert r == q * 64 + m && 2 <= q < 32 && 0 <= m < 64;
    assert e[0] == 0xC0 + q && e[1] == 0x80 + m;
  }

  lemma DecodeEncodeThree(r: int, rest: seq<Byte>)
    requires 0x800 <= r < 0x10000 && Scalar(r)
    ensures Decode(Encode(r) + rest) == (r, 3)
  {
    var e := Encode(r) + rest;
    var q1, m1 := r / 64, r % 64;
    var q2, m2 := q1 / 64, q1 % 64;
    assert r == q1 * 64 + m1 && q1 == q2 * 64 + m2;
    assert r / 4096 == q2;
    assert e[0] == 0xE0 + q2 && e[1] == 0x80 + m2 && e[2] == 0x80 + m1;
  }

  lemma DecodeEncodeFour(r: int, rest: seq<Byte>)
    requires 0x10000 <= r <= 0x10FFFF
    ensures Decode(Encode(r) + rest) == (r, 4)
  {
    var e := Encode(r) + rest;
    var q1, m1 := r / 64, r % 64;
    var q2, m2 := q1 / 64, q1 % 64;
    var q3, m3 := q2 / 64, q2 % 64;
    assert r == q1 * 64 + m1 && q1 == q2 * 64 + m2 && q2 == q3 * 64 + m3;
    assert r / 4096 == q2 && r / 262144 == q3;
    assert e[0] == 0xF0 + q3 && e[1] == 0x80 + m3 && e[2] == 0x80 + m2 && e[3] == 0x80 + m1;
  }

  /** One base-64 digit split off. */
  lemma Split64(a: int, q: int, m: int)
    requires a == q * 64 + m && 0 <= m < 64
    ensures a / 64 == q && a % 64 == m
  {
  }

  /** Encoding a rune decoded from well-formed bytes gives those bytes back. */
  lemma EncodeDecode(b: seq<Byte>)
    requires |b| > 0 && !Invalid(b)
    ensures Encode(Decode(b).0) == b[..Decode(b).1]
  {
    var n := Decode(b).1;
    if b[0] < 0x80 {
    } else if n == 2 {
      EncodeDecodeTwo(b);
    } else if n == 3 {
      EncodeDecodeThree(b);
    } else if n == 4 {
      EncodeDecodeFour(b);
    }
  }

  lemma EncodeDecodeTwo(b: seq<Byte>)
    requires |b| > 0 && !Invalid(b) && b[0] >= 0x80 && Decode(b).1 == 2
    ensures Encode(Decode(b).0) == b[..2]
  {
    var r := Decode(b).0;
    Split64(r, b[0] - 0xC0, b[1] - 0x80);
  }

  lemma EncodeDecodeThree(b: seq<Byte>)
    requires |b| > 0 && !Invalid(b) && b[0] >= 0x80 && Decode(b).1 == 3
    ensures Encode(Decode(b).0) == b[..3]
  {
    var r := Decode(b).0;
    var q1: int := (b[0] as int - 0xE0) * 64 + (b[1] as int - 0x80);
    Split64(r, q1, b[2] - 0x80);
    Split64(q1, b[0] - 0xE0, b[1] - 0x80);
    assert r / 4096 == q1 / 64;
  }

  lemma EncodeDecodeFour(b: seq<Byte>)
    requires |b| > 0 && !Invalid(b) && b[0] >= 0x80 && Decode(b).1 == 4
    ensures Encode(Decode(b).0) == b[..4]
  {
    var r := Decode(b).0;
    var q2: int := (b[0] as int - 0xF0) * 64 + (b[1] as int - 0x80);
    var q1: int := q2 * 64 + (b[2] as int - 0x80);
    Split64(r, q1, b[3] - 0x80);
    Split64(q1, q2, b[2] - 0x80);
    Split64(q2, b[0] - 0xF0, b[1] - 0x80);
    assert r / 4096 == q1 / 64;
    assert r / 262144 == q2 / 64;
  }

  /** Go's `range` over a string: the runes, decoded one after the other. */
  function DecodeAll(b: seq<Byte>): (rs: seq<int>)
    ensures forall i :: 0 <= i < |rs| ==> Scalar(rs[i])
    ensures |rs| <= |b|
    decreases |b|
  {
    if |b| == 0 then [] else [Decode(b).0] + DecodeAll(b[Decode(b).1..])
  }

  function EncodeAll(rs: seq<int>): (b: seq<Byte>)
    requires forall i :: 0 <= i < |rs| ==> Scalar(rs[i])
    ensures |rs| <= |b| <= 4 * |rs|
  {
    if |rs| == 0 then [] else Encode(rs[0]) + EncodeAll(rs[1..])
  }

  lemma {:induction false} DecodeAllEncodeAll(rs: seq<int>)
    requires forall i :: 0 <= i < |rs| ==> Scalar(rs[i])
    ensures DecodeAll(EncodeAll(rs)) == rs
  {
    if |rs| > 0 {
      var e := Encode(rs[0]);
      var tail := EncodeAll(rs[1..]);
      DecodeEncode(rs[0], tail);
      assert (e + tail)[|e|..] == tail;
      DecodeAllEncodeAll(rs[1..]);
    }
  }

  /** The runes kept: every rune outside the table, in order. */
  function Filter(rs: seq<int>): (r: seq<int>)
    ensures forall x :: x in r <==> x in rs && !Blocked(x)
    ensures |r| <= |rs|
  {
    if |rs| == 0 then []
    else
      assert forall x :: x in rs <==> x == rs[0] || x in rs[1..];
      (if Blocked(rs[0]) then [] else [rs[0]]) + Filter(rs[1..])
  }

  lemma {:induction false} FilterIsIdempotent(rs: seq<int>)
    ensures Filter(Filter(rs)) == Filter(rs)
  {
    if |rs| > 0 {
      FilterIsIdempotent(rs[1..]);
      if Blocked(rs[0]) {
        assert Filter(rs) == Filter(rs[1..]);
      } else {
        assert ([rs[0]] + Filter(rs[1..]))[1..] == Filter(rs[1..]);
      }
    }
  }

  /** No rune of the bytes, decoded the way Go's `range` does, is in the table. */
  predicate Clean(b: seq<Byte>) {
    forall i :: 0 <= i < |DecodeAll(b)| ==> !Blocked(DecodeAll(b)[i])
  }

  /** The text decoded to runes, the invisible ones dropped, the rest
      encoded again. */
  function RunesKept(b: seq<Byte>): (r: seq<Byte>)
    ensures DecodeAll(r) == Filter(DecodeAll(b))
  {
    var kept := Filter(DecodeAll(b));
    forall i | 0 <= i < |kept| ensures Scalar(kept[i]) {
      var x := kept[i];
      assert x in kept;
      assert x in DecodeAll(b) && !Blocked(x);
      var j :| 0 <= j < |DecodeAll(b)| && DecodeAll(b)[j] == x;
    }
    DecodeAllEncodeAll(kept);
    EncodeAll(kept)
  }

  /** `StripInvisibleRunes`: the runes kept, except that an empty text is
      returned as it is. Ill-formed bytes come back as the encoded
      replacement rune. */
  function StripInvisibleRunes(s: seq<Byte>): (r: seq<Byte>)
    ensures DecodeAll(r) == Filter(DecodeAll(s))
    ensures Clean(r)
  {
    if |s| == 0 then s else RunesKept(s)
  }

  /** Stripping the runes a second time changes nothing. */
  lemma StripInvisibleRunesIsIdempotent(s: seq<Byte>)
    ensures StripInvisibleRunes(StripInvisibleRunes(s)) == StripInvisibleRunes(s)
  {
    var r := StripInvisibleRunes(s);
    if |r| > 0 {
      FilterIsIdempotent(DecodeAll(s));
    }
  }

  /** `b` can be obtained from `a` by deleting bytes. */
  predicate SubseqOf(a: seq<Byte>, b: seq<Byte>)
    decreases |b|
  {
    if |a| == 0 then true
    else if |b| == 0 then false
    else (a[0] == b[0] && SubseqOf(a[1..], b[1..])) || SubseqOf(a, b[1..])
  }

  lemma {:induction false} SubseqSkip(a: seq<Byte>, b: seq<Byte>, k: nat)
    requires k <= |b| && SubseqOf(a, b[k..])
    ensures SubseqOf(a, b)
    decreases k
  {
    if k > 0 {
      assert b[1..][k - 1..] == b[k..];
      SubseqSkip(a, b[1..], k - 1);
    }
  }

  lemma {:induction false} SubseqKeep(a: seq<Byte>, b: seq<Byte>, k: nat)
    requires k <= |b| && SubseqOf(a, b[k..])
    ensures SubseqOf(b[..k] + a, b)
    decreases k
  {
    if k == 0 {
      assert b[..0] + a == a && b[0..] == b;
    } else {
      assert b[1..][k - 1..] == b[k..];
      SubseqKeep(a, b[1..], k - 1);
      var c := b[..k] + a;
      assert c[0] == b[0] && c[1..] == b[1..][..k - 1] + a;
    }
  }

  /** `StripInvisibleBytes`: the bytes walked rune by rune; a byte the
      decoder rejects is copied alone, a rune in the table is dropped, any
      other rune's bytes are copied. An empty input is returned as it is. */
  function StripInvisibleBytes(b: seq<Byte>): (r: seq<Byte>)
    ensures SubseqOf(r, b)
    ensures |r| <= |b|
    ensures |r| == |b| ==> r == b
    decreases |b|
  {
    if |b| == 0 then b
    else
      var (x, n) := Decode(b);
      var rest := StripInvisibleBytes(b[n..]);
      if x == RuneError && n == 1 then
        SubseqKeep(rest, b, 1);
        assert [b[0]] == b[..1];
        assert b == b[..1] + b[1..];
        [b[0]] + rest
      else if Blocked(x) then
        SubseqSkip(rest, b, n);
        rest
      else
        SubseqKeep(rest, b, n);
        assert b == b[..n] + b[n..];
        b[..n] + rest
  }

  /** On well-formed UTF-8 the byte walk and the rune walk agree. */
  predicate WellFormed(b: seq<Byte>)
    decreases |b|
  {
    |b| == 0 || (!Invalid(b) && WellFormed(b[Decode(b).1..]))
  }

  lemma {:induction false} BytesAgreeWithRunes(b: seq<Byte>)
    requires WellFormed(b)
    ensures StripInvisibleBytes(b) == StripInvisibleRunes(b)
    decreases |b|
  {
    if |b| > 0 {
      var (x, n) := Decode(b);
      var tail := b[n..];
      BytesAgreeWithRunes(tail);
      EncodeDecode(b);
      var f := Filter(DecodeAll(tail));
      assert DecodeAll(b) == [x] + DecodeAll(tail);
      assert ([x] + DecodeAll(tail))[1..] == DecodeAll(tail);
      assert StripInvisibleBytes(tail) == RunesKept(tail);
      if Blocked(x) {
        assert Filter(DecodeAll(b)) == f;
        assert StripInvisibleBytes(b) == StripInvisibleBytes(tail);
      } else {
        assert Filter(DecodeAll(b)) == [x] + f;
        assert ([x] + f)[1..] == f;
        assert RunesKept(b) == Encode(x) + EncodeAll(f);
        assert StripInvisibleBytes(b) == b[..n] + StripInvisibleBytes(tail);
      }
    }
  }

  /** A byte walk that starts on a well-formed rune steps over it. */
  lemma DecodeAllStep(b: seq<Byte>)
    requires |b| > 0
    ensures DecodeAll(b) == [Decode(b).0] + DecodeAll(b[Decode(b).1..])
  {
  }

  /** The bytes walk leaves the input alone exactly when no rune of it is
      in the table. */
  lemma {:induction false} StripBytesKeepsExactlyClean(b: seq<Byte>)
    ensures StripInvisibleBytes(b) == b <==> Clean(b)
    decreases |b|
  {
    if |b| > 0 {
      var (x, n) := Decode(b);
      var tail := b[n..];
      StripBytesKeepsExactlyClean(tail);
      DecodeAllStep(b);
      assert DecodeAll(b)[0] == x;
      assert forall i :: 1 <= i < |DecodeAll(b)| ==> DecodeAll(b)[i] == DecodeAll(tail)[i - 1];
      if Clean(b) {
        forall j | 0 <= j < |DecodeAll(tail)| ensures !Blocked(DecodeAll(tail)[j]) {
          assert DecodeAll(tail)[j] == DecodeAll(b)[j + 1];
        }
      }
      if !Blocked(x) && Clean(tail) {
        forall i | 0 <= i < |DecodeAll(b)| ensures !Blocked(DecodeAll(b)[i]) {
          if i > 0 {
            assert DecodeAll(b)[i] == DecodeAll(tail)[i - 1];
          }
        }
      }
      assert Clean(b) <==> !Blocked(x) && Clean(tail);
      assert b == b[..n] + tail;
      var rest := StripInvisibleBytes(tail);
      assert x == RuneError && n == 1 ==> StripInvisibleBytes(b) == b[..n] + rest;
      assert x != RuneError || n != 1 ==>
               StripInvisibleBytes(b) == (if Blocked(x) then [] else b[..n]) + rest;
      assert |rest| <= |tail|;
    }
  }

  /** On well-formed UTF-8 one pass leaves nothing from the table. */
  lemma WellFormedIsCleanAfterOnePass(b: seq<Byte>)
    requires WellFormed(b)
    ensures Clean(StripInvisibleBytes(b))
  {
    BytesAgreeWithRunes(b);
  }

  /** A lead byte whose continuation is a control character is kept as
      ill-formed, the control character is dropped, and the two continuation
      bytes left behind join the lead byte into a zero width space. */
  lemma SmuggledZeroWidthSpace()
    ensures StripInvisibleBytes([0xE2, 0x01, 0x80, 0x8B]) == [0xE2, 0x80, 0x8B]
    ensures DecodeAll([0xE2, 0x80, 0x8B]) == [0x200B] && Blocked(0x200B)
    ensures !Clean(StripInvisibleBytes([0xE2, 0x01, 0x80, 0x8B]))
  {
    var input: seq<Byte> := [0xE2, 0x01, 0x80, 0x8B];
    assert Decode(input) == (RuneError, 1);
    assert input[1..] == [0x01, 0x80, 0x8B];
    assert Decode(input[1..]) == (0x01, 1);
    assert input[1..][1..] == [0x80, 0x8B];
    assert Decode([0x80, 0x8B]) == (RuneError, 1);
    assert [0x80, 0x8B][1..] == [0x8B];
    assert Decode([0x8B]) == (RuneError, 1);
    assert [0x8B][1..] == [];
    assert StripInvisibleBytes([0x8B]) == [0x8B];
    assert StripInvisibleBytes([0x80, 0x8B]) == [0x80, 0x8B];
    assert StripInvisibleBytes(input[1..]) == [0x80, 0x8B];
    var out: seq<Byte> := [0xE2, 0x80, 0x8B];
    assert Decode(out) == (0x200B, 3);
    assert out[3..] == [];
    DecodeAllStep(out);
    assert DecodeAll(out)[0] == 0x200B;
  }

  lemma {:induction false} SubseqTrans(a: seq<Byte>, b: seq<Byte>, c: seq<Byte>)
    requires SubseqOf(a, b) && SubseqOf(b, c)
    ensures SubseqOf(a, c)
    decreases |c|
  {
    if |a| > 0 {
      if SubseqOf(b, c[1..]) {
        SubseqTrans(a, b, c[1..]);
      } else if a[0] == b[0] && SubseqOf(a[1..], b[1..]) {
        SubseqTrans(a[1..], b[1..], c[1..]);
      } else {
        SubseqTrans(a, b[1..], c[1..]);
      }
    }
  }

  /** The byte walk repeated until it changes nothing: what stripping the
      bytes evidently intends, since then no rune of the result is in the
      table. */
  function StripInvisibleBytesFully(b: seq<Byte>): (r: seq<Byte>)
    ensures Clean(r) && StripInvisibleBytes(r) == r
    ensures SubseqOf(r, b)
    ensures Clean(b) ==> r == b
    decreases |b|
  {
    var once := StripInvisibleBytes(b);
    StripBytesKeepsExactlyClean(b);
    if |once| == |b| then
      StripBytesKeepsExactlyClean(once);
      once
    else
      var r := StripInvisibleBytesFully(once);
      SubseqTrans(r, once, b);
      r
  }

  /** On well-formed UTF-8 the repeated walk is the single walk. */
  lemma FullyAgreesOnWellFormed(b: seq<Byte>)
    requires WellFormed(b)
    ensures StripInvisibleBytesFully(b) == StripInvisibleBytes(b)
  {
    var once := StripInvisibleBytes(b);
    WellFormedIsCleanAfterOnePass(b);
    StripBytesKeepsExactlyClean(once);
  }
}

=== FILE: wrappers.dfy ===
/** Failure-compatible result types shared by every component of the model,
    and the exception kinds the PHP code base throws. */
module Wrappers {

  datatype Option<+T> = None | Some(value: T) {
    predicate IsFailure() { None? }

    function PropagateFailure<U>(): Option<U>
      requires None?
    {
      None
    }

    function Extract(): T
      requires Some?
    {
      value
    }

    function GetOr(default: T): T {
      match this
      case Some(v) => v
      case None => default
    }
  }

  /** The exceptions (and engine errors) raised by the PHP sources. */
  datatype Exception =
    | LogicException(message: string)
    | RuntimeException(message: string)
    | InvalidArgumentException(message: string)
    | ValueError(message: string)
    | UnhandledMatchError(message: string)
      /** PHP engine `Error`, e.g. calling a method on null */
    | EngineError(message: string)
      /** PHP `TypeError`, e.g. a built-in given null under strict types */
    | TypeError(message: string)

  datatype Result<+R> = Success(value: R) | Failure(error: Exception) {
    predicate IsFailure() { Failure? }

    function PropagateFailure<U>(): Result<U>
      requires Failure?
    {
      Failure(error)
    }

    function Extract(): R
      requires Success?
    {
      value
    }
  }

  /** PHP truthiness of a nullable string: null, "" and "0" are falsy. */
  predicate Truthy(s: Option<string>) {
    s.Some? && s.value != "" && s.value != "0"
  }
}
